=== FILE: README.md ===
# Portfolio interactive components, modelled in Dafny

This project models the logic behind the interactive parts of a personal
portfolio site, a React single-page application:

- **SplashCursor**, the WebGL fluid-simulation cursor. The model covers its
  CPU side:
  - capability negotiation;
  - the shader-variant cache keyed by a 32-bit string hash;
  - framebuffer allocation and ping-pong swapping;
  - the per-frame pass sequence;
  - pointer bookkeeping, colour cycling and frame pacing.
- **DotGrid**, the canvas of dots that scatter from the mouse:
  - grid layout;
  - colour parsing;
  - the throttled move handler and the velocity clamp;
  - the per-dot push gating on move and on click.
- **LetterGlitch**, the glitching character backdrop:
  - colour parsing and interpolation;
  - the grid of letters;
  - random mutation and the fade of colours;
  - the start/stop logic of the animation loop.
- **CertificatesPage**: the sorted tag list and the search filter.
- **ProjectDetailsPage**: the lookup by slug, how videos are embedded, and the media fallbacks.
- **data/projects.ts**: the catalogue and `getProjectBySlug`.
- **ProjectsShowcase**: the technology filter.
- **Navigation**: the active-section fold on scroll, and link clicks.
- **SkillsVisualization**: the category filter over the skill list.

Values from the browser are parameters of the model functions:

- clocks (`Date.now`, `performance.now`);
- `Math.random` draws;
- element sizes, device pixel ratio, visibility and intersection;
- whether the GPU supports a texture format.

Side effects on the GPU are modelled as a trace of `Draw`/`Swap`
commands over numbered framebuffer handles. JavaScript numbers become
Dafny `real`s. Integer truncation (`x | 0`, `Math.floor`, `Math.round`,
`Math.ceil`, `%`) is written out explicitly; see modules `ShaderVariants`,
`JsMath` and `Pointers`.

Modules and files:

| file | module | models |
|---|---|---|
| wrappers.dfy | Wrappers | `Option` |
| text.dfy | Text | `indexOf`/`includes`, first-occurrence `replace`, ASCII `toLowerCase`/`trim`, decimal and hex digits, string order by character code (the UTF-16 order on Basic Multilingual Plane text) |
| seqs.dfy | Seqs | `filter`, `find`, subsequences |
| js_math.dfy | JsMath | `Math.round`, `Math.ceil`, `Math.floor(Math.random() * n)` |
| shader_variants.dfy | ShaderVariants | `hashCode`, `addKeywords`, `Material.setKeywords` |
| gpu_caps.dfy | GpuCaps | `getSupportedFormat`, format negotiation, capability downgrade |
| framebuffers.dfy | Framebuffers | FBO creation/resizing, `getResolution`, `resizeCanvas`, `initFramebuffers` |
| fluid_step.dfy | FluidStep | `step`, `splat`, `render` as command traces |
| pointers.dfy | Pointers | pointer updates, `applyInputs`, `calcDeltaTime`, `wrap`, `updateColors`, `generateColor` |
| frame.dfy | Frame | `updateFrame` and the event handlers |
| dot_grid.dfy | DotGrid | the DotGrid component |
| letter_glitch.dfy | LetterGlitch | the LetterGlitch component |
| certificates.dfy | Certificates | `allTags`, `filtered` |
| projects.dfy | Projects | the catalogue, `getProjectBySlug`, `filteredProjects` |
| project_details.dfy | ProjectDetails | the details page |
| navigation.dfy | Navigation | the navigation bar |
| skills.dfy | Skills | `filteredSkills` |

Where the code and its documentation disagree, the model follows the code:

- `applyInputs` runs before `step` in `updateFrame`, so pointer splats
  happen before advection, not after it.
- The glitch mutation count is `max(1, floor(n * 0.03))`, not a ceiling.
- The LetterGlitch fade restarts from the target colour once a letter's
  colour has become an `rgb(...)` string. The lemma
  `LetterGlitch.SecondStepShowsTarget` records this.

## Model

| member | source | states |
|---|---|---|
| ShaderVariants.ToInt32 | src/components/SplashCursor.tsx:171-172 | `x \| 0` gives a signed 32-bit value, congruent to `x` modulo 2^32, and leaves values already in range unchanged |
| ShaderVariants.ToInt32Congruent | src/components/SplashCursor.tsx:172 | inputs congruent modulo 2^32 truncate to the same value |
| ShaderVariants.HashRoundIsTimes31 | src/components/SplashCursor.tsx:171-172 | the shift-and-subtract round `(h << 5) - h + c` truncated to 32 bits is the `31·h + c` recurrence |
| ShaderVariants.HashCode | src/components/SplashCursor.tsx:167-175 | the loop returns a 32-bit value equal to Java's string-hash recurrence, and 0 for the empty string |
| ShaderVariants.JavaHashIsTruncatedPolynomial | src/components/SplashCursor.tsx:167-175 | truncating every round equals truncating the whole base-31 polynomial once |
| ShaderVariants.DefinesAppend | src/components/SplashCursor.tsx:254-256 | the `#define` prefix of concatenated keyword lists is the concatenation of the prefixes |
| ShaderVariants.AddKeywords | src/components/SplashCursor.tsx:251-258 | absent keywords leave the source alone; otherwise the result is the `#define` lines followed by the unchanged source |
| ShaderVariants.SetKeywords | src/components/SplashCursor.tsx:190-202 | the cache is keyed by the sum of the keyword hashes; a missing key compiles one new program; cached programs are kept; uniforms reload exactly when the active program changes |
| ShaderVariants.SetKeywordsIdempotent | src/components/SplashCursor.tsx:193-199 | asking for the same keywords again compiles nothing and reloads nothing |
| ShaderVariants.DisplayKeywords | src/components/SplashCursor.tsx:685-689 | the display keywords are `["SHADING"]` when shading is on and empty otherwise |
| ShaderVariants.DisplayVariantsDistinct | src/components/SplashCursor.tsx:685-689 | the shaded and unshaded display variants have different cache keys |
| GpuCaps.GetSupportedFormat | src/components/SplashCursor.tsx:138-150 | probing starts at the requested format and widens R16F→RG16F→RGBA16F; it makes at most three probes and returns the last probe exactly when that probe is supported |
| GpuCaps.Negotiate | src/components/SplashCursor.tsx:109-135 | WebGL1 uses unsized RGBA for all three formats; the linear-filtering flag is passed through |
| GpuCaps.WebGL2FallbackReachesRgba | src/components/SplashCursor.tsx:116-119 | on WebGL2 every fallback chain ends at RGBA16F, so the RG and R formats exist whenever RGBA does |
| GpuCaps.ApplyCapabilities | src/components/SplashCursor.tsx:261-264 | without linear filtering the dye resolution drops to 256 and shading is switched off; other settings are unchanged |
| GpuCaps.DyeFiltering | src/components/SplashCursor.tsx:712 | linear filtering is used exactly when it is supported |
| Framebuffers.CreateFbo | src/components/SplashCursor.tsx:605-636 | a new framebuffer takes the next handle, has the requested size, and has texel size 1/w by 1/h |
| Framebuffers.CreateDoubleFbo | src/components/SplashCursor.tsx:638-664 | a ping-pong pair has two fresh, distinct handles of the requested size |
| Framebuffers.SwapPair | src/components/SplashCursor.tsx:658-662 | `swap` exchanges read and write, keeps the size and keeps the two handles distinct |
| Framebuffers.SwapInvolution | src/components/SplashCursor.tsx:658-662 | swapping twice restores the pair |
| Framebuffers.SwapNParity | src/components/SplashCursor.tsx:658-662 | n swaps equal zero or one swap, by the parity of n |
| Framebuffers.ResizeDoubleFbo | src/components/SplashCursor.tsx:674-683 | an unchanged size keeps the pair; otherwise a new pair of fresh handles at the new size is allocated and the old read buffer is copied into the new one, without the copy sampling its own target |
| Framebuffers.GetResolution | src/components/SplashCursor.tsx:693-701 | the shorter side gets the requested resolution and the longer side `Math.round(resolution * aspect)`, with the aspect taken as long side over short side |
| Framebuffers.LongOverShort | src/components/SplashCursor.tsx:694-695 | the aspect used for the long side is at least 1: width over height for a landscape buffer, height over width otherwise (the inverse of a ratio below 1) |
| Framebuffers.GetResolutionTransposes | src/components/SplashCursor.tsx:693-701 | swapping the drawing buffer's width and height swaps the two sides of the result |
| Framebuffers.ResizeCanvas | src/components/SplashCursor.tsx:743-757 | the canvas is at least 2×2; the result reports a change exactly when the size changed |
| Framebuffers.ResizeCanvasIdempotent | src/components/SplashCursor.tsx:743-757 | a second resize with the same inputs changes nothing |
| Framebuffers.NegotiatedFormatsCoherent | src/components/SplashCursor.tsx:109-135 | whenever an RGBA format was negotiated, the RG and R formats exist too |
| Framebuffers.InitFramebuffers | src/components/SplashCursor.tsx:703-728 | a canvas under 2×2 skips allocation; a missing render format is the crash path; otherwise the fields have distinct handles, dye has the dye resolution and the other four the simulation resolution, and a dye or velocity pair whose size changed gets fresh handles with its old read half copied into the new one (one copy draw per changed pair, none otherwise) |
| FluidStep.ReplayAppend | src/components/SplashCursor.tsx:778-841 | replaying a concatenated command trace equals replaying its parts in order |
| FluidStep.SwapFieldNoAlias | src/components/SplashCursor.tsx:658-662 | swapping one pair keeps every field's handles distinct |
| FluidStep.PressureLoop | src/components/SplashCursor.tsx:809-813 | n Jacobi iterations draw n pressure passes and swap the pressure pair n times |
| FluidStep.Projection | src/components/SplashCursor.tsx:778-821 | curl, vorticity, divergence, clear, the pressure loop and gradient subtraction run in order, with the stated swap counts |
| FluidStep.StepPasses | src/components/SplashCursor.tsx:778-841 | a step draws the fixed pass sequence; velocity swaps 3 times, pressure `iterations + 1` times and dye once |
| FluidStep.Step | src/components/SplashCursor.tsx:778-841 | without fields a step does nothing; with fields it draws the fixed pass sequence with the stated swap counts, and when no handles alias, no pass samples the buffer it draws into and aliasing stays absent |
| FluidStep.ReplayByCounts | src/components/SplashCursor.tsx:778-841 | replaying a trace only depends on the number of swaps of each pair |
| FluidStep.StepSwapsHalves | src/components/SplashCursor.tsx:778-841 | after a step the velocity and dye pairs are swapped and the pressure pair is swapped by the parity of `iterations + 1` |
| FluidStep.SplatStep | src/components/SplashCursor.tsx:875-889 | a splat draws into velocity then dye and swaps each once |
| FluidStep.Render | src/components/SplashCursor.tsx:843-857 | the display pass draws the dye's read buffer to the screen |
| FluidStep.ReplayValid | src/components/SplashCursor.tsx:778-841 | swaps keep the fields' handle invariant |
| FluidStep.SplatAll | src/components/SplashCursor.tsx:769-776 | n splats draw 2n splat passes, swapping velocity and dye n times each |
| Pointers.CorrectDeltaX | src/components/SplashCursor.tsx:925-930 | on a portrait canvas dx is scaled by the aspect ratio, otherwise it is unchanged; zero stays zero |
| Pointers.CorrectDeltaY | src/components/SplashCursor.tsx:931-936 | on a landscape canvas dy is divided by the aspect ratio, otherwise it is unchanged |
| Pointers.PointerDown | src/components/SplashCursor.tsx:897-908 | a press sets the id, marks the pointer down and not moved, maps the position to texture coordinates with y flipped, and zeroes the deltas |
| Pointers.PointerMove | src/components/SplashCursor.tsx:910-919 | the previous coordinates become the old ones; the deltas are the corrected differences; `moved` holds exactly when the position changed |
| Pointers.PointerUp | src/components/SplashCursor.tsx:921-923 | release only clears `down` |
| Pointers.TouchesMove | src/components/SplashCursor.tsx:1079-1087 | touch moves keep the pointer's id, down flag and colour |
| Pointers.HandleEvent | src/components/SplashCursor.tsx:1031-1096 | only a mouse press requests a click splat; a touch end releases the pointer; a later mouse move keeps the colour and measures its delta from the old position; the first mouse move, handled by both the body and the window listener, takes the fresh colour and ends with a zero delta and not moved |
| Pointers.FirstMoveNeverSplats | src/components/SplashCursor.tsx:1039-1096 | because the window listener repeats the body listener's update at the same position, the first mouse move leaves the pointer not moved and the next `applyInputs` splats nothing |
| Pointers.LaterMoveSplats | src/components/SplashCursor.tsx:1049-1055 | a later mouse move to a new position leaves the pointer moved, and the next `applyInputs` splats it once |
| Pointers.BatchedMovesKeepLastDelta | src/components/SplashCursor.tsx:1049-1055 | after several mouse moves between two frames, the delta is that of the last move, measured from the position before it |
| Pointers.MoveAllKeepsColor | src/components/SplashCursor.tsx:1049-1055 | mouse moves after the first never change the colour |
| Pointers.MoveAllIsTouchesMove | src/components/SplashCursor.tsx:1049-1087 | a run of window mouse moves and the touches of one `touchmove` event update the pointer identically, so the two facts above hold for multi-touch moves too |
| Pointers.ApplyInputs | src/components/SplashCursor.tsx:769-776 | every pointer is marked not moved; the splats are those of the pointers that had moved |
| Pointers.MovedSplatsAreFilteredPointers | src/components/SplashCursor.tsx:769-776 | the emitted splats are exactly the splats of the moved pointers, in order |
| Pointers.CalcDeltaTime | src/components/SplashCursor.tsx:735-741 | dt never exceeds 0.016666 s or the elapsed time, and equals the elapsed time below the cap |
| Pointers.JsRem | src/components/SplashCursor.tsx:990-994 | JavaScript `%` on reals takes the dividend's sign and has magnitude below the divisor |
| Pointers.Wrap | src/components/SplashCursor.tsx:990-994 | a value at or above `min` wraps into `[min, max)`; an empty range gives `min` |
| Pointers.UpdateColors | src/components/SplashCursor.tsx:759-767 | the timer advances by `dt·speed`; on reaching 1 it wraps and every pointer gets a new colour; otherwise nothing else changes |
| Pointers.ColorTimerInvariant | src/components/SplashCursor.tsx:759-767 | the colour timer stays in `[0, 1)` |
| Pointers.JsIntRem | src/components/SplashCursor.tsx:952 | integer `%` with a positive divisor agrees with Euclidean remainder on non-negative values and stays within the divisor |
| Pointers.HsvSaturated | src/components/SplashCursor.tsx:945-988 | full saturation and value give one channel at 1, one at 0, and all channels in [0, 1] |
| Pointers.GenerateColor | src/components/SplashCursor.tsx:937-943 | generated colours have every channel in [0, 0.15] |
| Frame.MaxFps | src/components/SplashCursor.tsx:1000-1001 | the frame cap is 24 fps with reduced motion and 36 otherwise |
| Frame.Reinit | src/components/SplashCursor.tsx:1016-1020 | re-initialisation fails only when the canvas is big enough and there is no render format; it keeps the state valid and all draws safe |
| Frame.Simulate | src/components/SplashCursor.tsx:1023-1026 | colours are updated, then inputs applied, then a step, then render; the last command draws the dye to the screen and every pointer ends not moved |
| Frame.Passes | src/components/SplashCursor.tsx:1023-1026 | a simulated frame draws two splat passes per pending splat, then the step's passes, then one display pass reading the dye; buffers stay valid and every draw is safe |
| Frame.UpdateFrame | src/components/SplashCursor.tsx:1003-1028 | an inactive or too-early frame does nothing; a due frame crashes exactly when buffers must be (re)allocated and no RGBA format exists, and otherwise records the clocks and the resized canvas, ends with buffers allocated, and steps exactly when buffers already existed or the size changed; the state stays valid and all draws are safe |
| Frame.AllocateAndSimulate | src/components/SplashCursor.tsx:1015-1026 | the frame crashes exactly when a 2×2-or-larger canvas needs allocation (resized, or no buffers yet) without an RGBA format; it steps exactly when buffers existed or a resize reallocated them, and then every pointer ends not moved and the draws are splats, a step and the display pass; a frame that does not step allocates exactly when the canvas is at least 2×2; only the timer, pointers, buffers and counter change |
| Frame.ReinitIfResized | src/components/SplashCursor.tsx:1015 | re-initialisation runs only after a size change, fails only then without an RGBA format, and on a 2×2-or-larger canvas leaves buffers allocated |
| Frame.AllocateOrSimulate | src/components/SplashCursor.tsx:1016-1026 | without buffers the frame allocates (crashing only without an RGBA format on a large enough canvas) and stops; with buffers it steps |
| Frame.AllocationThenStep | src/components/SplashCursor.tsx:1003-1028 | after a due frame renders, the next due frame under the same measurements steps |
| Frame.OnVisibility | src/components/SplashCursor.tsx:1108-1110 | after a visibility change the loop is active exactly when the page is visible and reduced motion is off; nothing else changes |
| Frame.ReducedMotionStopsAfterVisibilityChange | src/components/SplashCursor.tsx:1001-1110 | with reduced motion, every frame after any visibility change is skipped, although the effect starts active |
| Frame.ShowingResumes | src/components/SplashCursor.tsx:1003-1110 | without reduced motion, showing the page makes the next frame past the cap run instead of being skipped |
| Frame.OnEvent | src/components/SplashCursor.tsx:1031-1096 | events update only the first pointer, as `HandleEvent` does (so the first mouse move draws nothing on the next frame); only a mouse press with allocated fields draws two splat passes |
| JsMath.Round | src/components/DotGrid.tsx:117-118 | `Math.round` returns the integer within half a unit, rounding halves up |
| JsMath.Ceil | src/components/LetterGlitch.tsx:86-87 | `Math.ceil` returns the least integer at or above its argument |
| JsMath.Pick | src/components/LetterGlitch.tsx:157 | `Math.floor(u * n)` for `u` in [0, 1) is an index below `n` |
| DotGrid.GridLayout | src/components/DotGrid.tsx:105-126 | width and height are `max(1, floor(·))` of the measured rectangle, so at least 1; the columns and rows are the floors of `(size + gap) / cell` and may be 0; the grid is centred: `2·startX` is the slack plus the dot size |
| DotGrid.FloorAtLeastOne | src/components/DotGrid.tsx:107-108 | the floor of a size of at least 1, and 1 for anything smaller |
| DotGrid.CellsThatFit | src/components/DotGrid.tsx:116-117 | the count is the largest `n` with `n·cell ≤ extent + gap` |
| DotGrid.RowsIndex | src/components/DotGrid.tsx:128-135 | the row-major list holds `rows·cols` dots, and the dot of column x and row y is at index `y·cols + x` |
| DotGrid.BuildGrid | src/components/DotGrid.tsx:100-136 | the nested loops build exactly the row-major dot list of the layout |
| DotGrid.GridCentredHorizontally | src/components/DotGrid.tsx:121-126 | the margins left of the first dot and right of the last dot are equal |
| DotGrid.GridCentredVertically | src/components/DotGrid.tsx:121-126 | the margins above the first row and below the last row are equal |
| DotGrid.CertificatesBackdropLayout | src/components/CertificatesPage.tsx:31-37 | an 800×400 area with dot 14 and gap 32 gets cell 46, 18 columns, 9 rows and start (9, 16) |
| DotGrid.HexToRgb | src/components/DotGrid.tsx:47-55 | six hex digits, with an optional `#` and in either case, give their channels; anything else gives black |
| DotGrid.HexRoundTrip | src/components/DotGrid.tsx:47-55 | parsing the canonical hex spelling of a colour gives the colour back |
| DotGrid.HexCaseAndHashInsensitive | src/components/DotGrid.tsx:47-55 | `#A020F0` and `a020f0` parse alike; `#2b1e48` parses to (43, 30, 72) |
| DotGrid.HexRejectsOtherLengths | src/components/DotGrid.tsx:47-55 | shorthand, eight-digit and double-`#` forms give black |
| DotGrid.Throttle | src/components/DotGrid.tsx:36-45 | a call is forwarded exactly when `limit` has passed since the last forwarded call, and only then is the time recorded |
| DotGrid.ClampVelocity | src/components/DotGrid.tsx:224-230 | the stored speed is `min(raw, max)`; a clamped velocity is scaled by `max/raw` in both axes, keeping its direction |
| DotGrid.ThrottledMove | src/components/DotGrid.tsx:215-240 | throttled calls change nothing; an out-of-view call only records the time; otherwise the tracker is resampled with a clamped speed |
| DotGrid.SampleIntervalBounded | src/components/DotGrid.tsx:219 | the divisor of a sample is 16 on the first sample and at least 50 afterwards, never 0 |
| DotGrid.MoveResponse | src/components/DotGrid.tsx:242-282 | a dot is flagged and pushed on move exactly when the speed exceeds the trigger, it is within `proximity` and it is not already moving; every push is for such a dot, every such dot gets one, and the pushes follow dot order |
| DotGrid.Falloff | src/components/DotGrid.tsx:295 | the click falloff lies in [0, 1], is positive exactly inside the shock radius, and is 1 at the centre |
| DotGrid.ClickResponse | src/components/DotGrid.tsx:288-330 | a dot is flagged and pushed on click exactly when it lies inside the shock radius and is not already moving; every push is for such a dot, every such dot gets one, in dot order, scaled by the falloff |
| DotGrid.PushComplete | src/components/DotGrid.tsx:259-262 | completion clears one dot's flag and leaves the others alone |
| DotGrid.FlagGatesResponses | src/components/DotGrid.tsx:242-293 | a dot already moving is neither changed nor pushed by a move or a click |
| DotGrid.ClickPushBounded | src/components/DotGrid.tsx:295-297 | a click push is at most `shockStrength` times the dot's offset from the click |
| DotGrid.OnMouseMove | src/components/DotGrid.tsx:215-282 | the listener is throttled at 50 ms; out of view or with reduced motion no dot moves |
| DotGrid.OnClick | src/components/DotGrid.tsx:285-330 | out of view or with reduced motion nothing happens; otherwise the click point relative to the grid drives the pushes |
| DotGrid.PushedDotsAreFlagged | src/components/DotGrid.tsx:242-293 | every dot that receives a push is flagged afterwards |
| LetterGlitch.HexToRgb | src/components/LetterGlitch.tsx:61-72 | three- and six-digit forms, with an optional `#`, parse; the six-digit form agrees with DotGrid's parser; everything else is null |
| LetterGlitch.ShorthandMatchesExpansion | src/components/LetterGlitch.tsx:62-63 | a shorthand parses like its doubled six-digit expansion |
| LetterGlitch.AlphaFormsRejected | src/components/LetterGlitch.tsx:62-64 | four- and eight-digit forms are rejected |
| LetterGlitch.DefaultColorsParse | src/components/LetterGlitch.tsx:21 | every default colour parses |
| LetterGlitch.Mix | src/components/LetterGlitch.tsx:79-81 | a rounded channel mix is the start at 0, the end at 1, and between them in between |
| LetterGlitch.Lerp | src/components/LetterGlitch.tsx:79-81 | the interpolation is the start at 0, the end at 1, and between them in between |
| LetterGlitch.InterpolateColor | src/components/LetterGlitch.tsx:74-83 | the result is an `rgb(...)` string of the mixed channels and never starts with `#` |
| LetterGlitch.InterpolateSelf | src/components/LetterGlitch.tsx:79-81 | mixing a colour with itself gives it back |
| LetterGlitch.CalculateGrid | src/components/LetterGlitch.tsx:85-89 | columns and rows are the ceilings that cover the area |
| LetterGlitch.InitializeLetters | src/components/LetterGlitch.tsx:91-100 | the grid holds `columns·rows` settled letters whose glyphs and colours come from the lists |
| LetterGlitch.CellsDistinct | src/components/LetterGlitch.tsx:139-142 | distinct letters are drawn in distinct cells |
| LetterGlitch.CellInsideGrid | src/components/LetterGlitch.tsx:139-142 | every letter's cell lies inside the grid |
| LetterGlitch.MutationCount | src/components/LetterGlitch.tsx:155 | the count is `max(1, floor(3n/100))` |
| LetterGlitch.Mutate | src/components/LetterGlitch.tsx:157-167 | a mutation draws a glyph and a target colour; immediate mode jumps to the target, smooth mode restarts the fade |
| LetterGlitch.ApplyDraws | src/components/LetterGlitch.tsx:156-168 | letters not drawn are unchanged and drawn letters are mutated; immediate mode keeps a settled grid settled |
| LetterGlitch.UpdateLetters | src/components/LetterGlitch.tsx:150-169 | an empty grid is untouched; otherwise the first `MutationCount` draws are applied, immediately unless smooth and not reduced |
| LetterGlitch.UpdateTouchesFewLetters | src/components/LetterGlitch.tsx:155-158 | a letter that no used draw picks is left unchanged |
| LetterGlitch.SmoothLetter | src/components/LetterGlitch.tsx:177-187 | progress rises by 0.05, capped at 1; the colour is recoloured exactly when both colours parse, and then becomes an `rgb(...)` string |
| LetterGlitch.SmoothTransitions | src/components/LetterGlitch.tsx:171-190 | without letters or a context nothing changes; otherwise every letter is smoothed and a redraw is requested exactly when one was recoloured |
| LetterGlitch.SmoothProgress | src/components/LetterGlitch.tsx:179-180 | after k steps the progress is `min(1, p + k/20)` |
| LetterGlitch.FadeSettlesInTwentySteps | src/components/LetterGlitch.tsx:179-180 | a fade from 0 settles after twenty frames |
| LetterGlitch.SecondStepShowsTarget | src/components/LetterGlitch.tsx:181-184 | once the colour is an `rgb(...)` string, the next step starts from the target colour, so the letter shows the target |
| LetterGlitch.OnVisibility | src/components/LetterGlitch.tsx:217-226 | hiding cancels the pending frame; showing restarts only an active loop with nothing pending; the handler never activates the loop |
| LetterGlitch.OnIntersect | src/components/LetterGlitch.tsx:246-265 | the loop is active exactly when more than 10% of the backdrop is visible, and stops otherwise |
| LetterGlitch.OnResize | src/components/LetterGlitch.tsx:231-241 | a resize cancels the pending frame and requests one only for an active loop |
| LetterGlitch.OnFrame | src/components/LetterGlitch.tsx:192-202 | an active frame re-requests itself, keeping one pending frame |
| LetterGlitch.Mount | src/components/LetterGlitch.tsx:270-276 | the loop starts active and requests a frame unless reduced motion is on |
| LetterGlitch.HideShowStaysStopped | src/components/LetterGlitch.tsx:217-226 | hiding and showing an active loop with a pending frame leaves no frame pending |
| LetterGlitch.ReducedMotionRestartsOnScroll | src/components/LetterGlitch.tsx:246-276 | with reduced motion nothing is scheduled at mount, but leaving and re-entering the viewport starts the loop |
| LetterGlitch.Animate | src/components/LetterGlitch.tsx:192-202 | the glitch runs exactly when `glitchSpeed` has passed, and only then is the time recorded; in immediate mode the letters are then the glitched letters and otherwise unchanged; in smooth mode one fade step follows the (possible) glitch and keeps progress in [0, 1] |
| LetterGlitch.AnimateKeepsUnpickedLetters | src/components/LetterGlitch.tsx:155-158 | in immediate mode a frame leaves every letter no draw picks as it was |
| Certificates.FlatTags | src/components/CertificatesPage.tsx:10 | the flattened list holds exactly the tags of some certificate |
| Certificates.Insert | src/components/CertificatesPage.tsx:10 | inserting keeps the list strictly sorted and adds exactly the new tag |
| Certificates.AllTags | src/components/CertificatesPage.tsx:9-12 | the tag list is strictly increasing in character-code order and holds exactly the tags that occur |
| Certificates.StrictlySortedUnique | src/components/CertificatesPage.tsx:10 | two strictly sorted lists with the same elements are equal |
| Certificates.AllTagsOrderIndependent | src/components/CertificatesPage.tsx:9-12 | reordering the certificates does not change the tag list |
| Certificates.Filtered | src/components/CertificatesPage.tsx:15-25 | the result is an order-preserving subsequence holding exactly the certificates whose text matches the trimmed, lower-cased query and that carry the active tag, each as many times as in the input |
| Certificates.BlankQueryShowsAll | src/components/CertificatesPage.tsx:16-23 | a blank query with no tag shows every certificate in order |
| Certificates.UntaggedHiddenByTag | src/components/CertificatesPage.tsx:22 | with a tag selected, certificates without tags are hidden |
| Certificates.SurroundingBlanksIgnored | src/components/CertificatesPage.tsx:16 | blanks typed before or after a query do not change the result |
| Text.TrimPadded | src/components/CertificatesPage.tsx:16 | `trim` removes exactly the blanks around a string that begins and ends with non-blanks |
| Certificates.QueryIgnoresCase | src/components/CertificatesPage.tsx:16-21 | ` ANGULAR ` finds the certificate tagged `Angular` |
| Certificates.TagIsCaseSensitive | src/components/CertificatesPage.tsx:22 | the tag `angular` does not select the certificate tagged `Angular` |
| Projects.GetProjectBySlug | src/data/projects.ts:96-98 | a found project is in the catalogue and has the slug; nothing is found exactly when no project has it |
| Projects.LookupFindsEachProject | src/data/projects.ts:3-98 | every catalogue project is found by its own slug |
| Projects.FilteredProjects | src/components/ProjectsShowcase.tsx:30-33 | `All` returns the list unchanged; any other filter keeps exactly the projects listing it as a technology, each as many times as in the input, in order |
| Projects.ReactSelectsNothing | src/components/ProjectsShowcase.tsx:28-33 | the `React` button selects nothing, because the marketplace lists `React.js` |
| Projects.PythonSelectsDashboard | src/components/ProjectsShowcase.tsx:28-33 | `Python` selects the mzQC dashboard alone |
| Projects.StreamlitSelectsAsPython | src/components/ProjectsShowcase.tsx:28-33 | `Streamlit` shows exactly what `Python` shows: the mzQC dashboard alone |
| Projects.NodeSelectsAutoHub | src/components/ProjectsShowcase.tsx:28-33 | `Node.js` selects the marketplace alone |
| Projects.MongoSelectsAutoHub | src/components/ProjectsShowcase.tsx:28-33 | `MongoDB` selects the marketplace alone |
| Projects.IotSelectsSmartParking | src/components/ProjectsShowcase.tsx:28-33 | `IoT` selects the parking system alone |
| Projects.PhpSelectsPrimeCare | src/components/ProjectsShowcase.tsx:28-33 | `PHP` selects the property-management system alone |
| Projects.SpringBootSelectsTechHub | src/components/ProjectsShowcase.tsx:28-33 | `Spring Boot 3` selects TechHub alone |
| ProjectDetails.PlayerOf | src/components/ProjectDetailsPage.tsx:65-92 | a video is a YouTube embed exactly when hinted or, without a hint, its address contains `youtube.com`; otherwise likewise for Vimeo; otherwise a file player; the embed address replaces only the first pattern; the title defaults to `Video n` |
| ProjectDetails.YouTubeWatchBecomesEmbed | src/components/ProjectDetailsPage.tsx:68-70 | an un-hinted `…youtube.com…watch?v=<id>` address embeds as `…embed/<id>` |
| ProjectDetails.VimeoAddressBecomesPlayer | src/components/ProjectDetailsPage.tsx:76-79 | an un-hinted `…vimeo.com/<id>` address plays at `…player.vimeo.com/video/<id>` with the default title |
| ProjectDetails.VideoCaption | src/components/ProjectDetailsPage.tsx:94-96 | a video has a caption exactly when its title is non-empty, and the caption is that title |
| ProjectDetails.ShotOf | src/components/ProjectDetailsPage.tsx:107-119 | screenshots default to a 16:9 frame and to the project title as alt text, and show a caption exactly when a non-empty one is given, that caption itself |
| ProjectDetails.MediaOf | src/components/ProjectDetailsPage.tsx:59-130 | the gallery is shown exactly when there are images or videos, with one player per video and one shot per image; otherwise the cover image with the title as alt text |
| ProjectDetails.PageFor | src/components/ProjectDetailsPage.tsx:8-152 | a missing or empty slug, or one no project has, gives the not-found page; otherwise the found project's page, with backdrop `backdropImage \|\| image` and the demo and GitHub links shown exactly when their URLs are non-empty, each pointing at its URL |
| ProjectDetails.PrimeCarePage | src/components/ProjectDetailsPage.tsx:59-119 | the property-management page shows three file videos and five screenshots, all 16:9 except the 3:4 team photo |
| ProjectDetails.AutoHubPage | src/components/ProjectDetailsPage.tsx:27-130 | the marketplace page shows its cover image, and its backdrop falls back to the cover |
| Navigation.LastReached | src/components/Navigation.tsx:29-37 | the position found is that of a reached section with no reached section after it, and there is none exactly when no section is reached |
| Navigation.ScrolledSection | src/components/Navigation.tsx:29-37 | with no section within 100 px of the top the result is `hero`; otherwise it is the id of the last such section in document order |
| Navigation.FoldSections | src/components/Navigation.tsx:30-37 | the left-to-right `forEach` fold computes exactly that section |
| Navigation.HandleScroll | src/components/Navigation.tsx:39-42 | the section is updated, and the listener told once, exactly when the computed section differs from the active one |
| Navigation.ScrollIdempotent | src/components/Navigation.tsx:39-42 | a second scroll over the same layout changes nothing and notifies no one |
| Navigation.HandleNavClick | src/components/Navigation.tsx:49-53 | a click makes its section active, closes the menu and notifies the listener once |
| Navigation.LinksTargetSections | src/components/Navigation.tsx:19-80 | every link is `#` followed by a section id, so `href.substring(1)` is one of the five ids |
| Navigation.ClickHighlightsOnlyThatLink | src/components/Navigation.tsx:80-89 | after clicking a link, exactly that link is highlighted |
| Skills.FilteredSkills | src/components/SkillsVisualization.tsx:106-109 | `All` returns every skill; any other category keeps exactly the skills of that category, each as many times as in the input, in order |
| Skills.DevOpsSelectsNothing | src/components/SkillsVisualization.tsx:12-99 | the `DevOps` button selects no skill |
| Skills.ThreeDSelectsNothing | src/components/SkillsVisualization.tsx:12-99 | the `3D` button selects no skill |
| Skills.FrontendSelectsTwo | src/components/SkillsVisualization.tsx:34-109 | `Frontend` selects JavaScript and Web Development, in that order |
| Skills.BackendSelectsThree | src/components/SkillsVisualization.tsx:13-109 | `Backend` selects Spring Boot, MySQL and Spring Framework |
| Skills.ShownLevelsArePercentages | src/components/SkillsVisualization.tsx:12-179 | every shown skill level lies in 0..100, so the bar width is a valid percentage |

## Left out

- GLSL shader programs and their numerics: advection, divergence, curl, vorticity, the Jacobi pressure solve, splat and display shading. Each pass is an opaque named `Draw` over framebuffer handles.
- WebGL calls themselves: textures, `blit`, uniforms, `getUniforms`, compiling and linking. Whether a format renders is a function parameter.
- Canvas 2D drawing: the DotGrid `draw` loop and its colour interpolation by proximity, and the LetterGlitch `drawLetters` painting.
- Animations driven by gsap and framer-motion: the inertia tweens and return tweens of DotGrid dots, and the motion variants of the page components.
- `ResizeObserver`, `getBoundingClientRect`, `devicePixelRatio` and the canvas pixel sizing: their results are inputs.
- `Math.random`, `Date.now` and `performance.now`: their values are inputs to the model.
- IEEE-754 doubles: numbers are exact reals. In particular `floor(n * 0.03)` is modelled as `floor(3n/100)`, and `Math.round` as `floor(x + 1/2)`.
- Unicode semantics of `toLowerCase` and `trim`: only ASCII case folding and ASCII blanks are modelled.
- Certificates.AllTags: orders by Dafny character code, which is the UTF-16 code-unit order of `sort` only for text in the Basic Multilingual Plane; a character outside it is one Dafny `char` but two JavaScript code units (a surrogate pair), so tags holding such characters may sort differently.
- ShaderVariants.HashCode: hashes one value per Dafny `char`, whereas `charCodeAt` walks UTF-16 code units; the two agree only on keywords within the Basic Multilingual Plane, and likewise string lengths and indices in `Text` match JavaScript only there.
- The `fullDescription` text and the technology chips of the details page, which are only rendered.
- The mobile menu toggle of the navigation bar and `scrollIntoView`, which only render or scroll.
- The icons of the skills and their hover state, which are only rendered.
- `CAPTURE_RESOLUTION`, dissipation rates, curl strength and the other numeric tunables of the fluid cursor, which only reach the shaders.
- The `updateFrame` call inside `onFirstMouseMove` and `onFirstTouchStart`: each call runs a frame and starts another `requestAnimationFrame` chain, and cleanup cancels only the last `rafId`. The scheduler is not modelled, so neither the extra chains nor the extra frames appear.
- LetterGlitch.OnResize: the 120 ms debounce of the window `resize` listener is folded into "a resize happens", since timers belong to the host's scheduling.
- The DotGrid `prefers-reduced-motion` listener: the reduced flag is an input of the handlers.
- LetterGlitch.InitializeLetters: requires a non-empty colour list, because an empty `glitchColors` makes the source index an empty array.
- Framebuffers.GetResolution: takes the drawing buffer to be the canvas, whereas the source reads `drawingBufferWidth`/`drawingBufferHeight`, which a browser may make smaller than the canvas when memory is short.
- Framebuffers.CreateFbo: requires a positive size, since the texel size `1/w` is undefined at size 0.
- DotGrid.OnMouseMove: models one timestamp per event, taken as both the throttle clock and the sample clock.
- Navigation.ScrolledSection: section tops are exact reals taken from the layout, not recomputed from scroll positions.

=== FILE: certificates.dfy ===
/** The certificates page: the sorted, de-duplicated list of every tag, and
    the search that keeps a certificate when its title, issuer or a tag
    contains the query (ignoring case and surrounding blanks) and it carries
    the selected tag, if any. */
module Certificates {
  import opened Wrappers
  import opened Text
  import opened Seqs

  /** The fields of a certificate the page searches; `tags` is optional. */
  datatype Certificate = Certificate(id: string, title: string, issuer: string, tags: Option<seq<string>>)

  /** `c.tags ?? []`. */
  function TagsOf(c: Certificate): seq<string> {
    c.tags.GetOr([])
  }

  // ---------------------------------------------------------------------------
  // allTags
  // ---------------------------------------------------------------------------

  /** Every tag of every certificate, in order (`flatMap`). */
  function FlatTags(cs: seq<Certificate>): (r: seq<string>)
    ensures forall t :: t in r <==> exists i :: 0 <= i < |cs| && t in TagsOf(cs[i])
  {
    if |cs| == 0 then []
    else
      var rest := FlatTags(cs[1..]);
      assert forall t :: t in rest <==> exists i :: 1 <= i < |cs| && t in TagsOf(cs[i]) by {
        forall t | t in rest ensures exists i :: 1 <= i < |cs| && t in TagsOf(cs[i]) {
          var i :| 0 <= i < |cs| - 1 && t in TagsOf(cs[1..][i]);
          assert cs[1..][i] == cs[i + 1];
        }
        forall t | exists i :: 1 <= i < |cs| && t in TagsOf(cs[i]) ensures t in rest {
          var i :| 1 <= i < |cs| && t in TagsOf(cs[i]);
          assert cs[1..][i - 1] == cs[i];
        }
      }
      TagsOf(cs[0]) + rest
  }

  /** Strictly increasing in character-code order: sorted, without duplicates. */
  predicate StrictlySorted(s: seq<string>) {
    forall i, j :: 0 <= i < j < |s| ==> Less(s[i], s[j])
  }

  /** `t` added to a strictly sorted list at its place, unless present. */
  function Insert(s: seq<string>, t: string): (r: seq<string>)
    requires StrictlySorted(s)
    ensures StrictlySorted(r)
    ensures forall x :: x in r <==> x in s || x == t
  {
    if |s| == 0 then [t]
    else if s[0] == t then s
    else if Less(t, s[0]) then
      LessThanHeadIsLessThanAll(s, t);
      [t] + s
    else
      LessTotal(t, s[0]);
      var rest := Insert(s[1..], t);
      assert forall x :: x in rest ==> Less(s[0], x);
      [s[0]] + rest
  }

  /** Whatever sorts before the head of a strictly sorted list sorts before
      all of it. */
  lemma LessThanHeadIsLessThanAll(s: seq<string>, t: string)
    requires StrictlySorted(s) && |s| > 0 && Less(t, s[0])
    ensures forall x :: x in s ==> Less(t, x)
  {
    forall x | x in s ensures Less(t, x) {
      if x != s[0] {
        LessTransitive(t, s[0], x);
      }
    }
  }

  /** `Array.from(new Set(xs)).sort()`: the distinct strings of `xs`,
      sorted. */
  function SortedDistinct(xs: seq<string>): (r: seq<string>)
    ensures StrictlySorted(r)
    ensures forall x :: x in r <==> x in xs
  {
    if |xs| == 0 then []
    else Insert(SortedDistinct(xs[..|xs| - 1]), xs[|xs| - 1])
  }

  /** `allTags`. */
  function AllTags(cs: seq<Certificate>): (r: seq<string>)
    ensures StrictlySorted(r)
    ensures forall t :: t in r <==> exists i :: 0 <= i < |cs| && t in TagsOf(cs[i])
  {
    SortedDistinct(FlatTags(cs))
  }

  /** A set has one strictly sorted listing, so `allTags` is determined by
      which tags occur and not by the order of the certificates. */
  lemma {:induction false} StrictlySortedUnique(a: seq<string>, b: seq<string>)
    requires StrictlySorted(a) && StrictlySorted(b)
    requires forall x :: x in a <==> x in b
    ensures a == b
    decreases |a|
  {
    assert |a| > 0 ==> a[0] in b;
    assert |b| > 0 ==> b[0] in a;
    if |a| > 0 && |b| > 0 {
      if a[0] != b[0] {
        var j :| 0 <= j < |b| && b[j] == a[0];
        var i :| 0 <= i < |a| && a[i] == b[0];
        assert Less(b[0], a[0]) && Less(a[0], b[0]);
        LessAsymmetric(a[0], b[0]);
        assert false;
      }
      forall x ensures x in a[1..] <==> x in b[1..] {
        LessIrreflexive(x);
        if x in a[1..] {
          var i :| 0 <= i < |a| - 1 && a[1..][i] == x;
          assert Less(a[0], a[i + 1]) && a[i + 1] == x && x in a;
          var k :| 0 <= k < |b| && b[k] == x;
          assert k != 0;
          assert b[1..][k - 1] == x;
        }
        if x in b[1..] {
          var i :| 0 <= i < |b| - 1 && b[1..][i] == x;
          assert Less(b[0], b[i + 1]) && b[i + 1] == x && x in b;
          var k :| 0 <= k < |a| && a[k] == x;
          assert k != 0;
          assert a[1..][k - 1] == x;
        }
      }
      StrictlySortedUnique(a[1..], b[1..]);
    }
  }

  /** Reordering the certificates leaves `allTags` unchanged. */
  lemma AllTagsOrderIndependent(cs: seq<Certificate>, ds: seq<Certificate>)
    requires multiset(cs) == multiset(ds)
    ensures AllTags(cs) == AllTags(ds)
  {
    forall t ensures t in AllTags(cs) <==> t in AllTags(ds) {
      if t in AllTags(cs) {
        var i :| 0 <= i < |cs| && t in TagsOf(cs[i]);
        assert cs[i] in multiset(ds);
        var j :| 0 <= j < |ds| && ds[j] == cs[i];
      }
      if t in AllTags(ds) {
        var i :| 0 <= i < |ds| && t in TagsOf(ds[i]);
        assert ds[i] in multiset(cs);
        var j :| 0 <= j < |cs| && cs[j] == ds[i];
      }
    }
    StrictlySortedUnique(AllTags(cs), AllTags(ds));
  }

  // ---------------------------------------------------------------------------
  // filtered
  // ---------------------------------------------------------------------------

  /** The normalised query: trimmed and lower-cased. */
  function Normalize(q: string): string {
    ToLower(Trim(q))
  }

  /** The text condition: an empty query, or a lower-cased title, issuer or
      tag containing it. */
  predicate MatchesText(c: Certificate, text: string) {
    || text == []
    || Contains(ToLower(c.title), text)
    || Contains(ToLower(c.issuer), text)
    || exists t :: t in TagsOf(c) && Contains(ToLower(t), text)
  }

  /** The tag condition: no tag selected (`null` or the empty string), or
      the selected tag among the certificate's, compared exactly. */
  predicate MatchesTag(c: Certificate, activeTag: Option<string>) {
    activeTag.None? || activeTag.value == [] || activeTag.value in TagsOf(c)
  }

  predicate Kept(c: Certificate, text: string, activeTag: Option<string>) {
    MatchesText(c, text) && MatchesTag(c, activeTag)
  }

  /** `filtered`. */
  function Filtered(cs: seq<Certificate>, q: string, activeTag: Option<string>): (r: seq<Certificate>)
    ensures IsSubsequence(r, cs) && |r| <= |cs|
    ensures forall c :: c in r <==> c in cs && Kept(c, Normalize(q), activeTag)
    ensures forall c {:trigger multiset(r)[c]} :: multiset(r)[c] == if Kept(c, Normalize(q), activeTag) then multiset(cs)[c] else 0
  {
    var text := Normalize(q);
    var keep := (c: Certificate) => Kept(c, text, activeTag);
    FilterIsSubsequence(cs, keep);
    Filter(cs, keep)
  }

  /** With a blank query and no tag selected, every certificate is shown in
      its original order. */
  lemma BlankQueryShowsAll(cs: seq<Certificate>, q: string)
    requires forall i :: 0 <= i < |q| ==> IsSpace(q[i])
    ensures Filtered(cs, q, None) == cs
    ensures Filtered(cs, q, Some("")) == cs
  {
    assert Normalize(q) == [];
    FilterAll(cs, (c: Certificate) => Kept(c, Normalize(q), None));
    FilterAll(cs, (c: Certificate) => Kept(c, Normalize(q), Some("")));
  }

  /** Blanks around the query change nothing: the search sees the query as
      if it had been typed without them. */
  lemma SurroundingBlanksIgnored(cs: seq<Certificate>, pre: string, q: string, post: string, activeTag: Option<string>)
    requires forall i :: 0 <= i < |pre| ==> IsSpace(pre[i])
    requires forall i :: 0 <= i < |post| ==> IsSpace(post[i])
    requires |q| > 0 && !IsSpace(q[0]) && !IsSpace(q[|q| - 1])
    ensures Filtered(cs, pre + q + post, activeTag) == Filtered(cs, q, activeTag)
  {
    TrimPadded(pre, q, post);
    TrimPadded([], q, []);
    assert [] + q + [] == q;
  }

  /** A selected tag hides every certificate without tags. */
  lemma UntaggedHiddenByTag(cs: seq<Certificate>, q: string, tag: string)
    requires tag != []
    ensures forall c :: c in Filtered(cs, q, Some(tag)) ==> c.tags.Some?
  {
  }

  /** The certificate the examples below search. */
  const AngularCertificate: Certificate :=
    Certificate("angular-intermediate", "Angular (Intermediate) Certificate", "HackerRank", Some(["Angular", "HackerRank"]))

  /** The query ignores case and surrounding blanks: ` ANGULAR ` finds the
      certificate tagged `Angular`. */
  lemma QueryIgnoresCase()
    ensures Filtered([AngularCertificate], " ANGULAR ", None) == [AngularCertificate]
  {
    AngularTagMatches();
    KeptAlone(AngularCertificate, " ANGULAR ", None);
  }

  /** A lone certificate that passes both conditions is shown. */
  lemma KeptAlone(c: Certificate, q: string, activeTag: Option<string>)
    requires Kept(c, Normalize(q), activeTag)
    ensures Filtered([c], q, activeTag) == [c]
  {
    var r := Filtered([c], q, activeTag);
    assert c in r;
    assert r[0] in [c];
  }

  /** The tag is compared exactly: `angular` does not select it. */
  lemma TagIsCaseSensitive()
    ensures Filtered([AngularCertificate], "", Some("angular")) == []
  {
    var c := AngularCertificate;
    assert !MatchesTag(c, Some("angular")) by {
      assert "angular" != "Angular" && "angular" != "HackerRank";
    }
  }

  lemma AngularTagMatches()
    ensures Kept(AngularCertificate, Normalize(" ANGULAR "), None)
  {
    NormalizeAngular();
    LowerTagContainsQuery();
    assert "Angular" in TagsOf(AngularCertificate);
  }

  lemma LowerTagContainsQuery()
    ensures Contains(ToLower("Angular"), "angular")
  {
    LowerAngular();
    var s := "angular";
    assert s[0..|s|] == s;
    ContainsIff(s, s);
  }

  lemma LowerAngular()
    ensures ToLower("Angular") == "angular"
  {
    var l := ToLower("Angular");
    assert |l| == 7;
    assert l[0] == 'a' && l[1] == 'n' && l[2] == 'g' && l[3] == 'u' && l[4] == 'l' && l[5] == 'a' && l[6] == 'r';
  }

  lemma LowerUpperAngular()
    ensures ToLower("ANGULAR") == "angular"
  {
    var l := ToLower("ANGULAR");
    assert |l| == 7;
    assert l[0] == 'a' && l[1] == 'n' && l[2] == 'g' && l[3] == 'u' && l[4] == 'l' && l[5] == 'a' && l[6] == 'r';
  }

  lemma NormalizeAngular()
    ensures Normalize(" ANGULAR ") == "angular"
  {
    assert " ANGULAR " == " " + "ANGULAR" + " ";
    TrimPadded(" ", "ANGULAR", " ");
    LowerUpperAngular();
  }
}

=== FILE: dot_grid.dfy ===
/** The dot-grid backdrop: the centred integer grid layout, the strict
    `#RRGGBB` colour parser (the six-digit form of section 5.2 of CSS Color
    Module Level 4), the time-based throttle of pointer moves, the speed
    clamp, and the per-dot "push in flight" flag that gates both the move
    and the click responses. Tweens are left to the animation library; a
    push is recorded as its target offset, and the library's completion
    callback is an event. Distances (`Math.hypot`) are inputs, related to
    their coordinates by their square. */
module DotGrid {
  import opened Text

  // ---------------------------------------------------------------------------
  // Grid layout
  // ---------------------------------------------------------------------------

  /** One dot: its centre, its current offset and whether a push is in flight. */
  datatype Dot = Dot(cx: real, cy: real, xOffset: real, yOffset: real, inertiaApplied: bool)

  /** The layout `buildGrid` computes from the wrapper's size. */
  datatype Layout = Layout(width: nat, height: nat, cols: nat, rows: nat, cell: nat, startX: real, startY: real)

  /** `Math.max(1, Math.floor(x))`. */
  function FloorAtLeastOne(x: real): (n: nat)
    ensures n >= 1
    ensures x >= 1.0 ==> n as real <= x < n as real + 1.0
    ensures x < 1.0 ==> n == 1
  {
    var f := x.Floor;
    if f < 1 then 1 else f
  }

  /** Floor division characterised by its bounds. */
  lemma FloorDivision(a: nat, d: nat)
    requires d > 0
    ensures (a / d) * d <= a < (a / d) * d + d
  {
  }

  /** The sizes, counts and first centre of the grid for a wrapper of
      `rectWidth` × `rectHeight` CSS pixels: as many cells as fit when the
      last dot needs no trailing gap, centred by splitting the slack. */
  function GridLayout(rectWidth: real, rectHeight: real, dotSize: nat, gap: nat): (l: Layout)
    requires dotSize + gap > 0
    ensures l.width >= 1 && l.height >= 1 && l.cell == dotSize + gap
    ensures l.width == FloorAtLeastOne(rectWidth) && l.height == FloorAtLeastOne(rectHeight)
    ensures rectWidth >= 1.0 ==> l.width as real <= rectWidth < l.width as real + 1.0
    ensures rectHeight >= 1.0 ==> l.height as real <= rectHeight < l.height as real + 1.0
    ensures l.cols * l.cell <= l.width + gap < l.cols * l.cell + l.cell
    ensures l.rows * l.cell <= l.height + gap < l.rows * l.cell + l.cell
    ensures 2.0 * l.startX == (l.width + gap - l.cols * l.cell) as real + dotSize as real
    ensures 2.0 * l.startY == (l.height + gap - l.rows * l.cell) as real + dotSize as real
  {
    var width := FloorAtLeastOne(rectWidth);
    var height := FloorAtLeastOne(rectHeight);
    var cell := dotSize + gap;
    var cols := CellsThatFit(width, gap, cell);
    var rows := CellsThatFit(height, gap, cell);
    Layout(width, height, cols, rows, cell,
           StartOffset(width, gap, dotSize, cols * cell),
           StartOffset(height, gap, dotSize, rows * cell))
  }

  /** How many cells of `cell` pixels fit in `extent` pixels when the last
      one needs no trailing gap. */
  function CellsThatFit(extent: nat, gap: nat, cell: nat): (n: nat)
    requires cell > 0
    ensures n * cell <= extent + gap < n * cell + cell
  {
    FloorDivision(extent + gap, cell);
    (extent + gap) / cell
  }

  /** The centre of the first dot: half the slack left by cells spanning
      `span` pixels (less the last gap), plus half a dot. */
  function StartOffset(extent: nat, gap: nat, dotSize: nat, span: int): (s: real)
    ensures 2.0 * s == (extent + gap - span) as real + dotSize as real
  {
    var extra := extent - (span - gap);
    extra as real / 2.0 + dotSize as real / 2.0
  }

  /** The dot in column `x` of row `y`, at rest. */
  function DotAt(l: Layout, x: int, y: int): Dot {
    Dot(l.startX + (x * l.cell) as real, l.startY + (y * l.cell) as real, 0.0, 0.0, false)
  }

  /** Row `y` of the grid, left to right. */
  function Row(l: Layout, y: int): seq<Dot> {
    seq(l.cols, x => DotAt(l, x, y))
  }

  /** The first `n` rows of the grid, top to bottom. */
  function Rows(l: Layout, n: nat): seq<Dot>
    decreases n
  {
    if n == 0 then [] else Rows(l, n - 1) + Row(l, n - 1)
  }

  /** The grid holds `n · cols` dots, and the dot in column `x` of row `y`
      sits at index `y · cols + x`. */
  lemma {:induction false} RowsIndex(l: Layout, n: nat, y: nat, x: nat)
    requires y < n && x < l.cols
    ensures |Rows(l, n)| == n * l.cols
    ensures Rows(l, n)[y * l.cols + x] == DotAt(l, x, y)
  {
    RowsLength(l, n - 1);
    MulSucc(n - 1, l.cols);
    if y < n - 1 {
      RowsIndex(l, n - 1, y, x);
      RowIndex(y, n - 1, x, l.cols);
    }
  }

  lemma {:induction false} RowsLength(l: Layout, n: nat)
    ensures |Rows(l, n)| == n * l.cols
  {
    if n > 0 {
      RowsLength(l, n - 1);
      MulSucc(n - 1, l.cols);
    }
  }

  /** `buildGrid`: the grid's layout and its dots in row-major order, at
      rest (see `RowsIndex` for where each dot lands). */
  method BuildGrid(rectWidth: real, rectHeight: real, dotSize: nat, gap: nat) returns (l: Layout, dots: seq<Dot>)
    requires dotSize + gap > 0
    ensures l == GridLayout(rectWidth, rectHeight, dotSize, gap)
    ensures dots == Rows(l, l.rows)
  {
    l := GridLayout(rectWidth, rectHeight, dotSize, gap);
    dots := [];
    var y := 0;
    while y < l.rows
      invariant 0 <= y <= l.rows
      invariant dots == Rows(l, y)
    {
      var row := [];
      var x := 0;
      while x < l.cols
        invariant 0 <= x <= l.cols
        invariant row == Row(l, y)[..x]
      {
        row := row + [DotAt(l, x, y)];
        x := x + 1;
      }
      dots := dots + row;
      y := y + 1;
    }
  }

  lemma MulSucc(a: nat, b: nat)
    ensures (a + 1) * b == a * b + b
  {
  }

  /** In row-major order, an index of an earlier row lies before the start
      of a later row. */
  lemma RowIndex(yy: nat, y: nat, x: nat, cols: nat)
    requires yy <= y && x < cols
    ensures yy < y ==> yy * cols + x < y * cols
  {
    if yy < y {
      MulSucc(yy, cols);
      MonotoneProduct(yy + 1, y, cols);
    }
  }

  lemma MonotoneProduct(a: nat, b: nat, c: nat)
    requires a <= b
    ensures a * c <= b * c
  {
  }

  lemma MulPred(a: nat, b: nat)
    requires a >= 1
    ensures (a - 1) * b == a * b - b
  {
    MulSucc(a - 1, b);
  }

  /** The grid is centred: the space left of the first dot equals the space
      right of the last, and neither is negative. */
  lemma GridCentredHorizontally(rectWidth: real, rectHeight: real, dotSize: nat, gap: nat)
    requires dotSize + gap > 0
    ensures var l := GridLayout(rectWidth, rectHeight, dotSize, gap);
      l.cols >= 1 ==>
        var left := l.startX - dotSize as real / 2.0;
        var right := l.width as real - (l.startX + ((l.cols - 1) * l.cell) as real + dotSize as real / 2.0);
        left == right && left >= 0.0
  {
    var l := GridLayout(rectWidth, rectHeight, dotSize, gap);
    if l.cols >= 1 {
      MulPred(l.cols, l.cell);
    }
  }

  lemma GridCentredVertically(rectWidth: real, rectHeight: real, dotSize: nat, gap: nat)
    requires dotSize + gap > 0
    ensures var l := GridLayout(rectWidth, rectHeight, dotSize, gap);
      l.rows >= 1 ==>
        var top := l.startY - dotSize as real / 2.0;
        var bottom := l.height as real - (l.startY + ((l.rows - 1) * l.cell) as real + dotSize as real / 2.0);
        top == bottom && top >= 0.0
  {
    var l := GridLayout(rectWidth, rectHeight, dotSize, gap);
    if l.rows >= 1 {
      MulPred(l.rows, l.cell);
    }
  }

  /** The certificates page's backdrop (dot size 14, gap 32) on an 800×400
      wrapper: cells of 46, 18 columns, 9 rows, first centre at (9, 16). */
  lemma CertificatesBackdropLayout()
    ensures GridLayout(800.0, 400.0, 14, 32) == Layout(800, 400, 18, 9, 46, 9.0, 16.0)
  {
    assert FloorAtLeastOne(800.0) == 800 by { assert (800.0).Floor == 800; }
    assert FloorAtLeastOne(400.0) == 400 by { assert (400.0).Floor == 400; }
  }

  // ---------------------------------------------------------------------------
  // Strict #RRGGBB parsing
  // ---------------------------------------------------------------------------

  datatype Rgb = Rgb(r: nat, g: nat, b: nat)

  /** Six hexadecimal digits. */
  predicate IsHex6(s: string) {
    |s| == 6 && forall i :: 0 <= i < 6 ==> IsHexDigit(s[i])
  }

  /** The digits the pattern `^#?([a-f\d]{2}){3}$` (case-insensitive) matches. */
  predicate Accepted(s: string) {
    IsHex6(s) || (|s| == 7 && s[0] == '#' && IsHex6(s[1..]))
  }

  /** The channels of six hexadecimal digits. */
  function Channels(d: string): (c: Rgb)
    requires IsHex6(d)
    ensures c.r < 256 && c.g < 256 && c.b < 256
  {
    Rgb(HexByte(d[0], d[1]), HexByte(d[2], d[3]), HexByte(d[4], d[5]))
  }

  /** `hexToRgb`: the channels of an accepted string, black otherwise. */
  function HexToRgb(s: string): (c: Rgb)
    ensures c.r < 256 && c.g < 256 && c.b < 256
    ensures !Accepted(s) ==> c == Rgb(0, 0, 0)
    ensures IsHex6(s) ==> c == Channels(s)
    ensures |s| == 7 && s[0] == '#' && IsHex6(s[1..]) ==> c == Channels(s[1..])
  {
    if IsHex6(s) then Channels(s)
    else if |s| == 7 && s[0] == '#' && IsHex6(s[1..]) then Channels(s[1..])
    else Rgb(0, 0, 0)
  }

  /** The `#rrggbb` spelling of a colour. */
  function RgbToHex(c: Rgb): (s: string)
    requires c.r < 256 && c.g < 256 && c.b < 256
    ensures Accepted(s) && |s| == 7
  {
    "#" + ByteToHex(c.r) + ByteToHex(c.g) + ByteToHex(c.b)
  }

  /** Parsing the spelling of a colour gives the colour back. */
  lemma HexRoundTrip(c: Rgb)
    requires c.r < 256 && c.g < 256 && c.b < 256
    ensures HexToRgb(RgbToHex(c)) == c
  {
    var s := RgbToHex(c);
    var d := s[1..];
    assert d[0..2] == ByteToHex(c.r) && d[2..4] == ByteToHex(c.g) && d[4..6] == ByteToHex(c.b);
  }

  /** Upper- and lower-case digits parse alike, with or without `#`. */
  lemma HexCaseAndHashInsensitive()
    ensures HexToRgb("#A020F0") == HexToRgb("a020f0") == Rgb(160, 32, 240)
    ensures HexToRgb("#2b1e48") == Rgb(43, 30, 72)
  {
    assert IsHex6("a020f0");
    assert "#A020F0"[1..] == "A020F0";
    assert IsHex6("A020F0");
    assert "#2b1e48"[1..] == "2b1e48";
    assert IsHex6("2b1e48");
  }

  /** Shorthand and alpha forms are not accepted, so they give black. */
  lemma HexRejectsOtherLengths()
    ensures HexToRgb("#fff") == Rgb(0, 0, 0)
    ensures HexToRgb("#ffffffff") == Rgb(0, 0, 0)
    ensures HexToRgb("##ffffff") == Rgb(0, 0, 0)
  {
    assert !IsHex6("#ffffff");
  }

  // ---------------------------------------------------------------------------
  // Throttle
  // ---------------------------------------------------------------------------

  /** `throttle`: forward a call only when at least `limit` milliseconds
      passed since the last forwarded one; only forwarded calls move
      `lastCall`. */
  function Throttle(lastCall: real, now: real, limit: real): (r: (bool, real))
    ensures r.0 <==> now - lastCall >= limit
    ensures r.0 ==> r.1 == now
    ensures !r.0 ==> r.1 == lastCall
  {
    if now - lastCall >= limit then (true, now) else (false, lastCall)
  }

  /** The pointer tracker of the move handler. */
  datatype Tracker = Tracker(
    x: real, y: real, vx: real, vy: real, speed: real,
    lastTime: real, lastX: real, lastY: real)

  const InitialTracker: Tracker := Tracker(-9999.0, -9999.0, 0.0, 0.0, 0.0, 0.0, 0.0, 0.0)

  /** The sample interval `onMove` divides by: 16 on the first sample
      (`lastTime` is still 0, which is falsy). */
  function SampleInterval(pr: Tracker, now: real): real {
    if pr.lastTime != 0.0 then now - pr.lastTime else 16.0
  }

  /** `s` is the Euclidean length of (a, b). */
  predicate IsHypot(s: real, a: real, b: real) {
    s >= 0.0 && s * s == a * a + b * b
  }

  /** The speed clamp: speeds above `maxSpeed` are scaled down to it along
      the same direction. */
  function ClampVelocity(vx: real, vy: real, rawSpeed: real, maxSpeed: real): (r: (real, real, real))
    requires IsHypot(rawSpeed, vx, vy) && maxSpeed >= 0.0
    ensures r.2 == if rawSpeed > maxSpeed then maxSpeed else rawSpeed
    ensures IsHypot(r.2, r.0, r.1)
    ensures rawSpeed <= maxSpeed ==> r.0 == vx && r.1 == vy
    ensures rawSpeed > maxSpeed ==> r.0 * rawSpeed == vx * maxSpeed && r.1 * rawSpeed == vy * maxSpeed
  {
    if rawSpeed > maxSpeed then
      var scale := maxSpeed / rawSpeed;
      assert (vx * scale) * (vx * scale) + (vy * scale) * (vy * scale) == (vx * vx + vy * vy) * (scale * scale);
      assert maxSpeed == rawSpeed * scale;
      (vx * scale, vy * scale, maxSpeed)
    else (vx, vy, rawSpeed)
  }

  /** The move handler's state: the throttle's last call and the tracker. */
  datatype MoveState = MoveState(lastCall: real, pr: Tracker)

  /** The velocity `onMove` derives from a sample. */
  function SampleVelocity(pr: Tracker, now: real, clientX: real, clientY: real): (v: (real, real))
    requires SampleInterval(pr, now) != 0.0
  {
    var dt := SampleInterval(pr, now);
    ((clientX - pr.lastX) / dt * 1000.0, (clientY - pr.lastY) / dt * 1000.0)
  }

  /** Between calls the tracker was last updated no later than the
      throttle's last forwarded call, and never at a time below `limit`. */
  predicate MoveInvariant(s: MoveState, limit: real) {
    && s.lastCall >= 0.0
    && (s.pr.lastTime == 0.0 || (limit <= s.pr.lastTime <= s.lastCall))
  }

  /** The throttled `onMove` (limit 50 ms): nothing when throttled or out of
      view; otherwise the tracker takes the sample, with the clamped velocity.
      `rawSpeed` is `Math.hypot` of the unclamped velocity. */
  function ThrottledMove(s: MoveState, now: real, clientX: real, clientY: real, rectLeft: real, rectTop: real,
                         inView: bool, rawSpeed: real, maxSpeed: real): (r: MoveState)
    requires MoveInvariant(s, 50.0) && now >= s.lastCall && maxSpeed >= 0.0
    requires now - s.lastCall >= 50.0 && inView ==>
      SampleInterval(s.pr, now) != 0.0 &&
      var v := SampleVelocity(s.pr, now, clientX, clientY); IsHypot(rawSpeed, v.0, v.1)
    ensures MoveInvariant(r, 50.0)
    ensures now - s.lastCall < 50.0 ==> r == s
    ensures now - s.lastCall >= 50.0 && !inView ==> r == s.(lastCall := now)
    ensures now - s.lastCall >= 50.0 && inView ==>
      && r.lastCall == now && r.pr.lastTime == now && r.pr.lastX == clientX && r.pr.lastY == clientY
      && r.pr.x == clientX - rectLeft && r.pr.y == clientY - rectTop
      && r.pr.speed <= maxSpeed && IsHypot(r.pr.speed, r.pr.vx, r.pr.vy)
  {
    var (forward, lastCall) := Throttle(s.lastCall, now, 50.0);
    if !forward then s
    else if !inView then s.(lastCall := lastCall)
    else
      var v := SampleVelocity(s.pr, now, clientX, clientY);
      var (vx, vy, speed) := ClampVelocity(v.0, v.1, rawSpeed, maxSpeed);
      MoveState(lastCall, Tracker(clientX - rectLeft, clientY - rectTop, vx, vy, speed, now, clientX, clientY))
  }

  /** Under the throttle the move handler never divides by zero: its sample
      interval is 16 on the first sample and at least 50 ms afterwards. */
  lemma SampleIntervalBounded(s: MoveState, now: real)
    requires MoveInvariant(s, 50.0) && now - s.lastCall >= 50.0
    ensures SampleInterval(s.pr, now) == 16.0 || SampleInterval(s.pr, now) >= 50.0
  {
  }

  // ---------------------------------------------------------------------------
  // The push-in-flight flag
  // ---------------------------------------------------------------------------

  /** A started push: which dot, and the offset it is pushed to. */
  datatype Push = Push(index: nat, xOffset: real, yOffset: real)

  /** The target offset of a move push: away from the pointer, leaning
      along its velocity. */
  function MovePush(d: Dot, i: nat, pr: Tracker): Push {
    Push(i, d.cx - pr.x + pr.vx * 0.005, d.cy - pr.y + pr.vy * 0.005)
  }

  /** The target offset of a click push: away from the click, scaled by the
      strength and the falloff. */
  function ClickPush(d: Dot, i: nat, dist: real, cx: real, cy: real, shockRadius: real, shockStrength: real): Push
    requires shockRadius > 0.0
  {
    var f := Falloff(dist, shockRadius);
    Push(i, (d.cx - cx) * shockStrength * f, (d.cy - cy) * shockStrength * f)
  }

  /** The move gate of one dot: the pointer is fast, the dot is within
      `proximity`, and its flag is clear. */
  predicate MoveGate(d: Dot, dist: real, pr: Tracker, speedTrigger: real, proximity: real) {
    pr.speed > speedTrigger && dist < proximity && !d.inertiaApplied
  }

  /** Pushes started in increasing dot order, so no dot twice. */
  predicate InDotOrder(ps: seq<Push>) {
    forall k, l :: 0 <= k < l < |ps| ==> ps[k].index < ps[l].index
  }

  /** Some push of `ps` is for dot `i`. */
  predicate Pushed(ps: seq<Push>, i: nat) {
    exists k :: 0 <= k < |ps| && ps[k].index == i
  }

  /** Appending a push for dot `n` after pushes for dots below `n` keeps the
      order, keeps every earlier push, and adds dot `n`. */
  lemma PushAppended(ps: seq<Push>, push: Push, n: nat)
    requires InDotOrder(ps) && push.index == n
    requires forall k :: 0 <= k < |ps| ==> ps[k].index < n
    ensures InDotOrder(ps + [push]) && Pushed(ps + [push], n)
    ensures forall k :: 0 <= k < |ps| ==> (ps + [push])[k] == ps[k]
    ensures forall i: nat :: Pushed(ps, i) ==> Pushed(ps + [push], i)
  {
    var qs := ps + [push];
    assert qs[|ps|] == push;
    forall i: nat | Pushed(ps, i) ensures Pushed(qs, i) {
      var k :| 0 <= k < |ps| && ps[k].index == i;
      assert qs[k] == ps[k];
    }
  }

  /** The move response: a dot that passes the gate gets its flag set and is
      pushed along the motion; the pushes are those of exactly the gated
      dots, in the `for … of` order. */
  function MoveResponse(dots: seq<Dot>, dist: seq<real>, pr: Tracker, speedTrigger: real, proximity: real): (r: (seq<Dot>, seq<Push>))
    requires |dist| == |dots|
    ensures |r.0| == |dots|
    ensures forall i :: 0 <= i < |dots| ==>
      r.0[i] == (if MoveGate(dots[i], dist[i], pr, speedTrigger, proximity) then dots[i].(inertiaApplied := true) else dots[i])
    ensures forall k :: 0 <= k < |r.1| ==>
      var i := r.1[k].index;
      && i < |dots| && MoveGate(dots[i], dist[i], pr, speedTrigger, proximity)
      && r.1[k] == MovePush(dots[i], i, pr)
    ensures forall i :: 0 <= i < |dots| && MoveGate(dots[i], dist[i], pr, speedTrigger, proximity) ==>
      Pushed(r.1, i)
    ensures InDotOrder(r.1)
  {
    if |dots| == 0 then ([], [])
    else
      var last := |dots| - 1;
      var (ds, ps) := MoveResponse(dots[..last], dist[..last], pr, speedTrigger, proximity);
      var d := dots[last];
      if MoveGate(d, dist[last], pr, speedTrigger, proximity) then
        var push := MovePush(d, last, pr);
        PushAppended(ps, push, last);
        (ds + [d.(inertiaApplied := true)], ps + [push])
      else (ds + [d], ps)
  }

  /** `max(0, 1 - dist / shockRadius)`: full strength at the click, fading
      linearly to nothing at `shockRadius`. */
  function Falloff(dist: real, shockRadius: real): (f: real)
    requires shockRadius > 0.0
    ensures f >= 0.0
    ensures dist >= 0.0 ==> f <= 1.0
    ensures dist < shockRadius <==> f > 0.0
    ensures dist == 0.0 ==> f == 1.0
  {
    var v := 1.0 - dist / shockRadius;
    if v < 0.0 then 0.0 else v
  }

  /** The click gate of one dot: it lies inside the shock radius and its
      flag is clear. */
  predicate ClickGate(d: Dot, dist: real, shockRadius: real) {
    dist < shockRadius && !d.inertiaApplied
  }

  /** The click response: a dot that passes the gate gets its flag set and
      is pushed away, scaled by the falloff; the pushes are those of exactly
      the gated dots, in order. */
  function ClickResponse(dots: seq<Dot>, dist: seq<real>, cx: real, cy: real, shockRadius: real, shockStrength: real): (r: (seq<Dot>, seq<Push>))
    requires |dist| == |dots| && shockRadius > 0.0
    ensures |r.0| == |dots|
    ensures forall i :: 0 <= i < |dots| ==>
      r.0[i] == (if ClickGate(dots[i], dist[i], shockRadius) then dots[i].(inertiaApplied := true) else dots[i])
    ensures forall k :: 0 <= k < |r.1| ==>
      var i := r.1[k].index;
      && i < |dots| && ClickGate(dots[i], dist[i], shockRadius)
      && r.1[k] == ClickPush(dots[i], i, dist[i], cx, cy, shockRadius, shockStrength)
    ensures forall i :: 0 <= i < |dots| && ClickGate(dots[i], dist[i], shockRadius) ==>
      Pushed(r.1, i)
    ensures InDotOrder(r.1)
  {
    if |dots| == 0 then ([], [])
    else
      var last := |dots| - 1;
      var (ds, ps) := ClickResponse(dots[..last], dist[..last], cx, cy, shockRadius, shockStrength);
      var d := dots[last];
      if ClickGate(d, dist[last], shockRadius) then
        var push := ClickPush(d, last, dist[last], cx, cy, shockRadius, shockStrength);
        PushAppended(ps, push, last);
        (ds + [d.(inertiaApplied := true)], ps + [push])
      else (ds + [d], ps)
  }

  /** The animation library's completion callback of dot `i`'s push phase:
      the only place the flag is cleared. */
  function PushComplete(dots: seq<Dot>, i: nat): (r: seq<Dot>)
    requires i < |dots|
    ensures |r| == |dots| && !r[i].inertiaApplied
    ensures forall j :: 0 <= j < |dots| && j != i ==> r[j] == dots[j]
  {
    dots[i := dots[i].(inertiaApplied := false)]
  }

  /** A dot whose push is in flight is left alone by a move and by a click. */
  lemma FlagGatesResponses(dots: seq<Dot>, dist: seq<real>, pr: Tracker, speedTrigger: real, proximity: real,
                           cx: real, cy: real, shockRadius: real, shockStrength: real, i: nat)
    requires |dist| == |dots| && shockRadius > 0.0 && i < |dots| && dots[i].inertiaApplied
    ensures MoveResponse(dots, dist, pr, speedTrigger, proximity).0[i] == dots[i]
    ensures forall k :: 0 <= k < |MoveResponse(dots, dist, pr, speedTrigger, proximity).1| ==>
              MoveResponse(dots, dist, pr, speedTrigger, proximity).1[k].index != i
    ensures ClickResponse(dots, dist, cx, cy, shockRadius, shockStrength).0[i] == dots[i]
    ensures forall k :: 0 <= k < |ClickResponse(dots, dist, cx, cy, shockRadius, shockStrength).1| ==>
              ClickResponse(dots, dist, cx, cy, shockRadius, shockStrength).1[k].index != i
  {
  }

  /** A click push is never longer than `shockStrength` times the distance. */
  lemma ClickPushBounded(dx: real, dy: real, dist: real, shockRadius: real, shockStrength: real)
    requires shockRadius > 0.0 && IsHypot(dist, dx, dy)
    ensures var f := Falloff(dist, shockRadius);
      var px := dx * shockStrength * f;
      var py := dy * shockStrength * f;
      px * px + py * py <= (shockStrength * dist) * (shockStrength * dist)
  {
    var f := Falloff(dist, shockRadius);
    var s2 := shockStrength * shockStrength;
    var d2 := dist * dist;
    assert (dx * shockStrength * f) * (dx * shockStrength * f) + (dy * shockStrength * f) * (dy * shockStrength * f)
        == (s2 * (f * f)) * d2;
    assert (shockStrength * dist) * (shockStrength * dist) == s2 * d2;
    assert f * f <= 1.0 by { PositiveScale(f, f); }
    assert s2 * (f * f) <= s2 by { PositiveScale(s2, f * f); }
    ScaleLe(s2 * (f * f), s2, d2);
  }

  // ---------------------------------------------------------------------------
  // The listeners
  // ---------------------------------------------------------------------------

  /** The effect's tunables. */
  datatype Params = Params(
    dotSize: nat, gap: nat, proximity: real, speedTrigger: real,
    shockRadius: real, shockStrength: real, maxSpeed: real)

  /** The component's default props. */
  const DefaultParams: Params := Params(14, 30, 140.0, 120.0, 220.0, 4.5, 4000.0)

  predicate ValidParams(p: Params) {
    p.dotSize + p.gap > 0 && p.shockRadius > 0.0 && p.maxSpeed >= 0.0
  }

  lemma DefaultParamsValid()
    ensures ValidParams(DefaultParams)
  {
  }

  /** What the listeners share: the throttle and tracker, and the dots. */
  datatype Grid = Grid(move: MoveState, dots: seq<Dot>)

  /** The throttled window `mousemove` listener. `dist[i]` is the distance
      from dot `i` to the new pointer position. With reduced motion the
      tracker still follows the pointer but no dot responds. */
  function OnMouseMove(g: Grid, now: real, clientX: real, clientY: real, rectLeft: real, rectTop: real,
                       inView: bool, reduced: bool, rawSpeed: real, dist: seq<real>, p: Params): (r: (Grid, seq<Push>))
    requires ValidParams(p) && MoveInvariant(g.move, 50.0) && now >= g.move.lastCall && |dist| == |g.dots|
    requires now - g.move.lastCall >= 50.0 && inView ==>
      SampleInterval(g.move.pr, now) != 0.0 &&
      var v := SampleVelocity(g.move.pr, now, clientX, clientY); IsHypot(rawSpeed, v.0, v.1)
    ensures MoveInvariant(r.0.move, 50.0) && |r.0.dots| == |g.dots|
    ensures r.0.move == ThrottledMove(g.move, now, clientX, clientY, rectLeft, rectTop, inView, rawSpeed, p.maxSpeed)
    ensures now - g.move.lastCall < 50.0 || !inView || reduced ==> r.0.dots == g.dots && r.1 == []
    ensures now - g.move.lastCall >= 50.0 && inView && !reduced ==>
      (r.0.dots, r.1) == MoveResponse(g.dots, dist, r.0.move.pr, p.speedTrigger, p.proximity)
  {
    var m := ThrottledMove(g.move, now, clientX, clientY, rectLeft, rectTop, inView, rawSpeed, p.maxSpeed);
    if now - g.move.lastCall >= 50.0 && inView && !reduced then
      var (dots, pushes) := MoveResponse(g.dots, dist, m.pr, p.speedTrigger, p.proximity);
      (Grid(m, dots), pushes)
    else (Grid(m, g.dots), [])
  }

  /** The window `click` listener; `dist[i]` is the distance from dot `i` to
      the click. */
  function OnClick(g: Grid, clientX: real, clientY: real, rectLeft: real, rectTop: real,
                   inView: bool, reduced: bool, dist: seq<real>, p: Params): (r: (Grid, seq<Push>))
    requires ValidParams(p) && |dist| == |g.dots|
    ensures r.0.move == g.move && |r.0.dots| == |g.dots|
    ensures !inView || reduced ==> r.0.dots == g.dots && r.1 == []
    ensures inView && !reduced ==>
      (r.0.dots, r.1) == ClickResponse(g.dots, dist, clientX - rectLeft, clientY - rectTop, p.shockRadius, p.shockStrength)
  {
    if inView && !reduced then
      var (dots, pushes) := ClickResponse(g.dots, dist, clientX - rectLeft, clientY - rectTop, p.shockRadius, p.shockStrength);
      (Grid(g.move, dots), pushes)
    else (g, [])
  }

  /** Every push a listener starts sets its dot's flag, so a dot is pushed
      at most once until its push completes. */
  lemma {:induction false} PushedDotsAreFlagged(dots: seq<Dot>, dist: seq<real>, pr: Tracker, speedTrigger: real, proximity: real,
                             cx: real, cy: real, shockRadius: real, shockStrength: real)
    requires |dist| == |dots| && shockRadius > 0.0
    ensures var (ds, ps) := MoveResponse(dots, dist, pr, speedTrigger, proximity);
      forall k :: 0 <= k < |ps| ==> ds[ps[k].index].inertiaApplied
    ensures var (ds, ps) := ClickResponse(dots, dist, cx, cy, shockRadius, shockStrength);
      forall k :: 0 <= k < |ps| ==> ds[ps[k].index].inertiaApplied
  {
  }

  lemma PositiveScale(a: real, b: real)
    requires a >= 0.0 && b <= 1.0
    ensures a * b <= a
  {
  }

  lemma ScaleLe(a: real, b: real, c: real)
    requires a <= b && c >= 0.0
    ensures a * c <= b * c
  {
  }
}

=== FILE: fluid_step.dfy ===
/** One simulation step of the fluid cursor, as the sequence of GPU commands
    it issues: which pass draws, what it samples, where it writes, and when a
    ping-pong pair is swapped. The passes themselves are opaque; what is
    stated is their order, the number of swaps per field, and that no draw
    ever samples the texture it writes. */
module FluidStep {
  import opened Wrappers
  import opened Framebuffers

  // ---------------------------------------------------------------------------
  // Reference semantics of a command trace
  // ---------------------------------------------------------------------------

  /** The buffers after exchanging the halves of one ping-pong field. */
  function SwapField(f: Fields, field: Field): (g: Fields)
    ensures g.divergence == f.divergence && g.curl == f.curl
    ensures field == VelocityField ==> g == f.(velocity := SwapPair(f.velocity))
    ensures field == DyeField ==> g == f.(dye := SwapPair(f.dye))
    ensures field == PressureField ==> g == f.(pressure := SwapPair(f.pressure))
  {
    match field
    case VelocityField => f.(velocity := SwapPair(f.velocity))
    case DyeField => f.(dye := SwapPair(f.dye))
    case PressureField => f.(pressure := SwapPair(f.pressure))
  }

  /** Replaying a trace: swaps exchange halves, draws leave the bookkeeping
      alone (they only change texture contents). */
  function Replay(f: Fields, cmds: seq<Command>): Fields
    decreases |cmds|
  {
    if |cmds| == 0 then f
    else
      var g := if cmds[0].Swap? then SwapField(f, cmds[0].field) else f;
      Replay(g, cmds[1..])
  }

  lemma {:induction false} ReplayAppend(f: Fields, a: seq<Command>, b: seq<Command>)
    decreases |a|
    ensures Replay(f, a + b) == Replay(Replay(f, a), b)
  {
    if |a| > 0 {
      assert (a + b)[1..] == a[1..] + b;
      var g := if a[0].Swap? then SwapField(f, a[0].field) else f;
      ReplayAppend(g, a[1..], b);
    } else {
      assert a + b == b;
    }
  }

  /** The pass kinds of the draws of a trace, in order. */
  function DrawKinds(cmds: seq<Command>): seq<PassKind> {
    if |cmds| == 0 then []
    else if cmds[0].Draw? then [cmds[0].kind] + DrawKinds(cmds[1..])
    else DrawKinds(cmds[1..])
  }

  lemma {:induction false} DrawKindsAppend(a: seq<Command>, b: seq<Command>)
    ensures DrawKinds(a + b) == DrawKinds(a) + DrawKinds(b)
  {
    if |a| > 0 {
      assert (a + b)[1..] == a[1..] + b;
      DrawKindsAppend(a[1..], b);
    } else {
      assert a + b == b;
    }
  }

  /** How many times a trace swaps `field`. */
  function SwapCount(cmds: seq<Command>, field: Field): nat {
    if |cmds| == 0 then 0
    else (if cmds[0] == Swap(field) then 1 else 0) + SwapCount(cmds[1..], field)
  }

  lemma {:induction false} SwapCountAppend(a: seq<Command>, b: seq<Command>, field: Field)
    ensures SwapCount(a + b, field) == SwapCount(a, field) + SwapCount(b, field)
  {
    if |a| > 0 {
      assert (a + b)[1..] == a[1..] + b;
      SwapCountAppend(a[1..], b, field);
    } else {
      assert a + b == b;
    }
  }

  /** The elements of `s` are pairwise different. */
  predicate Distinct(s: seq<Handle>) {
    forall i, j :: 0 <= i < j < |s| ==> s[i] != s[j]
  }

  /** Exchanging two neighbours keeps a sequence's elements pairwise different. */
  lemma SwapNeighboursDistinct(s: seq<Handle>, k: nat)
    requires k + 1 < |s| && Distinct(s)
    ensures Distinct(s[k := s[k + 1]][k + 1 := s[k]])
  {
    var t := s[k := s[k + 1]][k + 1 := s[k]];
    forall i, j | 0 <= i < j < |t|
      ensures t[i] != t[j]
    {
      var i' := if i == k then k + 1 else if i == k + 1 then k else i;
      var j' := if j == k then k + 1 else if j == k + 1 then k else j;
      assert t[i] == s[i'] && t[j] == s[j'] && i' != j';
      if i' > j' {
        assert s[j'] != s[i'];
      }
    }
  }

  /** No two of the simulation's textures alias. */
  predicate NoAlias(f: Fields) {
    Distinct(Handles(f))
  }

  lemma ValidFieldsNoAlias(f: Fields, next: Handle)
    requires ValidFields(f, next)
    ensures NoAlias(f)
  {
  }

  /** Swapping a field permutes the handles, so aliasing cannot appear. */
  lemma SwapFieldNoAlias(f: Fields, field: Field)
    requires NoAlias(f)
    ensures NoAlias(SwapField(f, field))
  {
    var hs := Handles(f);
    var k := match field
      case DyeField => 0
      case VelocityField => 2
      case PressureField => 6;
    assert Handles(SwapField(f, field)) == hs[k := hs[k + 1]][k + 1 := hs[k]];
    SwapNeighboursDistinct(hs, k);
  }

  // ---------------------------------------------------------------------------
  // Segments of passes
  // ---------------------------------------------------------------------------

  /** The buffers a segment of passes ends with, and the commands it issued. */
  type Segment = (Fields, seq<Command>)

  /** `s` is a faithful run from `f`: its buffers are those the trace's
      swaps produce, and, when `f` has no aliasing, every draw is safe and
      aliasing does not appear. */
  predicate Consistent(f: Fields, s: Segment) {
    && s.0 == Replay(f, s.1)
    && (NoAlias(f) ==> AllSafe(s.1) && NoAlias(s.0))
  }

  /** Running `b` after `a` is a run of their concatenated traces. */
  lemma Compose(f: Fields, a: Segment, b: Segment)
    requires Consistent(f, a) && Consistent(a.0, b)
    ensures Consistent(f, (b.0, a.1 + b.1))
    ensures DrawKinds(a.1 + b.1) == DrawKinds(a.1) + DrawKinds(b.1)
    ensures forall field :: SwapCount(a.1 + b.1, field) == SwapCount(a.1, field) + SwapCount(b.1, field)
  {
    ReplayAppend(f, a.1, b.1);
    DrawKindsAppend(a.1, b.1);
    forall field {
      SwapCountAppend(a.1, b.1, field);
    }
    if NoAlias(f) {
      AllSafeAppend(a.1, b.1);
    }
  }

  /** The distinctions the step's draws rely on. */
  lemma NoAliasFacts(f: Fields)
    requires NoAlias(f)
    ensures f.curl.handle != f.velocity.read.handle
    ensures f.divergence.handle != f.velocity.read.handle
    ensures f.velocity.write.handle != f.velocity.read.handle && f.velocity.write.handle != f.curl.handle
    ensures f.velocity.write.handle != f.pressure.read.handle
    ensures f.pressure.write.handle != f.pressure.read.handle && f.pressure.write.handle != f.divergence.handle
    ensures f.dye.write.handle != f.dye.read.handle && f.dye.write.handle != f.velocity.read.handle
  {
    var hs := Handles(f);
    assert hs[2] != hs[5] && hs[2] != hs[4] && hs[2] != hs[3] && hs[3] != hs[5] && hs[3] != hs[6];
    assert hs[6] != hs[7] && hs[4] != hs[7] && hs[0] != hs[1] && hs[1] != hs[2];
  }

  /** What a one-draw trace does. */
  lemma OneDraw(f: Fields, c: Command)
    requires c.Draw?
    ensures Replay(f, [c]) == f && DrawKinds([c]) == [c.kind]
    ensures forall field :: SwapCount([c], field) == 0
  {
    assert [c][1..] == [];
  }

  /** What a draw followed by a swap does. */
  lemma DrawThenSwap(f: Fields, c: Command, field: Field)
    requires c.Draw?
    ensures Replay(f, [c, Swap(field)]) == SwapField(f, field)
    ensures DrawKinds([c, Swap(field)]) == [c.kind]
    ensures forall other :: SwapCount([c, Swap(field)], other) == if other == field then 1 else 0
  {
    var cmds := [c, Swap(field)];
    var rest := cmds[1..];
    assert rest == [Swap(field)] && rest[1..] == [];
    assert Replay(f, cmds) == Replay(f, rest);
    assert Replay(f, rest) == Replay(SwapField(f, field), []);
    assert DrawKinds(cmds) == [c.kind] + DrawKinds(rest);
    assert DrawKinds(rest) == DrawKinds([]);
    forall other
      ensures SwapCount(cmds, other) == if other == field then 1 else 0
    {
      assert SwapCount(cmds, other) == SwapCount(rest, other);
      assert SwapCount(rest, other) == (if other == field then 1 else 0) + SwapCount([], other);
    }
  }

  /** A draw sampling `sources` into the write half of `field`, then the swap. */
  function DrawAndSwap(f: Fields, kind: PassKind, sources: seq<Handle>, field: Field): Segment {
    var target := match field
      case VelocityField => f.velocity.write.handle
      case DyeField => f.dye.write.handle
      case PressureField => f.pressure.write.handle;
    (SwapField(f, field), [Draw(kind, sources, Texture(target)), Swap(field)])
  }

  /** `curl`: sample velocity, write the curl target. */
  function CurlStep(f: Fields): (s: Segment)
    ensures Consistent(f, s) && s.0 == f
    ensures DrawKinds(s.1) == [CurlPass]
    ensures forall field :: SwapCount(s.1, field) == 0
  {
    var c := Draw(CurlPass, [f.velocity.read.handle], Texture(f.curl.handle));
    OneDraw(f, c);
    if NoAlias(f) then NoAliasFacts(f); (f, [c]) else (f, [c])
  }

  /** `vorticity`: sample velocity and curl into velocity, then swap it. */
  function VorticityStep(f: Fields): (s: Segment)
    ensures Consistent(f, s) && s.0 == SwapField(f, VelocityField)
    ensures DrawKinds(s.1) == [VorticityPass]
    ensures SwapCount(s.1, VelocityField) == 1 && SwapCount(s.1, PressureField) == 0 && SwapCount(s.1, DyeField) == 0
  {
    var s := DrawAndSwap(f, VorticityPass, [f.velocity.read.handle, f.curl.handle], VelocityField);
    DrawThenSwap(f, s.1[0], VelocityField);
    if NoAlias(f) then NoAliasFacts(f); SwapFieldNoAlias(f, VelocityField); s else s
  }

  /** `divergence`: sample velocity, write the divergence target. */
  function DivergenceStep(f: Fields): (s: Segment)
    ensures Consistent(f, s) && s.0 == f
    ensures DrawKinds(s.1) == [DivergencePass]
    ensures forall field :: SwapCount(s.1, field) == 0
  {
    var c := Draw(DivergencePass, [f.velocity.read.handle], Texture(f.divergence.handle));
    OneDraw(f, c);
    if NoAlias(f) then NoAliasFacts(f); (f, [c]) else (f, [c])
  }

  /** `clear`: fade the previous pressure into the other half, then swap. */
  function ClearStep(f: Fields): (s: Segment)
    ensures Consistent(f, s) && s.0 == SwapField(f, PressureField)
    ensures DrawKinds(s.1) == [ClearPass]
    ensures SwapCount(s.1, VelocityField) == 0 && SwapCount(s.1, PressureField) == 1 && SwapCount(s.1, DyeField) == 0
  {
    var s := DrawAndSwap(f, ClearPass, [f.pressure.read.handle], PressureField);
    DrawThenSwap(f, s.1[0], PressureField);
    if NoAlias(f) then NoAliasFacts(f); SwapFieldNoAlias(f, PressureField); s else s
  }

  /** One Jacobi iteration: sample divergence and pressure, write pressure, swap. */
  function PressureIteration(f: Fields): (s: Segment)
    ensures Consistent(f, s) && s.0 == SwapField(f, PressureField)
    ensures DrawKinds(s.1) == [PressurePass]
    ensures SwapCount(s.1, VelocityField) == 0 && SwapCount(s.1, PressureField) == 1 && SwapCount(s.1, DyeField) == 0
  {
    var s := DrawAndSwap(f, PressurePass, [f.divergence.handle, f.pressure.read.handle], PressureField);
    DrawThenSwap(f, s.1[0], PressureField);
    if NoAlias(f) then NoAliasFacts(f); SwapFieldNoAlias(f, PressureField); s else s
  }

  /** The `PRESSURE_ITERATIONS` loop. */
  function PressureLoop(f: Fields, n: nat): (s: Segment)
    decreases n
    ensures Consistent(f, s)
    ensures s.0 == f.(pressure := SwapN(f.pressure, n))
    ensures DrawKinds(s.1) == seq(n, _ => PressurePass)
    ensures SwapCount(s.1, VelocityField) == 0 && SwapCount(s.1, PressureField) == n && SwapCount(s.1, DyeField) == 0
  {
    if n == 0 then (f, [])
    else
      var first := PressureIteration(f);
      var rest := PressureLoop(first.0, n - 1);
      Compose(f, first, rest);
      SwapNShift(f.pressure, n - 1);
      (rest.0, first.1 + rest.1)
  }

  /** Swapping first and then `n` times is swapping `n + 1` times. */
  lemma {:induction false} SwapNShift(d: DoubleFbo, n: nat)
    ensures SwapN(SwapPair(d), n) == SwapN(d, n + 1)
  {
    if n > 0 {
      SwapNShift(d, n - 1);
    }
  }

  /** `gradientSubtract`: sample pressure and velocity into velocity, swap. */
  function GradientSubtractStep(f: Fields): (s: Segment)
    ensures Consistent(f, s) && s.0 == SwapField(f, VelocityField)
    ensures DrawKinds(s.1) == [GradientSubtractPass]
    ensures SwapCount(s.1, VelocityField) == 1 && SwapCount(s.1, PressureField) == 0 && SwapCount(s.1, DyeField) == 0
  {
    var s := DrawAndSwap(f, GradientSubtractPass, [f.pressure.read.handle, f.velocity.read.handle], VelocityField);
    DrawThenSwap(f, s.1[0], VelocityField);
    if NoAlias(f) then NoAliasFacts(f); SwapFieldNoAlias(f, VelocityField); s else s
  }

  /** Advect velocity by itself, then swap. */
  function AdvectVelocityStep(f: Fields): (s: Segment)
    ensures Consistent(f, s) && s.0 == SwapField(f, VelocityField)
    ensures DrawKinds(s.1) == [AdvectionPass]
    ensures SwapCount(s.1, VelocityField) == 1 && SwapCount(s.1, PressureField) == 0 && SwapCount(s.1, DyeField) == 0
  {
    var s := DrawAndSwap(f, AdvectionPass, [f.velocity.read.handle, f.velocity.read.handle], VelocityField);
    DrawThenSwap(f, s.1[0], VelocityField);
    if NoAlias(f) then NoAliasFacts(f); SwapFieldNoAlias(f, VelocityField); s else s
  }

  /** Advect dye by velocity, then swap dye. */
  function AdvectDyeStep(f: Fields): (s: Segment)
    ensures Consistent(f, s) && s.0 == SwapField(f, DyeField)
    ensures DrawKinds(s.1) == [AdvectionPass]
    ensures SwapCount(s.1, VelocityField) == 0 && SwapCount(s.1, PressureField) == 0 && SwapCount(s.1, DyeField) == 1
  {
    var s := DrawAndSwap(f, AdvectionPass, [f.velocity.read.handle, f.dye.read.handle], DyeField);
    DrawThenSwap(f, s.1[0], DyeField);
    if NoAlias(f) then NoAliasFacts(f); SwapFieldNoAlias(f, DyeField); s else s
  }

  // ---------------------------------------------------------------------------
  // The step, splats and display
  // ---------------------------------------------------------------------------

  /** The pass order of one step with `iterations` Jacobi iterations. */
  function StepKinds(iterations: nat): seq<PassKind> {
    [CurlPass, VorticityPass, DivergencePass, ClearPass]
      + seq(iterations, _ => PressurePass)
      + [GradientSubtractPass, AdvectionPass, AdvectionPass]
  }

  /** Curl, vorticity, divergence and clear. */
  function Prelude(f: Fields): (s: Segment)
    ensures Consistent(f, s)
    ensures DrawKinds(s.1) == [CurlPass, VorticityPass, DivergencePass, ClearPass]
    ensures SwapCount(s.1, VelocityField) == 1 && SwapCount(s.1, PressureField) == 1
    ensures SwapCount(s.1, DyeField) == 0
    ensures s.0 == f.(velocity := SwapPair(f.velocity), pressure := SwapPair(f.pressure))
  {
    var s1 := CurlStep(f);
    var s2 := VorticityStep(s1.0);
    var s3 := DivergenceStep(s2.0);
    var s4 := ClearStep(s3.0);
    Compose(f, s1, s2);
    var a2 := (s2.0, s1.1 + s2.1);
    Compose(f, a2, s3);
    var a3 := (s3.0, a2.1 + s3.1);
    Compose(f, a3, s4);
    (s4.0, a3.1 + s4.1)
  }

  /** The prelude, the Jacobi iterations and the gradient subtraction: the
      pressure projection of the velocity field. */
  function Projection(f: Fields, iterations: nat): (s: Segment)
    ensures Consistent(f, s)
    ensures DrawKinds(s.1) == [CurlPass, VorticityPass, DivergencePass, ClearPass]
      + seq(iterations, _ => PressurePass) + [GradientSubtractPass]
    ensures SwapCount(s.1, VelocityField) == 2 && SwapCount(s.1, PressureField) == iterations + 1
    ensures SwapCount(s.1, DyeField) == 0
    ensures s.0 == f.(pressure := SwapN(f.pressure, iterations + 1))
  {
    var s1 := Prelude(f);
    var s2 := PressureLoop(s1.0, iterations);
    var s3 := GradientSubtractStep(s2.0);
    Compose(f, s1, s2);
    var a2 := (s2.0, s1.1 + s2.1);
    Compose(f, a2, s3);
    SwapNShift(f.pressure, iterations);
    (s3.0, a2.1 + s3.1)
  }

  /** The passes of `step` on allocated buffers. */
  function StepPasses(f: Fields, iterations: nat): (s: Segment)
    ensures Consistent(f, s)
    ensures DrawKinds(s.1) == StepKinds(iterations)
    ensures SwapCount(s.1, VelocityField) == 3 && SwapCount(s.1, PressureField) == iterations + 1
    ensures SwapCount(s.1, DyeField) == 1
  {
    var s1 := Projection(f, iterations);
    var s2 := AdvectVelocityStep(s1.0);
    var s3 := AdvectDyeStep(s2.0);
    Compose(f, s1, s2);
    var a2 := (s2.0, s1.1 + s2.1);
    Compose(f, a2, s3);
    (s3.0, a2.1 + s3.1)
  }

  /** `step`: nothing while the buffers are missing; otherwise curl,
      vorticity, divergence, clear, `iterations` pressure iterations,
      gradient subtraction and the two advections, with three velocity swaps,
      `iterations + 1` pressure swaps and one dye swap. */
  function Step(fields: Option<Fields>, iterations: nat): (r: (Option<Fields>, seq<Command>))
    ensures fields.None? ==> r == (None, [])
    ensures fields.Some? ==>
      && r.0.Some? && r.0.value == Replay(fields.value, r.1)
      && DrawKinds(r.1) == StepKinds(iterations)
      && SwapCount(r.1, VelocityField) == 3 && SwapCount(r.1, PressureField) == iterations + 1
      && SwapCount(r.1, DyeField) == 1
      && (NoAlias(fields.value) ==> AllSafe(r.1) && NoAlias(r.0.value))
  {
    match fields
    case None => (None, [])
    case Some(f) =>
      var s := StepPasses(f, iterations);
      (Some(s.0), s.1)
  }

  /** Swaps of different fields commute, so a trace's effect on the
      buffers is fixed by how often it swaps each field. */
  lemma {:induction false} ReplayByCounts(f: Fields, cmds: seq<Command>)
    decreases |cmds|
    ensures Replay(f, cmds) == f.(velocity := SwapN(f.velocity, SwapCount(cmds, VelocityField)),
                                  dye := SwapN(f.dye, SwapCount(cmds, DyeField)),
                                  pressure := SwapN(f.pressure, SwapCount(cmds, PressureField)))
  {
    if |cmds| > 0 {
      var g := if cmds[0].Swap? then SwapField(f, cmds[0].field) else f;
      ReplayByCounts(g, cmds[1..]);
      SwapNShift(f.velocity, SwapCount(cmds[1..], VelocityField));
      SwapNShift(f.dye, SwapCount(cmds[1..], DyeField));
      SwapNShift(f.pressure, SwapCount(cmds[1..], PressureField));
    }
  }

  /** After a step, velocity and dye have changed halves and pressure has
      changed halves iff the iteration count is even. */
  lemma StepSwapsHalves(f: Fields, iterations: nat)
    requires NoAlias(f)
    ensures var r := Step(Some(f), iterations).0.value;
      && r.velocity.read == f.velocity.write && r.velocity.write == f.velocity.read
      && r.dye.read == f.dye.write && r.dye.write == f.dye.read
      && (r.pressure == f.pressure <==> iterations % 2 == 1)
      && r.divergence == f.divergence && r.curl == f.curl
  {
    var r := Step(Some(f), iterations);
    ReplayByCounts(f, r.1);
    SwapNParity(f.velocity, 3);
    SwapNParity(f.dye, 1);
    PressureParity(f, iterations);
    var g := r.0.value;
    assert g.pressure == SwapN(f.pressure, iterations + 1);
  }

  /** `iterations + 1` swaps leave the pressure pair as it was iff
      `iterations` is odd. */
  lemma PressureParity(f: Fields, iterations: nat)
    requires NoAlias(f)
    ensures SwapN(f.pressure, iterations + 1) == f.pressure <==> iterations % 2 == 1
  {
    SwapNParity(f.pressure, iterations + 1);
    assert (iterations + 1) % 2 == 0 <==> iterations % 2 == 1;
    if iterations % 2 == 0 {
      NoAliasFacts(f);
      assert SwapPair(f.pressure).read != f.pressure.read;
    }
  }

  /** The force half of `splat`: sample velocity into velocity, swap. */
  function SplatVelocity(f: Fields): (s: Segment)
    ensures Consistent(f, s) && s.0 == SwapField(f, VelocityField)
    ensures DrawKinds(s.1) == [SplatPass]
    ensures SwapCount(s.1, VelocityField) == 1 && SwapCount(s.1, PressureField) == 0 && SwapCount(s.1, DyeField) == 0
  {
    var s := DrawAndSwap(f, SplatPass, [f.velocity.read.handle], VelocityField);
    DrawThenSwap(f, s.1[0], VelocityField);
    if NoAlias(f) then NoAliasFacts(f); SwapFieldNoAlias(f, VelocityField); s else s
  }

  /** The colour half of `splat`: sample dye into dye, swap. */
  function SplatDye(f: Fields): (s: Segment)
    ensures Consistent(f, s) && s.0 == SwapField(f, DyeField)
    ensures DrawKinds(s.1) == [SplatPass]
    ensures SwapCount(s.1, VelocityField) == 0 && SwapCount(s.1, PressureField) == 0 && SwapCount(s.1, DyeField) == 1
  {
    var s := DrawAndSwap(f, SplatPass, [f.dye.read.handle], DyeField);
    DrawThenSwap(f, s.1[0], DyeField);
    if NoAlias(f) then NoAliasFacts(f); SwapFieldNoAlias(f, DyeField); s else s
  }

  /** `splat`: draw the force into velocity and swap it, then the colour
      into dye and swap it. */
  function SplatStep(f: Fields): (s: Segment)
    ensures Consistent(f, s)
    ensures s.0 == f.(velocity := SwapPair(f.velocity), dye := SwapPair(f.dye))
    ensures DrawKinds(s.1) == [SplatPass, SplatPass]
    ensures SwapCount(s.1, VelocityField) == 1 && SwapCount(s.1, DyeField) == 1 && SwapCount(s.1, PressureField) == 0
  {
    var a := SplatVelocity(f);
    var b := SplatDye(a.0);
    Compose(f, a, b);
    (b.0, a.1 + b.1)
  }

  /** `render(null)`: the display pass samples the dye into the screen. */
  function Render(f: Fields): (c: Command)
    ensures c.Draw? && c.kind == DisplayPass && c.target == Screen
    ensures c.sources == [f.dye.read.handle]
    ensures DrawSafe(c)
  {
    Draw(DisplayPass, [f.dye.read.handle], Screen)
  }

  /** Swapping keeps the simulation's textures allocated and unaliased. */
  lemma SwapFieldValid(f: Fields, field: Field, next: Handle)
    requires ValidFields(f, next)
    ensures ValidFields(SwapField(f, field), next)
  {
    var hs := Handles(f);
    var k := match field
      case DyeField => 0
      case VelocityField => 2
      case PressureField => 6;
    assert Handles(SwapField(f, field)) == hs[k := hs[k + 1]][k + 1 := hs[k]];
    ValidFieldsNoAlias(f, next);
    SwapNeighboursDistinct(hs, k);
  }

  /** Replaying any trace keeps the simulation's textures allocated and
      unaliased: draws allocate nothing, swaps only exchange halves. */
  lemma {:induction false} ReplayValid(f: Fields, cmds: seq<Command>, next: Handle)
    requires ValidFields(f, next)
    decreases |cmds|
    ensures ValidFields(Replay(f, cmds), next)
  {
    if |cmds| > 0 {
      if cmds[0].Swap? {
        SwapFieldValid(f, cmds[0].field, next);
      }
      var g := if cmds[0].Swap? then SwapField(f, cmds[0].field) else f;
      ReplayValid(g, cmds[1..], next);
    }
  }

  /** `n` splats in a row, as `applyInputs` issues them. */
  function SplatAll(f: Fields, n: nat): (s: Segment)
    decreases n
    ensures Consistent(f, s)
    ensures DrawKinds(s.1) == seq(2 * n, _ => SplatPass)
    ensures SwapCount(s.1, VelocityField) == n && SwapCount(s.1, DyeField) == n
    ensures SwapCount(s.1, PressureField) == 0
  {
    if n == 0 then (f, [])
    else
      var first := SplatStep(f);
      var rest := SplatAll(first.0, n - 1);
      Compose(f, first, rest);
      assert seq(2 * n, _ => SplatPass) == [SplatPass, SplatPass] + seq(2 * (n - 1), _ => SplatPass);
      (rest.0, first.1 + rest.1)
  }
}

=== FILE: frame.dfy ===
/** The fluid cursor's frame loop (`updateFrame`) and its event handlers, over
    the state the effect keeps in closure variables. A frame is skipped while
    the page is inactive or faster than the frame cap; otherwise it measures
    time, resizes and (re)allocates buffers as needed, and then runs the colour
    cycle, the pending splats, one step and the display pass. The scheduler
    and the clocks are inputs. */
module Frame {
  import opened Wrappers
  import opened GpuCaps
  import opened Framebuffers
  import opened FluidStep
  import opened Pointers

  /** The closure state of the effect. */
  datatype State = State(
    active: bool,
    lastFrame: real,
    lastUpdateTime: real,
    colorTimer: real,
    pointers: seq<Pointer>,
    canvas: Canvas,
    fields: Option<Fields>,
    next: Handle)

  /** Allocated buffers never alias and lie below the allocation counter. */
  predicate ValidState(s: State) {
    s.fields.Some? ==> ValidFields(s.fields.value, s.next)
  }

  /** What the host supplies to one frame: the two clocks (milliseconds),
      the element, parent and window sizes, the pixel ratio, and the colours
      `generateColor` would draw. */
  datatype Host = Host(
    perfNow: real,
    dateNow: real,
    client: (real, real),
    parent: (real, real),
    window: (real, real),
    pixelRatio: real,
    newColor: nat -> Rgb)

  /** The frame cap: 24 frames per second with reduced motion, 36 otherwise. */
  function MaxFps(prefersReducedMotion: bool): (fps: real)
    ensures fps > 0.0
    ensures prefersReducedMotion ==> fps == 24.0
    ensures !prefersReducedMotion ==> fps == 36.0
  {
    if prefersReducedMotion then 24.0 else 36.0
  }

  /** `initFramebuffers` against the state: `None` when it throws because no
      RGBA format exists. */
  function Reinit(s: State, c: Config, e: Extensions): (r: Option<(State, seq<Command>)>)
    requires ValidConfig(c) && CoherentFormats(e) && ValidState(s)
    ensures r.None? <==> s.canvas.width >= 2 && s.canvas.height >= 2 && e.formatRGBA.None?
    ensures r.Some? ==> ValidState(r.value.0) && AllSafe(r.value.1) && r.value.0.next >= s.next
    ensures r.Some? ==> r.value.0 == s.(fields := r.value.0.fields, next := r.value.0.next)
    ensures r.Some? && (s.canvas.width < 2 || s.canvas.height < 2) ==> r.value == (s, [])
    ensures r.Some? && s.canvas.width >= 2 && s.canvas.height >= 2 ==> r.value.0.fields.Some?
  {
    match InitFramebuffers(s.fields, s.next, s.canvas, c, e)
    case Skipped => Some((s, []))
    case NoRenderFormat => None
    case Allocated(f, n, copies) => Some((s.(fields := Some(f), next := n), copies))
  }

  /** The simulating half of a frame on allocated buffers: colours, pending
      splats, one step, and the display pass. */
  datatype Simulated = Simulated(
    fields: Fields,
    pointers: seq<Pointer>,
    colorTimer: real,
    splats: seq<SplatArgs>,
    commands: seq<Command>)

  function Simulate(f: Fields, next: Handle, ps: seq<Pointer>, timer: real, dt: real, c: Config, newColor: nat -> Rgb): (r: Simulated)
    requires ValidFields(f, next)
    ensures ValidFields(r.fields, next) && AllSafe(r.commands)
    ensures |r.pointers| == |ps| && forall i :: 0 <= i < |ps| ==> !r.pointers[i].moved
    ensures var (t, coloured) := UpdateColors(timer, dt, c.colorUpdateSpeed, ps, newColor);
      && r.colorTimer == t
      && r.splats == MovedSplats(coloured, c.splatForce)
    ensures DrawKinds(r.commands) ==
      seq(2 * |r.splats|, _ => SplatPass) + StepKinds(c.pressureIterations) + [DisplayPass]
    ensures r.commands[|r.commands| - 1] == Draw(DisplayPass, [r.fields.dye.read.handle], Screen)
  {
    var (t, coloured) := UpdateColors(timer, dt, c.colorUpdateSpeed, ps, newColor);
    var (cleared, splats) := ApplyInputs(coloured, c.splatForce);
    var (g, commands) := Passes(f, next, |splats|, c.pressureIterations);
    Simulated(g, cleared, t, splats, commands)
  }

  /** The draws of a simulated frame: `n` splats, one step of `iterations`
      pressure iterations, and the display pass, on buffers that stay valid. */
  function Passes(f: Fields, next: Handle, n: nat, iterations: nat): (r: (Fields, seq<Command>))
    requires ValidFields(f, next)
    ensures ValidFields(r.0, next) && AllSafe(r.1)
    ensures DrawKinds(r.1) == seq(2 * n, _ => SplatPass) + StepKinds(iterations) + [DisplayPass]
    ensures r.1[|r.1| - 1] == Draw(DisplayPass, [r.0.dye.read.handle], Screen)
  {
    ValidFieldsNoAlias(f, next);
    var sp := SplatAll(f, n);
    var st := StepPasses(sp.0, iterations);
    ReplayValid(f, sp.1, next);
    ReplayValid(sp.0, st.1, next);
    var display := Render(st.0);
    OneDraw(st.0, display);
    AllSafeAppend(sp.1, st.1);
    AllSafeAppend(sp.1 + st.1, [display]);
    DrawKindsAppend(sp.1, st.1);
    DrawKindsAppend(sp.1 + st.1, [display]);
    (st.0, sp.1 + st.1 + [display])
  }

  /** The outcome of one call of `updateFrame`: the error thrown when no
      render format exists, or the new state with the commands issued while
      (re)allocating and while simulating, and whether a step ran. */
  datatype FrameResult =
    | Crashed
    | Rendered(state: State, setup: seq<Command>, simulation: seq<Command>, stepped: bool)

  /** `initFramebuffers` does its work only on a canvas of at least 2×2. */
  predicate Sized(c: Canvas) {
    c.width >= 2 && c.height >= 2
  }

  /** What a simulating frame leaves behind: allocated buffers, the same
      pointers none of which is still marked moved, and the draws of some
      number of splats, one step of `iterations` pressure iterations, and the
      display pass. */
  ghost predicate SimulatedFrame(t: State, simulation: seq<Command>, ps: seq<Pointer>, iterations: nat) {
    && t.fields.Some?
    && |t.pointers| == |ps|
    && (forall i :: 0 <= i < |ps| ==> !t.pointers[i].moved)
    && exists m: nat :: DrawKinds(simulation) ==
         seq(2 * m, _ => SplatPass) + StepKinds(iterations) + [DisplayPass]
  }

  /** `updateFrame`. */
  function UpdateFrame(s: State, c: Config, e: Extensions, fps: real, h: Host): (r: FrameResult)
    requires ValidConfig(c) && CoherentFormats(e) && ValidState(s) && fps > 0.0
    ensures !s.active ==> r == Rendered(s, [], [], false)
    ensures s.active && h.perfNow - s.lastFrame < 1000.0 / fps ==> r == Rendered(s, [], [], false)
    ensures r.Crashed? ==> e.formatRGBA.None?
    ensures r.Rendered? ==> ValidState(r.state) && AllSafe(r.setup + r.simulation)
    ensures r.Rendered? && r.state != s ==>
      && r.state.lastFrame == h.perfNow && r.state.lastUpdateTime == h.dateNow
      && r.state.canvas.width >= 2 && r.state.canvas.height >= 2
    ensures r.Rendered? && !r.stepped ==> r.simulation == [] && r.state.pointers == s.pointers
    ensures r.Rendered? && r.stepped ==> SimulatedFrame(r.state, r.simulation, s.pointers, c.pressureIterations)
    ensures s.active && h.perfNow - s.lastFrame >= 1000.0 / fps ==>
      var (canvas, changed) := ResizeCanvas(s.canvas, h.client, h.parent, h.window, h.pixelRatio);
      && (r.Crashed? <==> e.formatRGBA.None? && (changed || s.fields.None?))
      && (r.Rendered? ==>
            && r.state.lastFrame == h.perfNow && r.state.lastUpdateTime == h.dateNow
            && r.state.canvas == canvas && r.state.active
            && r.state.fields.Some?
            && (r.stepped <==> s.fields.Some? || changed))
  {
    if !s.active || h.perfNow - s.lastFrame < 1000.0 / fps then Rendered(s, [], [], false)
    else
      var (dt, last) := CalcDeltaTime(s.lastUpdateTime, h.dateNow);
      var (canvas, changed) := ResizeCanvas(s.canvas, h.client, h.parent, h.window, h.pixelRatio);
      var s1 := s.(lastFrame := h.perfNow, lastUpdateTime := last, canvas := canvas);
      AllocateAndSimulate(s1, changed, c, e, dt, h.newColor)
  }

  /** The rest of a frame once time is measured and the canvas resized:
      reallocate when the size changed, allocate when nothing is allocated
      yet (and stop there), and otherwise simulate. */
  function AllocateAndSimulate(s1: State, changed: bool, c: Config, e: Extensions, dt: real, newColor: nat -> Rgb): (r: FrameResult)
    requires ValidConfig(c) && CoherentFormats(e) && ValidState(s1)
    ensures r.Crashed? ==> e.formatRGBA.None?
    ensures r.Rendered? ==> ValidState(r.state) && AllSafe(r.setup + r.simulation)
    ensures r.Rendered? ==>
      && r.state.lastFrame == s1.lastFrame && r.state.lastUpdateTime == s1.lastUpdateTime
      && r.state.canvas == s1.canvas
    ensures r.Rendered? ==>
      r.state == s1.(colorTimer := r.state.colorTimer, pointers := r.state.pointers,
                     fields := r.state.fields, next := r.state.next)
    ensures r.Crashed? <==> Sized(s1.canvas) && e.formatRGBA.None? && (changed || s1.fields.None?)
    ensures r.Rendered? ==> (r.stepped <==> s1.fields.Some? || (changed && Sized(s1.canvas)))
    ensures r.Rendered? && !r.stepped ==> (r.state.fields.Some? <==> Sized(s1.canvas))
    ensures r.Rendered? && !r.stepped ==> r.simulation == [] && r.state.pointers == s1.pointers
    ensures r.Rendered? && r.stepped ==> SimulatedFrame(r.state, r.simulation, s1.pointers, c.pressureIterations)
  {
    match ReinitIfResized(s1, changed, c, e)
    case None => Crashed
    case Some(p) =>
      var (s2, copies) := p;
      var r := AllocateOrSimulate(s2, c, e, dt, newColor);
      if r.Rendered? then
        AllSafeAppend(copies, r.setup);
        AllSafeAppend(copies + r.setup, r.simulation);
        Rendered(r.state, copies + r.setup, r.simulation, r.stepped)
      else r
  }

  /** `if (resizeCanvas()) initFramebuffers();`: re-initialise only after a
      size change, which on a canvas of at least 2×2 always leaves buffers
      allocated. */
  function ReinitIfResized(s1: State, changed: bool, c: Config, e: Extensions): (r: Option<(State, seq<Command>)>)
    requires ValidConfig(c) && CoherentFormats(e) && ValidState(s1)
    ensures r.None? <==> changed && Sized(s1.canvas) && e.formatRGBA.None?
    ensures r.Some? ==> ValidState(r.value.0) && AllSafe(r.value.1)
    ensures r.Some? ==> r.value.0 == s1.(fields := r.value.0.fields, next := r.value.0.next)
    ensures r.Some? && !(changed && Sized(s1.canvas)) ==> r.value == (s1, [])
    ensures r.Some? && changed && Sized(s1.canvas) ==> r.value.0.fields.Some?
  {
    if changed then Reinit(s1, c, e) else Some((s1, []))
  }

  /** The last part of a frame, after any resize: allocate when nothing is
      allocated yet (and stop there), otherwise simulate. */
  function AllocateOrSimulate(s2: State, c: Config, e: Extensions, dt: real, newColor: nat -> Rgb): (r: FrameResult)
    requires ValidConfig(c) && CoherentFormats(e) && ValidState(s2)
    ensures r.Crashed? <==> Sized(s2.canvas) && e.formatRGBA.None? && s2.fields.None?
    ensures r.Rendered? ==> ValidState(r.state) && AllSafe(r.setup) && AllSafe(r.simulation)
    ensures r.Rendered? ==>
      r.state == s2.(colorTimer := r.state.colorTimer, pointers := r.state.pointers,
                     fields := r.state.fields, next := r.state.next)
    ensures r.Rendered? ==> (r.stepped <==> s2.fields.Some?)
    ensures r.Rendered? && r.stepped ==> r.setup == []
    ensures r.Rendered? && !r.stepped ==>
      && r.simulation == [] && r.state.pointers == s2.pointers
      && (r.state.fields.Some? <==> Sized(s2.canvas))
    ensures r.Rendered? && r.stepped ==> SimulatedFrame(r.state, r.simulation, s2.pointers, c.pressureIterations)
  {
    if s2.fields.None? then
      match Reinit(s2, c, e)
      case None => Crashed
      case Some(q) => Rendered(q.0, q.1, [], false)
    else
      var sim := Simulate(s2.fields.value, s2.next, s2.pointers, s2.colorTimer, dt, c, newColor);
      Rendered(
        s2.(colorTimer := sim.colorTimer, pointers := sim.pointers, fields := Some(sim.fields)),
        [], sim.commands, true)
  }

  /** A frame that only allocated is followed by one that simulates: once a
      due frame has rendered, the next due frame under the same measurements
      finds the canvas unchanged and the buffers in place, and steps. */
  lemma AllocationThenStep(s: State, c: Config, e: Extensions, fps: real, h: Host, h2: Host)
    requires ValidConfig(c) && CoherentFormats(e) && ValidState(s) && fps > 0.0
    requires s.active && h.perfNow - s.lastFrame >= 1000.0 / fps
    requires UpdateFrame(s, c, e, fps, h).Rendered?
    requires h2.client == h.client && h2.parent == h.parent && h2.window == h.window
    requires h2.pixelRatio == h.pixelRatio && h2.perfNow - h.perfNow >= 1000.0 / fps
    ensures var r2 := UpdateFrame(UpdateFrame(s, c, e, fps, h).state, c, e, fps, h2);
      r2.Rendered? && r2.stepped
  {
    ResizeCanvasIdempotent(s.canvas, h.client, h.parent, h.window, h.pixelRatio);
  }

  // ---------------------------------------------------------------------------
  // Visibility
  // ---------------------------------------------------------------------------

  /** The effect starts active whatever the motion preference; only the
      visibility handler ever changes the flag. */
  const InitiallyActive: bool := true

  /** The `visibilitychange` listener: the loop is active exactly while the
      page is visible and reduced motion is off. Nothing else changes. */
  function OnVisibility(s: State, hidden: bool, prefersReducedMotion: bool): (r: State)
    ensures r.active <==> !hidden && !prefersReducedMotion
    ensures r.(active := s.active) == s
  {
    s.(active := !hidden && !prefersReducedMotion)
  }

  /** With reduced motion the fluid runs (at the lower frame cap) from the
      start until the first visibility change; from then on every frame is
      skipped, whether the page was hidden or shown. */
  lemma ReducedMotionStopsAfterVisibilityChange(s: State, hidden: bool, c: Config, e: Extensions, h: Host)
    requires ValidConfig(c) && CoherentFormats(e) && ValidState(s)
    ensures var t := OnVisibility(s, hidden, true);
      UpdateFrame(t, c, e, MaxFps(true), h) == Rendered(t, [], [], false)
  {
  }

  /** Without reduced motion, showing the page again re-activates the loop:
      the next frame past the cap is processed (it records its time or
      throws) instead of being skipped. */
  lemma ShowingResumes(s: State, c: Config, e: Extensions, h: Host)
    requires ValidConfig(c) && CoherentFormats(e) && ValidState(s)
    requires h.perfNow - s.lastFrame >= 1000.0 / MaxFps(false)
    ensures var t := OnVisibility(s, false, false);
      var r := UpdateFrame(t, c, e, MaxFps(false), h);
      t.active && (r.Rendered? ==> r.state.lastFrame == h.perfNow && r.state.lastUpdateTime == h.dateNow)
  {
  }

  // ---------------------------------------------------------------------------
  // Event handlers
  // ---------------------------------------------------------------------------

  /** The canvas size the pointer maths divides by. */
  function SizeOf(c: Canvas): Size {
    Size(c.width as real, c.height as real)
  }

  /** A listener applied to the state: the event updates the first pointer;
      a mouse down also splats at once. While the buffers are missing that
      splat throws after the pointer update, so nothing is drawn. */
  function OnEvent(s: State, ev: Event): (r: (State, seq<Command>))
    requires |s.pointers| > 0 && s.canvas.width > 0 && s.canvas.height > 0
    requires ValidState(s)
    ensures |r.0.pointers| == |s.pointers| && r.0.pointers[1..] == s.pointers[1..]
    ensures r.0.pointers[0] == HandleEvent(s.pointers[0], ev, SizeOf(s.canvas)).0
    ensures ValidState(r.0) && AllSafe(r.1)
    ensures !ev.MouseDown? ==> r.1 == [] && r.0.fields == s.fields
    ensures ev.MouseDown? && s.fields.Some? ==> DrawKinds(r.1) == [SplatPass, SplatPass]
    ensures ev.MouseDown? && s.fields.None? ==> r.1 == []
  {
    var (p, click) := HandleEvent(s.pointers[0], ev, SizeOf(s.canvas));
    var s1 := s.(pointers := [p] + s.pointers[1..]);
    if click && s.fields.Some? then
      var f := s.fields.value;
      ValidFieldsNoAlias(f, s.next);
      var sp := SplatStep(f);
      ReplayValid(f, sp.1, s.next);
      (s1.(fields := Some(sp.0)), sp.1)
    else (s1, [])
  }
}

=== FILE: framebuffers.dfy ===
/** Framebuffer bookkeeping of the fluid cursor: render targets as opaque
    handles drawn from a counter, ping-pong pairs, resize that carries the
    old contents over by a copy pass, the aspect-ratio resolution rule, canvas
    sizing, and (re)allocation of the five simulation buffers. Every GPU draw
    is recorded as a `Command`, so what a pass reads and writes can be stated. */
module Framebuffers {
  import opened Wrappers
  import opened GpuCaps
  import opened JsMath

  type Handle = nat

  /** The shader program a draw runs. */
  datatype PassKind =
    | CopyPass | ClearPass | SplatPass | AdvectionPass | DivergencePass
    | CurlPass | VorticityPass | PressurePass | GradientSubtractPass | DisplayPass

  /** Where a draw writes: a texture, or the default framebuffer (the screen). */
  datatype Target = Texture(handle: Handle) | Screen

  /** The three ping-pong fields. */
  datatype Field = VelocityField | DyeField | PressureField

  /** A GPU command: a full-screen draw of `kind` sampling `sources` into
      `target`, or a read/write exchange of a ping-pong field. */
  datatype Command = Draw(kind: PassKind, sources: seq<Handle>, target: Target) | Swap(field: Field)

  /** A draw into a texture never samples that texture. */
  predicate DrawSafe(c: Command) {
    c.Draw? && c.target.Texture? ==> c.target.handle !in c.sources
  }

  predicate AllSafe(cmds: seq<Command>) {
    forall i :: 0 <= i < |cmds| ==> DrawSafe(cmds[i])
  }

  lemma AllSafeAppend(a: seq<Command>, b: seq<Command>)
    requires AllSafe(a) && AllSafe(b)
    ensures AllSafe(a + b)
  {
    forall i | 0 <= i < |a + b|
      ensures DrawSafe((a + b)[i])
    {
      if i < |a| {
        assert (a + b)[i] == a[i];
      } else {
        assert (a + b)[i] == b[i - |a|];
      }
    }
  }

  /** A texture with its framebuffer; `handle` stands for both. */
  datatype Fbo = Fbo(
    handle: Handle,
    width: nat,
    height: nat,
    texelSizeX: real,
    texelSizeY: real,
    format: Format,
    filtering: Filtering)

  /** `createFBO`: a fresh target of size w×h with texel size 1/w × 1/h; the
      handle is `next`, and the counter moves on. */
  function CreateFbo(next: Handle, w: nat, h: nat, f: Format, filtering: Filtering): (r: (Fbo, Handle))
    requires w > 0 && h > 0
    ensures r.0.handle == next && r.1 == next + 1
    ensures r.0.width == w && r.0.height == h
    ensures r.0.texelSizeX * w as real == 1.0 && r.0.texelSizeY * h as real == 1.0
  {
    (Fbo(next, w, h, 1.0 / w as real, 1.0 / h as real, f, filtering), next + 1)
  }

  /** A ping-pong pair: passes sample `read` and draw into `write`. */
  datatype DoubleFbo = DoubleFbo(
    read: Fbo,
    write: Fbo,
    width: nat,
    height: nat,
    texelSizeX: real,
    texelSizeY: real)

  /** The two halves of a pair are different textures. */
  predicate PairDistinct(d: DoubleFbo) {
    d.read.handle != d.write.handle
  }

  /** `createDoubleFBO`: two fresh targets of the same size. */
  function CreateDoubleFbo(next: Handle, w: nat, h: nat, f: Format, filtering: Filtering): (r: (DoubleFbo, Handle))
    requires w > 0 && h > 0
    ensures PairDistinct(r.0)
    ensures r.0.read.handle == next && r.0.write.handle == next + 1 && r.1 == next + 2
    ensures r.0.width == w && r.0.height == h
    ensures r.0.texelSizeX * w as real == 1.0 && r.0.texelSizeY * h as real == 1.0
  {
    var (a, n1) := CreateFbo(next, w, h, f, filtering);
    var (b, n2) := CreateFbo(n1, w, h, f, filtering);
    (DoubleFbo(a, b, w, h, a.texelSizeX, a.texelSizeY), n2)
  }

  /** `swap`: exchange the read and write halves. */
  function SwapPair(d: DoubleFbo): (r: DoubleFbo)
    ensures r.read == d.write && r.write == d.read
    ensures r.width == d.width && r.height == d.height
    ensures r.texelSizeX == d.texelSizeX && r.texelSizeY == d.texelSizeY
    ensures PairDistinct(d) ==> PairDistinct(r)
  {
    d.(read := d.write, write := d.read)
  }

  /** Two swaps restore the pair. */
  lemma SwapInvolution(d: DoubleFbo)
    ensures SwapPair(SwapPair(d)) == d
  {
  }

  /** `d` swapped `n` times. */
  function SwapN(d: DoubleFbo, n: nat): DoubleFbo {
    if n == 0 then d else SwapPair(SwapN(d, n - 1))
  }

  /** Only the parity of the number of swaps matters. */
  lemma {:induction false} SwapNParity(d: DoubleFbo, n: nat)
    ensures SwapN(d, n) == if n % 2 == 0 then d else SwapPair(d)
  {
    if n > 0 {
      SwapNParity(d, n - 1);
    }
  }

  /** The outcome of `resizeDoubleFBO`: the pair, the next free handle, and
      the copy draw (if any) that carried the contents over. */
  datatype Resized = Resized(pair: DoubleFbo, next: Handle, commands: seq<Command>)

  /** `resizeDoubleFBO`: keep the pair when the size is unchanged; otherwise
      copy the old read half into a fresh target of the new size, take a fresh
      cleared write half, and reset size and texel size. */
  function ResizeDoubleFbo(d: DoubleFbo, next: Handle, w: nat, h: nat, f: Format, filtering: Filtering): (r: Resized)
    requires w > 0 && h > 0
    ensures d.width == w && d.height == h ==> r == Resized(d, next, [])
    ensures !(d.width == w && d.height == h) ==>
      && r.next == next + 2
      && r.pair.read.handle == next && r.pair.write.handle == next + 1
      && r.pair.width == w && r.pair.height == h
      && r.pair.texelSizeX * w as real == 1.0 && r.pair.texelSizeY * h as real == 1.0
      && r.pair.read.width == w && r.pair.write.width == w
      && r.commands == [Draw(CopyPass, [d.read.handle], Texture(r.pair.read.handle))]
    ensures d.read.handle < next ==> PairDistinct(r.pair) || r.pair == d
    ensures d.read.handle < next ==> AllSafe(r.commands)
  {
    if d.width == w && d.height == h then Resized(d, next, [])
    else
      var (newRead, n1) := CreateFbo(next, w, h, f, filtering);
      var (newWrite, n2) := CreateFbo(n1, w, h, f, filtering);
      Resized(
        DoubleFbo(newRead, newWrite, w, h, 1.0 / w as real, 1.0 / h as real),
        n2,
        [Draw(CopyPass, [d.read.handle], Texture(newRead.handle))])
  }

  // ---------------------------------------------------------------------------
  // Resolution and canvas sizing
  // ---------------------------------------------------------------------------

  /** `getResolution`: the short side gets `resolution` texels and the long
      side `resolution` times the aspect ratio (long side over short side,
      see `LongOverShort`), rounded; orientation follows the drawing
      buffer. */
  function GetResolution(resolution: nat, bufferWidth: nat, bufferHeight: nat): (r: (nat, nat))
    requires bufferWidth > 0 && bufferHeight > 0
    ensures bufferWidth > bufferHeight ==>
      && r.1 == resolution && r.0 >= r.1
      && r.0 == Round(resolution as real * LongOverShort(bufferWidth, bufferHeight))
    ensures bufferWidth <= bufferHeight ==>
      && r.0 == resolution && r.1 >= r.0
      && r.1 == Round(resolution as real * LongOverShort(bufferWidth, bufferHeight))
    ensures bufferWidth == bufferHeight ==> r.0 == r.1 == resolution
  {
    var aspect := LongOverShort(bufferWidth, bufferHeight);
    var min := RoundWhole(resolution);
    var max := LongSide(resolution, aspect);
    if bufferWidth > bufferHeight then (max, min) else (min, max)
  }

  /** `Math.round` of a whole number is that number. */
  function RoundWhole(n: nat): (m: nat)
    ensures m == n && m == Round(n as real)
  {
    Round(n as real)
  }

  /** The rounded long side: never shorter than the short side. */
  function LongSide(resolution: nat, aspect: real): (n: nat)
    requires aspect >= 1.0
    ensures n >= resolution && n == Round(resolution as real * aspect)
  {
    ScaledUp(resolution as real, aspect);
    RoundBetween(resolution, resolution as real * aspect, Round(resolution as real * aspect) + 1);
    Round(resolution as real * aspect)
  }

  /** The aspect ratio of the drawing buffer, inverted when below 1: the
      long side over the short side. */
  function LongOverShort(w: nat, h: nat): (a: real)
    requires w > 0 && h > 0
    ensures a >= 1.0
    ensures w > h ==> a == w as real / h as real
    ensures w <= h ==> a == h as real / w as real
  {
    var ratio := w as real / h as real;
    RatioOrder(w as real, h as real);
    RatioOrder(h as real, w as real);
    Reciprocal(w as real, h as real);
    if ratio < 1.0 then 1.0 / ratio else ratio
  }

  /** `w / h` lies below 1 exactly when `w < h`, and is 1 when they agree. */
  lemma RatioOrder(w: real, h: real)
    requires w > 0.0 && h > 0.0
    ensures w / h < 1.0 <==> w < h
    ensures w == h ==> w / h == 1.0
  {
    if w / h < 1.0 {
      AboveQuotient(w, h, 1.0);
    } else {
      BelowQuotient(w, h, 1.0);
    }
  }

  /** Scaling a non-negative length by at least 1 does not shorten it. */
  lemma ScaledUp(x: real, a: real)
    requires x >= 0.0 && a >= 1.0
    ensures x * a >= x
  {
    assert x * (a - 1.0) >= 0.0;
  }

  /** Over the reals, inverting the ratio `w / h` gives `h / w`. */
  lemma Reciprocal(w: real, h: real)
    requires w > 0.0 && h > 0.0
    ensures 1.0 / (w / h) == h / w
  {
    var q := w / h;
    assert q * h == w;
    assert (h / w) * q == (h * q) / w;
  }

  /** Turning the drawing buffer on its side turns the resolution on its
      side: the long side is computed from the aspect ratio alone. */
  lemma GetResolutionTransposes(resolution: nat, bufferWidth: nat, bufferHeight: nat)
    requires bufferWidth > 0 && bufferHeight > 0
    ensures var r := GetResolution(resolution, bufferWidth, bufferHeight);
      GetResolution(resolution, bufferHeight, bufferWidth) == (r.1, r.0)
  {
  }

  /** `scaleByPixelRatio`: CSS pixels to device pixels, truncated
      (`window.devicePixelRatio || 1`, so a ratio of 0 counts as 1). */
  function ScaleByPixelRatio(input: real, pixelRatio: real): int {
    var ratio := if pixelRatio == 0.0 then 1.0 else pixelRatio;
    (input * ratio).Floor
  }

  /** The canvas's backing-store size. */
  datatype Canvas = Canvas(width: int, height: int)

  /** The first non-zero of the candidate sizes (`a || b || c`). */
  function FirstNonZero(a: real, b: real, c: real): real {
    if a != 0.0 then a else if b != 0.0 then b else c
  }

  /** `resizeCanvas`: size from the element, its parent or the window, scaled
      to device pixels and at least 2 on each side; reports whether the
      canvas changed. */
  function ResizeCanvas(c: Canvas, client: (real, real), parent: (real, real), window: (real, real), pixelRatio: real): (r: (Canvas, bool))
    ensures r.0.width >= 2 && r.0.height >= 2
    ensures r.1 <==> r.0 != c
    ensures !r.1 ==> r.0 == c
  {
    var baseW := FirstNonZero(client.0, parent.0, window.0);
    var baseH := FirstNonZero(client.1, parent.1, window.1);
    var width := ScaleByPixelRatio(baseW, pixelRatio);
    var height := ScaleByPixelRatio(baseH, pixelRatio);
    var width' := if width < 2 then 2 else width;
    var height' := if height < 2 then 2 else height;
    if c.width != width' || c.height != height' then (Canvas(width', height'), true) else (c, false)
  }

  /** Once the canvas has been sized, resizing it again with the same
      measurements changes nothing. */
  lemma ResizeCanvasIdempotent(c: Canvas, client: (real, real), parent: (real, real), window: (real, real), pixelRatio: real)
    ensures var (c1, _) := ResizeCanvas(c, client, parent, window, pixelRatio);
            ResizeCanvas(c1, client, parent, window, pixelRatio) == (c1, false)
  {
  }

  // ---------------------------------------------------------------------------
  // The five simulation buffers
  // ---------------------------------------------------------------------------

  /** Dye and velocity (ping-pong, kept across resizes), divergence and curl
      (single), pressure (ping-pong). The source allocates all five in one
      call, so they are present or absent together. */
  datatype Fields = Fields(dye: DoubleFbo, velocity: DoubleFbo, divergence: Fbo, curl: Fbo, pressure: DoubleFbo)

  /** The eight textures of the simulation, in a fixed order. */
  function Handles(f: Fields): seq<Handle> {
    [f.dye.read.handle, f.dye.write.handle, f.velocity.read.handle, f.velocity.write.handle,
     f.divergence.handle, f.curl.handle, f.pressure.read.handle, f.pressure.write.handle]
  }

  /** No two of the simulation's textures alias, and all were allocated
      below `next`. */
  predicate ValidFields(f: Fields, next: Handle) {
    var hs := Handles(f);
    && (forall i :: 0 <= i < |hs| ==> hs[i] < next)
    && (forall i, j :: 0 <= i < j < |hs| ==> hs[i] != hs[j])
  }

  /** Simulation and dye sizes must be positive for texel sizes to exist. */
  predicate ValidConfig(c: Config) {
    c.simResolution > 0 && c.dyeResolution > 0
  }

  /** Every fallback chain ends at the RGBA format, so a usable RGBA format
      implies usable RG and R formats. */
  predicate CoherentFormats(e: Extensions) {
    e.formatRGBA.Some? ==> e.formatRG.Some? && e.formatR.Some?
  }

  lemma NegotiatedFormatsCoherent(isWebGL2: bool, linearFiltering: bool, supported: Format -> bool)
    ensures CoherentFormats(Negotiate(isWebGL2, linearFiltering, supported))
  {
    if isWebGL2 {
      WebGL2FallbackReachesRgba(linearFiltering, supported);
    }
  }

  /** The dye and velocity pairs of `f` use four distinct textures. */
  predicate DyeVelocityDistinct(dye: DoubleFbo, velocity: DoubleFbo, next: Handle) {
    && dye.read.handle < next && dye.write.handle < next
    && velocity.read.handle < next && velocity.write.handle < next
    && dye.read.handle != dye.write.handle && velocity.read.handle != velocity.write.handle
    && dye.read.handle != velocity.read.handle && dye.read.handle != velocity.write.handle
    && dye.write.handle != velocity.read.handle && dye.write.handle != velocity.write.handle
  }

  /** Buffers whose dye and velocity textures are distinct and below `base`,
      and whose other four textures are `base` .. `base + 3`, do not alias. */
  lemma ValidFieldsIntro(f: Fields, base: Handle)
    requires DyeVelocityDistinct(f.dye, f.velocity, base)
    requires f.divergence.handle == base && f.curl.handle == base + 1
    requires f.pressure.read.handle == base + 2 && f.pressure.write.handle == base + 3
    ensures ValidFields(f, base + 4)
  {
  }

  /** How `resizeDoubleFBO` left a pair that was meant to be w×h: kept as it
      was when it already had that size; otherwise replaced by fresh textures
      (handles from `next` on), the old read half having been copied into the
      new one by a draw in `cmds`. */
  predicate ResizedPair(before: DoubleFbo, after: DoubleFbo, w: nat, h: nat, next: Handle, cmds: seq<Command>) {
    if before.width == w && before.height == h then after == before
    else
      && after.read.handle >= next && after.write.handle >= next
      && Draw(CopyPass, [before.read.handle], Texture(after.read.handle)) in cmds
  }

  /** The number of copy draws a resize to w×h issues: one when the size
      changes. */
  function CopiesFor(before: DoubleFbo, w: nat, h: nat): nat {
    if before.width == w && before.height == h then 0 else 1
  }

  /** The first half of `initFramebuffers`: create the dye and velocity pairs
      on first use, resize them afterwards. */
  function DyeAndVelocity(current: Option<Fields>, next: Handle, simRes: (nat, nat), dyeRes: (nat, nat),
                          rgba: Format, rg: Format, filtering: Filtering): (r: (DoubleFbo, DoubleFbo, Handle, seq<Command>))
    requires simRes.0 > 0 && simRes.1 > 0 && dyeRes.0 > 0 && dyeRes.1 > 0
    requires current.Some? ==> ValidFields(current.value, next)
    ensures r.2 >= next && DyeVelocityDistinct(r.0, r.1, r.2)
    ensures AllSafe(r.3)
    ensures current.None? ==>
      && r.0.read.handle >= next && r.0.write.handle >= next
      && r.1.read.handle >= next && r.1.write.handle >= next
      && r.0.width == dyeRes.0 && r.0.height == dyeRes.1
      && r.1.width == simRes.0 && r.1.height == simRes.1
      && r.3 == []
    ensures current.Some? ==>
      && ResizedPair(current.value.dye, r.0, dyeRes.0, dyeRes.1, next, r.3)
      && ResizedPair(current.value.velocity, r.1, simRes.0, simRes.1, next, r.3)
      && |r.3| == CopiesFor(current.value.dye, dyeRes.0, dyeRes.1) + CopiesFor(current.value.velocity, simRes.0, simRes.1)
      && r.0.width == dyeRes.0 && r.0.height == dyeRes.1
      && r.1.width == simRes.0 && r.1.height == simRes.1
  {
    match current
    case None =>
      var (dye, n1) := CreateDoubleFbo(next, dyeRes.0, dyeRes.1, rgba, filtering);
      var (velocity, n2) := CreateDoubleFbo(n1, simRes.0, simRes.1, rg, filtering);
      (dye, velocity, n2, [])
    case Some(prev) =>
      assert Handles(prev)[0] < next && Handles(prev)[1] < next;
      assert Handles(prev)[2] < next && Handles(prev)[3] < next;
      assert Handles(prev)[0] != Handles(prev)[1] && Handles(prev)[2] != Handles(prev)[3];
      assert Handles(prev)[0] != Handles(prev)[2] && Handles(prev)[0] != Handles(prev)[3];
      assert Handles(prev)[1] != Handles(prev)[2] && Handles(prev)[1] != Handles(prev)[3];
      var rd := ResizeDoubleFbo(prev.dye, next, dyeRes.0, dyeRes.1, rgba, filtering);
      var rv := ResizeDoubleFbo(prev.velocity, rd.next, simRes.0, simRes.1, rg, filtering);
      AllSafeAppend(rd.commands, rv.commands);
      var cmds := rd.commands + rv.commands;
      (rd.pair, rv.pair, rv.next, cmds)
  }

  /** The outcome of `initFramebuffers`: nothing (canvas under 2×2), a
      failure (no RGBA format: the source dereferences null before any
      allocation), or the new buffers with the allocation counter and the
      copy draws of any resize. */
  datatype InitOutcome =
    | Skipped
    | NoRenderFormat
    | Allocated(fields: Fields, next: Handle, commands: seq<Command>)

  /** `initFramebuffers`: allocate nothing while the canvas is smaller than
      2×2; create dye and velocity on first use and resize them afterwards;
      always create fresh divergence, curl and pressure targets. */
  function InitFramebuffers(current: Option<Fields>, next: Handle, canvas: Canvas, c: Config, e: Extensions): (r: InitOutcome)
    requires ValidConfig(c) && CoherentFormats(e)
    requires current.Some? ==> ValidFields(current.value, next)
    ensures canvas.width < 2 || canvas.height < 2 <==> r.Skipped?
    ensures r.NoRenderFormat? <==> !r.Skipped? && e.formatRGBA.None?
    ensures r.Allocated? ==> ValidFields(r.fields, r.next) && r.next >= next && AllSafe(r.commands)
    ensures r.Allocated? ==>
      && r.fields.divergence.handle >= next && r.fields.curl.handle >= next
      && r.fields.pressure.read.handle >= next && r.fields.pressure.write.handle >= next
    ensures r.Allocated? && current.None? ==>
      && r.fields.dye.read.handle >= next && r.fields.velocity.read.handle >= next
      && r.commands == []
    ensures r.Allocated? ==>
      var dyeRes := GetResolution(c.dyeResolution, canvas.width, canvas.height);
      var simRes := GetResolution(c.simResolution, canvas.width, canvas.height);
      && r.fields.dye.width == dyeRes.0 && r.fields.dye.height == dyeRes.1
      && r.fields.velocity.width == simRes.0 && r.fields.velocity.height == simRes.1
      && r.fields.divergence.width == simRes.0 && r.fields.divergence.height == simRes.1
      && r.fields.curl.width == simRes.0 && r.fields.curl.height == simRes.1
      && r.fields.pressure.width == simRes.0 && r.fields.pressure.height == simRes.1
    ensures r.Allocated? && current.Some? ==>
      var dyeRes := GetResolution(c.dyeResolution, canvas.width, canvas.height);
      var simRes := GetResolution(c.simResolution, canvas.width, canvas.height);
      && ResizedPair(current.value.dye, r.fields.dye, dyeRes.0, dyeRes.1, next, r.commands)
      && ResizedPair(current.value.velocity, r.fields.velocity, simRes.0, simRes.1, next, r.commands)
      && |r.commands| == CopiesFor(current.value.dye, dyeRes.0, dyeRes.1) + CopiesFor(current.value.velocity, simRes.0, simRes.1)
  {
    if canvas.width < 2 || canvas.height < 2 then Skipped
    else if e.formatRGBA.None? then NoRenderFormat
    else
      var simRes := GetResolution(c.simResolution, canvas.width, canvas.height);
      var dyeRes := GetResolution(c.dyeResolution, canvas.width, canvas.height);
      var red := e.formatR.value;
      var (dye, velocity, base, copies) :=
        DyeAndVelocity(current, next, simRes, dyeRes, e.formatRGBA.value, e.formatRG.value, DyeFiltering(e));
      var (divergence, n1) := CreateFbo(base, simRes.0, simRes.1, red, Nearest);
      var (curl, n2) := CreateFbo(n1, simRes.0, simRes.1, red, Nearest);
      var (pressure, n3) := CreateDoubleFbo(n2, simRes.0, simRes.1, red, Nearest);
      var f := Fields(dye, velocity, divergence, curl, pressure);
      ValidFieldsIntro(f, base);
      Allocated(f, n3, copies)
  }
}

=== FILE: gpu_caps.dfy ===
/** Capability negotiation of the fluid cursor: which half-float render
    formats the context supports, with the R16F → RG16F → RGBA16F fallback
    chain, and the quality downgrade when linear filtering of float textures
    is unavailable. Whether a format can be rendered to is a foreign query;
    it is a parameter here (`supported`), uninterpreted. */
module GpuCaps {
  import opened Wrappers

  /** Sized half-float formats of WebGL2, and the unsized RGBA of WebGL1. */
  datatype InternalFormat = R16F | RG16F | RGBA16F | RGBA
  datatype PixelFormat = Red | Rg | Rgba

  datatype Format = Format(internalFormat: InternalFormat, format: PixelFormat)

  /** The pair the source retries with when a probe of `f` fails, if any. */
  function Wider(f: InternalFormat): Option<Format> {
    match f
    case R16F => Some(Format(RG16F, Rg))
    case RG16F => Some(Format(RGBA16F, Rgba))
    case _ => None
  }

  /** How many widening steps remain after `f`. */
  function StepsLeft(f: InternalFormat): nat {
    match f
    case R16F => 2
    case RG16F => 1
    case _ => 0
  }

  /** The chosen pair (null when none works) and every pair probed, in order. */
  datatype Negotiated = Negotiated(chosen: Option<Format>, probes: seq<Format>)

  /** `getSupportedFormat`: probe `f`; on failure widen along
      R16F → RG16F → RGBA16F, and give up (null) after any other format. */
  function GetSupportedFormat(f: Format, supported: Format -> bool): (r: Negotiated)
    decreases StepsLeft(f.internalFormat)
    ensures 1 <= |r.probes| <= 1 + StepsLeft(f.internalFormat) <= 3
    ensures r.probes[0] == f
    ensures forall i :: 0 <= i < |r.probes| - 1 ==>
              !supported(r.probes[i]) && Wider(r.probes[i].internalFormat) == Some(r.probes[i + 1])
    ensures r.chosen.Some? <==> supported(r.probes[|r.probes| - 1])
    ensures r.chosen.Some? ==> r.chosen.value == r.probes[|r.probes| - 1]
    ensures r.chosen.None? ==> Wider(r.probes[|r.probes| - 1].internalFormat).None?
  {
    if supported(f) then Negotiated(Some(f), [f])
    else
      match Wider(f.internalFormat)
      case None => Negotiated(None, [f])
      case Some(g) =>
        var rest := GetSupportedFormat(g, supported);
        Negotiated(rest.chosen, [f] + rest.probes)
  }

  /** The formats negotiated once at start-up, and whether float textures
      can be filtered linearly. */
  datatype Extensions = Extensions(
    formatRGBA: Option<Format>,
    formatRG: Option<Format>,
    formatR: Option<Format>,
    supportLinearFiltering: bool)

  /** `getWebGLContext`'s format negotiation: sized formats on WebGL2, the
      unsized RGBA for all three on WebGL1. */
  function Negotiate(isWebGL2: bool, linearFiltering: bool, supported: Format -> bool): (e: Extensions)
    ensures e.supportLinearFiltering == linearFiltering
    ensures !isWebGL2 ==> e.formatRGBA == e.formatRG == e.formatR
    ensures !isWebGL2 ==> (e.formatRGBA.Some? <==> supported(Format(RGBA, Rgba)))
  {
    if isWebGL2 then
      Extensions(
        GetSupportedFormat(Format(RGBA16F, Rgba), supported).chosen,
        GetSupportedFormat(Format(RG16F, Rg), supported).chosen,
        GetSupportedFormat(Format(R16F, Red), supported).chosen,
        linearFiltering)
    else
      var rgba := GetSupportedFormat(Format(RGBA, Rgba), supported).chosen;
      Extensions(rgba, rgba, rgba, linearFiltering)
  }

  /** Every fallback chain ends at RGBA16F, so on WebGL2 a usable RGBA format
      means the two narrower requests are served too; and a narrower request
      is never served by a format with fewer channels. */
  lemma WebGL2FallbackReachesRgba(linearFiltering: bool, supported: Format -> bool)
    ensures var e := Negotiate(true, linearFiltering, supported);
      && (e.formatRGBA.Some? ==> e.formatRG.Some? && e.formatR.Some?)
      && (e.formatRG.Some? ==> e.formatRG.value.internalFormat in {RG16F, RGBA16F})
      && (e.formatR.Some? ==> e.formatR.value.internalFormat in {R16F, RG16F, RGBA16F})
  {
    var rg := GetSupportedFormat(Format(RG16F, Rg), supported);
    var r := GetSupportedFormat(Format(R16F, Red), supported);
    assert rg.probes[|rg.probes| - 1].internalFormat in {RG16F, RGBA16F};
    assert r.probes[|r.probes| - 1].internalFormat in {R16F, RG16F, RGBA16F};
  }

  // ---------------------------------------------------------------------------
  // Configuration and the linear-filtering downgrade
  // ---------------------------------------------------------------------------

  /** The fluid cursor's tunables that the CPU-side logic reads. */
  datatype Config = Config(
    simResolution: nat,
    dyeResolution: nat,
    pressureIterations: nat,
    splatForce: real,
    shading: bool,
    colorUpdateSpeed: real)

  /** The component's default properties. */
  const DefaultConfig: Config := Config(96, 640, 20, 4000.0, true, 8.0)

  /** Without linear filtering the dye resolution drops to 256 and shading is
      switched off; otherwise the configuration is kept. */
  function ApplyCapabilities(c: Config, e: Extensions): (r: Config)
    ensures e.supportLinearFiltering ==> r == c
    ensures !e.supportLinearFiltering ==> r.dyeResolution == 256 && !r.shading
    ensures r.simResolution == c.simResolution && r.pressureIterations == c.pressureIterations
    ensures r.splatForce == c.splatForce && r.colorUpdateSpeed == c.colorUpdateSpeed
  {
    if e.supportLinearFiltering then c else c.(dyeResolution := 256, shading := false)
  }

  /** Texture sampling used for dye and velocity buffers. */
  datatype Filtering = Linear | Nearest

  function DyeFiltering(e: Extensions): (f: Filtering)
    ensures f == Linear <==> e.supportLinearFiltering
  {
    if e.supportLinearFiltering then Linear else Nearest
  }
}

=== FILE: js_math.dfy ===
/** The few `Math` functions the components round with, on reals. */
module JsMath {

  /** `Math.round`: the nearest integer, halves rounding up. */
  function Round(x: real): (n: int)
    ensures x - 0.5 < n as real <= x + 0.5
  {
    (x + 0.5).Floor
  }

  /** `Math.ceil`: the least integer not below `x`. */
  function Ceil(x: real): (n: int)
    ensures x <= n as real < x + 1.0
  {
    -((-x).Floor)
  }

  /** A value `Math.random()` can return. */
  type Random = u: real | 0.0 <= u < 1.0 witness 0.0

  /** `Math.floor(Math.random() * n)`: a draw `u` picks an index below `n`. */
  function Pick(u: Random, n: nat): (k: nat)
    requires n > 0
    ensures k < n
    ensures k as real <= u * n as real < k as real + 1.0
  {
    PickBelow(u, n);
    (u * n as real).Floor
  }

  lemma PickBelow(u: real, n: nat)
    requires 0.0 <= u < 1.0 && n > 0
    ensures 0.0 <= u * n as real < n as real
  {
  }

  /** Rounding an integer gives it back, and rounding is monotone, so a
      value between two integers rounds to a value between them. */
  lemma RoundBetween(a: int, x: real, b: int)
    requires a as real <= x <= b as real
    ensures a <= Round(x) <= b
  {
  }

  /** A lower bound `a` of `x / y` scales to the lower bound `y * a` of `x`. */
  lemma BelowQuotient(x: real, y: real, a: real)
    requires y > 0.0 && a <= x / y
    ensures y * a <= x
    ensures a < x / y ==> y * a < x
  {
    var q := x / y;
    assert q * y == x;
    assert y * (q - a) >= 0.0;
  }

  /** An upper bound `b` of `x / y` scales to the upper bound `y * b` of `x`. */
  lemma AboveQuotient(x: real, y: real, b: real)
    requires y > 0.0 && x / y <= b
    ensures x <= y * b
    ensures x / y < b ==> x < y * b
  {
    var q := x / y;
    assert q * y == x;
    assert y * (b - q) >= 0.0;
  }
}

=== FILE: letter_glitch.dfy ===
/** The glyph-glitch backdrop: a grid of 12×22 cells, each showing a glyph in
    a colour. Every `glitchSpeed` milliseconds about 3% of the cells get a new
    glyph and a new target colour; in smooth mode the colour then fades
    towards the target in steps of 5%. The frame loop is gated by page
    visibility and by an intersection observer. Random draws (`Math.random`)
    are inputs in [0, 1); drawing is reduced to the cell each letter lands
    in. */
module LetterGlitch {
  import opened Wrappers
  import opened Text
  import opened JsMath
  import DotGrid

  type Rgb = DotGrid.Rgb

  // ---------------------------------------------------------------------------
  // Colours
  // ---------------------------------------------------------------------------

  /** The default glitch colours. */
  const DefaultColors: seq<string> := ["#3b1a6d", "#A020F0", "#FF007F", "#2AA9FF"]

  /** Three hexadecimal digits. */
  predicate IsHex3(s: string) {
    |s| == 3 && IsHexDigit(s[0]) && IsHexDigit(s[1]) && IsHexDigit(s[2])
  }

  /** `#?` followed by three hexadecimal digits: the shorthand form. */
  predicate Shorthand(s: string) {
    IsHex3(s) || (|s| == 4 && s[0] == '#' && IsHex3(s[1..]))
  }

  /** The digits of a shorthand string. */
  function ShorthandDigits(s: string): (d: string)
    requires Shorthand(s)
    ensures IsHex3(d)
  {
    if |s| == 3 then s else s[1..]
  }

  /** Each digit doubled: `abc` becomes `aabbcc`. */
  function Expand(d: string): (e: string)
    requires IsHex3(d)
    ensures DotGrid.IsHex6(e)
  {
    [d[0], d[0], d[1], d[1], d[2], d[2]]
  }

  /** `hexToRgb`: the shorthand is first rewritten to six digits (dropping
      any `#`), then `#?` and six digits are required; anything else is
      `None`. */
  function HexToRgb(s: string): (r: Option<Rgb>)
    ensures r.Some? <==> Shorthand(s) || DotGrid.Accepted(s)
    ensures r.Some? ==> r.value.r < 256 && r.value.g < 256 && r.value.b < 256
    ensures DotGrid.Accepted(s) ==> r == Some(DotGrid.HexToRgb(s))
    ensures Shorthand(s) ==> r == Some(DotGrid.Channels(Expand(ShorthandDigits(s))))
  {
    var full := if Shorthand(s) then Expand(ShorthandDigits(s)) else s;
    if DotGrid.Accepted(full) then Some(DotGrid.HexToRgb(full)) else None
  }

  /** The shorthand and its expansion name the same colour, with or without
      `#`. */
  lemma ShorthandMatchesExpansion(d: string)
    requires IsHex3(d)
    ensures HexToRgb(d).Some?
    ensures HexToRgb("#" + d) == HexToRgb(d) == HexToRgb(Expand(d)) == HexToRgb("#" + Expand(d))
  {
    var e := Expand(d);
    assert ("#" + d)[1..] == d;
    assert ("#" + e)[1..] == e;
    assert !Shorthand(e) && !Shorthand("#" + e);
    assert DotGrid.Accepted("#" + e);
  }

  /** `#a0f` is `#aa00ff`. */
  lemma ShorthandExample()
    ensures HexToRgb("#a0f") == Some(DotGrid.Rgb(170, 0, 255))
  {
    ShorthandMatchesExpansion("a0f");
    assert Expand("a0f") == "aa00ff";
    assert DotGrid.IsHex6("aa00ff");
  }

  /** The alpha forms `#rgba` and `#rrggbbaa` are not accepted. */
  lemma AlphaFormsRejected(d4: string, d8: string)
    requires |d4| == 4 && forall i :: 0 <= i < 4 ==> IsHexDigit(d4[i])
    requires |d8| == 8
    ensures HexToRgb("#" + d4).None?
    ensures HexToRgb("#" + d8).None?
  {
    assert ("#" + d4)[1..] == d4;
  }

  /** Every default colour parses. */
  lemma DefaultColorsParse()
    ensures forall i :: 0 <= i < |DefaultColors| ==> HexToRgb(DefaultColors[i]).Some?
  {
    forall i | 0 <= i < |DefaultColors|
      ensures HexToRgb(DefaultColors[i]).Some?
    {
      var c := DefaultColors[i];
      assert c[1..] == DefaultColors[i][1..];
      assert DotGrid.IsHex6(c[1..]);
    }
  }

  /** One channel of `interpolateColor`: `round(a + (b - a)·f)`. */
  function Mix(a: int, b: int, f: real): (c: int)
    ensures f == 0.0 ==> c == a
    ensures f == 1.0 ==> c == b
    ensures 0.0 <= f <= 1.0 ==> (a <= b ==> a <= c <= b) && (b <= a ==> b <= c <= a)
  {
    var x := Lerp(a as real, b as real, f);
    if 0.0 <= f <= 1.0 then
      if a <= b then RoundBetween(a, x, b); Round(x)
      else RoundBetween(b, x, a); Round(x)
    else Round(x)
  }

  /** `u + (v - u)·f`, which lies between `u` and `v` when `f` lies in
      [0, 1]. */
  function Lerp(u: real, v: real, f: real): (x: real)
    ensures f == 0.0 ==> x == u
    ensures f == 1.0 ==> x == v
    ensures 0.0 <= f <= 1.0 ==> (u <= v ==> u <= x <= v) && (v <= u ==> v <= x <= u)
  {
    if 0.0 <= f <= 1.0 then ProductBetween(v - u, f); u + (v - u) * f
    else u + (v - u) * f
  }

  /** `d·f` lies between 0 and `d` when `f` lies in [0, 1]. */
  lemma ProductBetween(d: real, f: real)
    requires 0.0 <= f <= 1.0
    ensures d >= 0.0 ==> 0.0 <= d * f <= d
    ensures d <= 0.0 ==> d <= d * f <= 0.0
  {
    if d >= 0.0 {
      PositiveProduct(d, 1.0 - f);
    } else {
      PositiveProduct(-d, 1.0 - f);
    }
  }

  lemma PositiveProduct(a: real, b: real)
    requires a >= 0.0 && b >= 0.0
    ensures a * b >= 0.0
  {
  }

  /** The channels of `interpolateColor`. */
  function Interpolate(s: Rgb, e: Rgb, f: real): (c: (int, int, int))
    ensures c.0 == Mix(s.r, e.r, f) && c.1 == Mix(s.g, e.g, f) && c.2 == Mix(s.b, e.b, f)
  {
    (Mix(s.r, e.r, f), Mix(s.g, e.g, f), Mix(s.b, e.b, f))
  }

  /** The decimal spelling of an integer, as a template literal writes it. */
  function IntToString(n: int): (r: string)
    ensures |r| > 0 && (IsDigit(r[0]) <==> n >= 0)
  {
    if n >= 0 then NatToString(n) else "-" + NatToString(-n)
  }

  /** The CSS functional notation `rgb(r, g, b)`. */
  function CssRgb(c: (int, int, int)): (s: string)
    ensures |s| > 0 && s[0] == 'r'
  {
    "rgb(" + IntToString(c.0) + ", " + IntToString(c.1) + ", " + IntToString(c.2) + ")"
  }

  /** `interpolateColor`. */
  function InterpolateColor(s: Rgb, e: Rgb, f: real): (css: string)
    ensures css == CssRgb(Interpolate(s, e, f))
    ensures !StartsWithHash(css)
  {
    CssRgb(Interpolate(s, e, f))
  }

  /** Interpolating a colour with itself gives it back at every factor. */
  lemma InterpolateSelf(c: Rgb, f: real)
    ensures Interpolate(c, c, f) == (c.r, c.g, c.b)
  {
  }

  /** `color.startsWith("#")`. */
  predicate StartsWithHash(s: string) {
    |s| > 0 && s[0] == '#'
  }

  // ---------------------------------------------------------------------------
  // The grid of letters
  // ---------------------------------------------------------------------------

  const CharWidth: nat := 12
  const CharHeight: nat := 22

  /** The glyphs a cell can show. */
  const Glyphs: seq<char> := "ABCDEFGHIJKLMNOPQRSTUVWXYZ!@#$&*()-_+=/[]{};:<>,0123456789"

  datatype Letter = Letter(glyph: char, color: string, targetColor: string, colorProgress: real)

  /** `calculateGrid`: as many cells as it takes to cover the wrapper. */
  function CalculateGrid(width: real, height: real): (g: (nat, nat))
    requires width >= 0.0 && height >= 0.0
    ensures (g.0 * CharWidth) as real >= width && (g.1 * CharHeight) as real >= height
    ensures g.0 == 0 || ((g.0 - 1) * CharWidth) as real < width
    ensures g.1 == 0 || ((g.1 - 1) * CharHeight) as real < height
  {
    (Ceil(width / CharWidth as real), Ceil(height / CharHeight as real))
  }

  /** The draws one new letter takes: its glyph, its colour and its target. */
  datatype Seed = Seed(glyph: Random, color: Random, target: Random)

  /** `getRandomChar` and `getRandomColor` for given draws. */
  function RandomGlyph(u: Random): (c: char)
    ensures c in Glyphs
  {
    Glyphs[Pick(u, |Glyphs|)]
  }

  function RandomColor(colors: seq<string>, u: Random): (c: string)
    requires |colors| > 0
    ensures c in colors
  {
    colors[Pick(u, |colors|)]
  }

  /** `initializeLetters`: `columns · rows` letters with settled colours. */
  function InitializeLetters(columns: nat, rows: nat, colors: seq<string>, seeds: seq<Seed>): (ls: seq<Letter>)
    requires |colors| > 0 && |seeds| == columns * rows
    ensures |ls| == columns * rows
    ensures forall i :: 0 <= i < |ls| ==>
      && ls[i].colorProgress == 1.0 && ls[i].glyph in Glyphs
      && ls[i].color in colors && ls[i].targetColor in colors
  {
    seq(|seeds|, i requires 0 <= i < |seeds| =>
      Letter(RandomGlyph(seeds[i].glyph), RandomColor(colors, seeds[i].color), RandomColor(colors, seeds[i].target), 1.0))
  }

  /** The cell `drawLetters` puts letter `index` in: row-major, with a
      column count of 0 read as 1. */
  function CellOf(index: nat, columns: nat): (xy: (nat, nat))
  {
    var cols := if columns == 0 then 1 else columns;
    ((index % cols) * CharWidth, (index / cols) * CharHeight)
  }

  /** Distinct letters land in distinct cells, and the letters of a
      `columns × rows` grid land inside it. */
  lemma CellsDistinct(i: nat, j: nat, columns: nat)
    requires i != j
    ensures CellOf(i, columns) != CellOf(j, columns)
  {
    var cols := if columns == 0 then 1 else columns;
    if i % cols == j % cols && i / cols == j / cols {
      assert false;
    }
  }

  lemma CellInsideGrid(i: nat, columns: nat, rows: nat)
    requires columns > 0 && i < columns * rows
    ensures CellOf(i, columns).0 < columns * CharWidth
    ensures CellOf(i, columns).1 < rows * CharHeight
  {
    var q := i / columns;
    assert i == columns * q + i % columns;
    if q >= rows {
      MulLe(rows, q, columns);
      assert false;
    }
  }

  lemma MulLe(a: nat, b: nat, c: nat)
    requires a <= b
    ensures c * a <= c * b
  {
  }

  // ---------------------------------------------------------------------------
  // Glitching and smoothing
  // ---------------------------------------------------------------------------

  /** `max(1, floor(n · 0.03))`: how many letters one tick rewrites. */
  function MutationCount(n: nat): (k: nat)
    ensures k >= 1
    ensures k == 1 || (k * 100 <= 3 * n < k * 100 + 100)
  {
    var k := (3 * n) / 100;
    if k < 1 then 1 else k
  }

  lemma MutationCountExamples()
    ensures MutationCount(100) == 3
    ensures forall n :: 0 <= n <= 66 ==> MutationCount(n) == 1
  {
  }

  /** The draws of one mutation: which letter, its glyph and its target. */
  datatype Draw = Draw(index: Random, glyph: Random, target: Random)

  /** One rewritten letter: a new glyph and target; with `immediate` (smooth
      mode off, or reduced motion) the colour jumps to the target, otherwise
      a fade restarts from progress 0. */
  function Mutate(l: Letter, colors: seq<string>, d: Draw, immediate: bool): (m: Letter)
    requires |colors| > 0
    ensures m.glyph in Glyphs && m.targetColor in colors
    ensures immediate ==> m.color == m.targetColor && m.colorProgress == 1.0
    ensures !immediate ==> m.color == l.color && m.colorProgress == 0.0
  {
    var l1 := l.(glyph := RandomGlyph(d.glyph), targetColor := RandomColor(colors, d.target));
    if immediate then l1.(color := l1.targetColor, colorProgress := 1.0)
    else l1.(colorProgress := 0.0)
  }

  /** The mutations of one tick, in draw order; a later draw of the same
      letter overwrites an earlier one. */
  function ApplyDraws(ls: seq<Letter>, colors: seq<string>, draws: seq<Draw>, immediate: bool): (r: seq<Letter>)
    requires |ls| > 0 && |colors| > 0
    ensures |r| == |ls|
    ensures forall j :: 0 <= j < |ls| && (forall k :: 0 <= k < |draws| ==> Pick(draws[k].index, |ls|) != j) ==> r[j] == ls[j]
    ensures immediate && (forall j :: 0 <= j < |ls| ==> ls[j].colorProgress == 1.0) ==>
      forall j :: 0 <= j < |r| ==> r[j].colorProgress == 1.0
    ensures forall k :: 0 <= k < |draws| ==>
      var m := r[Pick(draws[k].index, |ls|)];
      && m.glyph in Glyphs && m.targetColor in colors
      && (immediate ==> m.color == m.targetColor && m.colorProgress == 1.0)
      && (!immediate ==> m.colorProgress == 0.0)
    decreases |draws|
  {
    if |draws| == 0 then ls
    else
      var last := draws[|draws| - 1];
      var front := draws[..|draws| - 1];
      var r0 := ApplyDraws(ls, colors, front, immediate);
      var idx := Pick(last.index, |ls|);
      assert forall k :: 0 <= k < |front| ==> front[k] == draws[k];
      r0[idx := Mutate(r0[idx], colors, last, immediate)]
  }

  /** `updateLetters`: nothing on an empty grid; otherwise the first
      `MutationCount` draws rewrite their letters. */
  function UpdateLetters(ls: seq<Letter>, colors: seq<string>, draws: seq<Draw>, smooth: bool, reduced: bool): (r: seq<Letter>)
    requires |colors| > 0
    requires |ls| > 0 ==> |draws| >= MutationCount(|ls|)
    ensures |r| == |ls|
    ensures |ls| == 0 ==> r == ls
    ensures |ls| > 0 ==> r == ApplyDraws(ls, colors, draws[..MutationCount(|ls|)], !smooth || reduced)
  {
    if |ls| == 0 then ls
    else ApplyDraws(ls, colors, draws[..MutationCount(|ls|)], !smooth || reduced)
  }

  /** A tick rewrites at least one and at most `MutationCount` letters. */
  lemma UpdateTouchesFewLetters(ls: seq<Letter>, colors: seq<string>, draws: seq<Draw>, smooth: bool, reduced: bool, j: nat)
    requires |colors| > 0 && |ls| > 0 && |draws| >= MutationCount(|ls|)
    requires j < |ls| && forall k :: 0 <= k < MutationCount(|ls|) ==> Pick(draws[k].index, |ls|) != j
    ensures UpdateLetters(ls, colors, draws, smooth, reduced)[j] == ls[j]
  {
    var ds := draws[..MutationCount(|ls|)];
    assert forall k :: 0 <= k < |ds| ==> ds[k] == draws[k];
  }

  /** One step of `handleSmoothTransitions` on one letter: a letter still
      fading advances 5% (capped at 1) and is recoloured from its current
      colour when that is a hex colour, and from its target otherwise. The
      flag says whether it was recoloured. */
  function SmoothLetter(l: Letter): (r: (Letter, bool))
    ensures l.colorProgress >= 1.0 ==> r == (l, false)
    ensures l.colorProgress < 1.0 ==>
      && r.0.colorProgress == (if l.colorProgress + 0.05 > 1.0 then 1.0 else l.colorProgress + 0.05)
      && r.0.glyph == l.glyph && r.0.targetColor == l.targetColor
    ensures r.0.colorProgress >= l.colorProgress
    ensures 0.0 <= l.colorProgress <= 1.0 ==> r.0.colorProgress <= 1.0
    ensures r.1 <==> (l.colorProgress < 1.0 && HexToRgb(l.targetColor).Some? &&
                      HexToRgb(if StartsWithHash(l.color) then l.color else l.targetColor).Some?)
    ensures r.1 ==> !StartsWithHash(r.0.color)
    ensures !r.1 ==> r.0.color == l.color
  {
    if l.colorProgress < 1.0 then
      var p := if l.colorProgress + 0.05 > 1.0 then 1.0 else l.colorProgress + 0.05;
      var start := HexToRgb(if StartsWithHash(l.color) then l.color else l.targetColor);
      var end := HexToRgb(l.targetColor);
      if start.Some? && end.Some? then
        (l.(colorProgress := p, color := InterpolateColor(start.value, end.value, p)), true)
      else (l.(colorProgress := p), false)
    else (l, false)
  }

  /** `handleSmoothTransitions`: every letter takes one step; a redraw is
      needed when some letter was recoloured. Nothing happens on an empty
      grid or without a drawing context. */
  function SmoothTransitions(ls: seq<Letter>, hasContext: bool): (r: (seq<Letter>, bool))
    ensures |r.0| == |ls|
    ensures |ls| == 0 || !hasContext ==> r == (ls, false)
    ensures |ls| > 0 && hasContext ==>
      (forall i :: 0 <= i < |ls| ==> r.0[i] == SmoothLetter(ls[i]).0)
      && (r.1 <==> exists i :: 0 <= i < |ls| && SmoothLetter(ls[i]).1)
  {
    if |ls| == 0 || !hasContext then (ls, false)
    else
      (seq(|ls|, i requires 0 <= i < |ls| => SmoothLetter(ls[i]).0),
       exists i :: 0 <= i < |ls| && SmoothLetter(ls[i]).1)
  }

  /** `k` smoothing steps of one letter. */
  function SmoothSteps(l: Letter, k: nat): Letter
    decreases k
  {
    if k == 0 then l else SmoothSteps(SmoothLetter(l).0, k - 1)
  }

  /** Progress never decreases and a fade from progress `p` in [0, 1] is at
      `min(1, p + 0.05·k)` after `k` steps. */
  lemma {:induction false} SmoothProgress(l: Letter, k: nat)
    requires 0.0 <= l.colorProgress <= 1.0
    ensures SmoothSteps(l, k).colorProgress ==
      (if l.colorProgress + 0.05 * k as real >= 1.0 then 1.0 else l.colorProgress + 0.05 * k as real)
    decreases k
  {
    if k > 0 {
      var l1 := SmoothLetter(l).0;
      SmoothProgress(l1, k - 1);
    }
  }

  /** A fade started by a tick settles after 20 steps. */
  lemma FadeSettlesInTwentySteps(l: Letter)
    requires l.colorProgress == 0.0
    ensures SmoothSteps(l, 20).colorProgress == 1.0
  {
    SmoothProgress(l, 20);
  }

  /** The start of a fade falls back to the target once the colour is no
      longer a hex colour, and the first step writes an `rgb(…)` colour: so
      from the second step on, a fading letter shows exactly its target. */
  lemma SecondStepShowsTarget(l: Letter)
    requires l.colorProgress < 0.95 && HexToRgb(l.targetColor).Some?
    requires HexToRgb(if StartsWithHash(l.color) then l.color else l.targetColor).Some?
    ensures var t := HexToRgb(l.targetColor).value;
      SmoothSteps(l, 2).color == CssRgb((t.r, t.g, t.b))
  {
    var l1 := SmoothLetter(l).0;
    assert !StartsWithHash(l1.color);
    var t := HexToRgb(l.targetColor).value;
    var l2 := SmoothLetter(l1).0;
    InterpolateSelf(t, l2.colorProgress);
    assert SmoothSteps(l, 2) == SmoothSteps(l1, 1) == l2;
  }

  // ---------------------------------------------------------------------------
  // The frame loop and its gates
  // ---------------------------------------------------------------------------

  /** The loop's flags: `active` (`isActiveRef`), `requested` (`rafRef` is
      not null) and `pending`, the number of scheduled frame callbacks. */
  datatype Loop = Loop(active: bool, requested: bool, pending: nat)

  /** The ref tracks the one scheduled callback, and a callback is scheduled
      only while the loop is active. */
  predicate LoopInvariant(s: Loop) {
    && s.pending <= 1
    && (s.requested <==> s.pending == 1)
    && (s.pending == 1 ==> s.active)
  }

  function Request(s: Loop): Loop {
    s.(requested := true, pending := s.pending + 1)
  }

  function Cancel(s: Loop): Loop {
    if s.requested then s.(requested := false, pending := if s.pending > 0 then s.pending - 1 else 0) else s
  }

  /** `onVisibility`: hiding stops the loop; showing restarts it only when
      the loop is still active and nothing is scheduled. */
  function OnVisibility(s: Loop, visible: bool): (r: Loop)
    requires LoopInvariant(s)
    ensures LoopInvariant(r)
    ensures r.active ==> s.active
    ensures !visible ==> !r.active && r.pending == 0
    ensures r.pending > s.pending ==> visible && s.active && !s.requested
  {
    var s1 := s.(active := visible && s.active);
    if !visible && s1.requested then Cancel(s1)
    else if visible && s1.active && !s1.requested then Request(s1)
    else s1
  }

  /** The intersection observer: coming into view (more than 10% visible)
      reactivates the loop; leaving view stops it. */
  function OnIntersect(s: Loop, isIntersecting: bool, ratio: real): (r: Loop)
    requires LoopInvariant(s)
    ensures LoopInvariant(r)
    ensures r.active <==> isIntersecting && ratio > 0.1
    ensures !(isIntersecting && ratio > 0.1) ==> r.pending == 0
    ensures r.pending > s.pending ==> !s.active && !s.requested
  {
    if isIntersecting && ratio > 0.1 then
      if !s.active then
        var s1 := s.(active := true);
        if !s1.requested then Request(s1) else s1
      else s
    else Cancel(s.(active := false))
  }

  /** The debounced resize: the loop is cancelled and restarted if active. */
  function OnResize(s: Loop): (r: Loop)
    requires LoopInvariant(s)
    ensures LoopInvariant(r)
    ensures r.active == s.active && (r.pending == 1 <==> s.active)
  {
    var s1 := Cancel(s);
    if s1.active then Request(s1) else s1
  }

  /** The scheduled callback fires: `animate` reschedules itself while
      active. */
  function OnFrame(s: Loop): (r: Loop)
    requires LoopInvariant(s) && s.pending == 1
    ensures LoopInvariant(r) && r == s
  {
    var s1 := s.(pending := 0);
    if !s1.active then s1 else Request(s1)
  }

  /** Mounting: the ref starts active, and the loop starts unless the user
      prefers reduced motion. */
  function Mount(reduced: bool): (r: Loop)
    ensures LoopInvariant(r) && r.active
    ensures r.pending == 1 <==> !reduced
  {
    var s := Loop(true, false, 0);
    if !reduced then Request(s) else s
  }

  /** Hiding and then showing the page, with no intersection callback in
      between, leaves the loop stopped. */
  lemma HideShowStaysStopped(s: Loop)
    requires LoopInvariant(s)
    ensures var r := OnVisibility(OnVisibility(s, false), true);
      !r.active && r.pending == 0
  {
  }

  /** With reduced motion the loop does not start on mount, but scrolling
      the backdrop out of view and back starts it. */
  lemma ReducedMotionRestartsOnScroll()
    ensures Mount(true).pending == 0
    ensures OnIntersect(OnIntersect(Mount(true), false, 0.0), true, 1.0).pending == 1
  {
  }

  /** `animate` once scheduled: a glitch tick when `glitchSpeed` milliseconds
      passed since the last one, then one smoothing step in smooth mode
      without reduced motion. */
  function Animate(ls: seq<Letter>, colors: seq<string>, draws: seq<Draw>, lastGlitch: real, now: real,
                   glitchSpeed: real, smooth: bool, reduced: bool, hasContext: bool): (r: (seq<Letter>, real))
    requires |colors| > 0
    requires |ls| > 0 ==> |draws| >= MutationCount(|ls|)
    ensures |r.0| == |ls|
    ensures r.1 == (if now - lastGlitch >= glitchSpeed then now else lastGlitch)
    ensures now - lastGlitch < glitchSpeed && (!smooth || reduced) ==> r.0 == ls
    ensures now - lastGlitch >= glitchSpeed && (!smooth || reduced) ==>
      r.0 == UpdateLetters(ls, colors, draws, smooth, reduced)
    ensures smooth && !reduced ==>
      r.0 == SmoothTransitions(if now - lastGlitch >= glitchSpeed then UpdateLetters(ls, colors, draws, smooth, reduced)
                               else ls, hasContext).0
    ensures (!smooth || reduced) && (forall i :: 0 <= i < |ls| ==> ls[i].colorProgress == 1.0) ==>
      forall i :: 0 <= i < |r.0| ==> r.0[i].colorProgress == 1.0
    ensures smooth && !reduced && (forall i :: 0 <= i < |ls| ==> 0.0 <= ls[i].colorProgress <= 1.0) ==>
      forall i :: 0 <= i < |r.0| ==> 0.0 <= r.0[i].colorProgress <= 1.0
  {
    var glitched := if now - lastGlitch >= glitchSpeed then UpdateLetters(ls, colors, draws, smooth, reduced) else ls;
    var last := if now - lastGlitch >= glitchSpeed then now else lastGlitch;
    if smooth && !reduced then (SmoothTransitions(glitched, hasContext).0, last)
    else (glitched, last)
  }

  /** In immediate mode a frame of the loop leaves every letter that none of
      this tick's draws picks exactly as it was, whether or not a glitch was
      due. */
  lemma AnimateKeepsUnpickedLetters(ls: seq<Letter>, colors: seq<string>, draws: seq<Draw>, lastGlitch: real,
                                    now: real, glitchSpeed: real, smooth: bool, reduced: bool, hasContext: bool, j: nat)
    requires |colors| > 0 && |ls| > 0 && |draws| >= MutationCount(|ls|)
    requires !smooth || reduced
    requires j < |ls| && forall k :: 0 <= k < MutationCount(|ls|) ==> Pick(draws[k].index, |ls|) != j
    ensures Animate(ls, colors, draws, lastGlitch, now, glitchSpeed, smooth, reduced, hasContext).0[j] == ls[j]
  {
    if now - lastGlitch >= glitchSpeed {
      UpdateTouchesFewLetters(ls, colors, draws, smooth, reduced, j);
    }
  }
}

=== FILE: navigation.dfy ===
/** The navigation bar: which section is active after a scroll, what a click
    on a link does, and the links themselves. A section is active once its
    top edge has scrolled to within 100 pixels of the viewport's top. */
module Navigation {
  import opened Wrappers

  /** A `section[id]` element: its id and the top of its bounding box,
      relative to the viewport. */
  datatype Section = Section(id: string, top: real)

  /** The distance from the viewport's top within which a section counts as
      reached. */
  const ActivationOffset: real := 100.0

  /** The section shown when none has been reached. */
  const DefaultSection: string := "hero"

  predicate Reached(s: Section) {
    s.top <= ActivationOffset
  }

  // ---------------------------------------------------------------------------
  // The active section
  // ---------------------------------------------------------------------------

  /** The position of the last reached section, if any. */
  function LastReached(sections: seq<Section>): (k: Option<nat>)
    ensures k.None? <==> forall i :: 0 <= i < |sections| ==> !Reached(sections[i])
    ensures k.Some? ==>
      && k.value < |sections| && Reached(sections[k.value])
      && forall j :: k.value < j < |sections| ==> !Reached(sections[j])
  {
    if |sections| == 0 then None
    else
      var n := |sections| - 1;
      if Reached(sections[n]) then Some(n)
      else
        var front := sections[..n];
        assert forall i :: 0 <= i < n ==> front[i] == sections[i];
        LastReached(front)
  }

  /** The id of the last reached section in document order, or `hero` when
      none is reached. */
  function ScrolledSection(sections: seq<Section>): (id: string)
    ensures (forall i :: 0 <= i < |sections| ==> !Reached(sections[i])) ==> id == DefaultSection
    ensures (exists i :: 0 <= i < |sections| && Reached(sections[i])) ==>
              exists i :: 0 <= i < |sections| && Reached(sections[i]) && id == sections[i].id
                && forall j :: i < j < |sections| ==> !Reached(sections[j])
  {
    match LastReached(sections)
    case None => DefaultSection
    case Some(k) => sections[k].id
  }

  /** The scroll handler's fold over the sections, left to right, starting
      from `hero` and overwriting whenever a section is reached. */
  method FoldSections(sections: seq<Section>) returns (current: string)
    ensures current == ScrolledSection(sections)
  {
    current := DefaultSection;
    var i := 0;
    while i < |sections|
      invariant 0 <= i <= |sections|
      invariant current == ScrolledSection(sections[..i])
    {
      assert sections[..i + 1][..i] == sections[..i];
      if Reached(sections[i]) {
        current := sections[i].id;
      }
      i := i + 1;
    }
    assert sections[..i] == sections;
  }

  // ---------------------------------------------------------------------------
  // State and handlers
  // ---------------------------------------------------------------------------

  /** The bar's state: the highlighted section and whether the mobile menu is
      open. */
  datatype Nav = Nav(active: string, menuOpen: bool)

  const InitialNav: Nav := Nav(DefaultSection, false)

  /** The new state and the section passed to `onSectionChange`, if it is
      called. */
  datatype Outcome = Outcome(nav: Nav, notified: Option<string>)

  /** The scroll handler: the section is updated, and the listener told,
      only when the scrolled-to section differs from the active one. */
  function HandleScroll(nav: Nav, sections: seq<Section>): (o: Outcome)
    ensures o.nav.active == ScrolledSection(sections)
    ensures o.nav.menuOpen == nav.menuOpen
    ensures o.notified.Some? <==> ScrolledSection(sections) != nav.active
    ensures o.notified.Some? ==> o.notified.value == o.nav.active
    ensures o.notified.None? ==> o.nav == nav
  {
    var current := ScrolledSection(sections);
    if current != nav.active then Outcome(Nav(current, nav.menuOpen), Some(current))
    else Outcome(nav, None)
  }

  /** A second scroll over the same layout changes nothing and notifies no
      one. */
  lemma ScrollIdempotent(nav: Nav, sections: seq<Section>)
    ensures var o := HandleScroll(nav, sections);
      HandleScroll(o.nav, sections) == Outcome(o.nav, None)
  {
  }

  /** A click on a link: the section becomes active, the menu closes, and
      the listener is told once, whether or not the section changed. */
  function HandleNavClick(nav: Nav, section: string): (o: Outcome)
    ensures o.nav == Nav(section, false)
    ensures o.notified == Some(section)
  {
    Outcome(Nav(section, false), Some(section))
  }

  /** Once a click has selected the section the page then scrolls to, the
      scroll notifies no one again. */
  lemma ClickThenScrollNotifiesOnce(nav: Nav, section: string, sections: seq<Section>)
    requires ScrolledSection(sections) == section
    ensures HandleScroll(HandleNavClick(nav, section).nav, sections).notified.None?
  {
  }

  // ---------------------------------------------------------------------------
  // The links
  // ---------------------------------------------------------------------------

  datatype NavItem = NavItem(name: string, href: string)

  /** The links, in bar order. */
  const NavItems: seq<NavItem> := [
    NavItem("Home", "#hero"),
    NavItem("Projects", "#projects"),
    NavItem("Skills", "#skills"),
    NavItem("About", "#about"),
    NavItem("Contact", "#contact")]

  /** The ids of the page's sections, in page order. */
  const SectionIds: seq<string> := ["hero", "projects", "skills", "about", "contact"]

  /** `href.substring(1)`, which is empty for an empty `href`. */
  function Target(item: NavItem): string {
    if |item.href| >= 1 then item.href[1..] else []
  }

  /** Every link is `#` followed by the id of the section at the same
      position, so the targets are exactly the section ids. */
  lemma LinksTargetSections()
    ensures |NavItems| == |SectionIds|
    ensures forall i :: 0 <= i < |NavItems| ==>
      |NavItems[i].href| >= 1 && NavItems[i].href[0] == '#' && Target(NavItems[i]) == SectionIds[i]
  {
    assert NavItems[0].href == "#" + SectionIds[0];
    assert NavItems[1].href == "#" + SectionIds[1];
    assert NavItems[2].href == "#" + SectionIds[2];
    assert NavItems[3].href == "#" + SectionIds[3];
    assert NavItems[4].href == "#" + SectionIds[4];
  }

  /** A link is highlighted when its target is the active section. */
  predicate Highlighted(nav: Nav, i: nat)
    requires i < |NavItems|
  {
    nav.active == Target(NavItems[i])
  }

  /** At most one link is highlighted, and clicking a link highlights
      exactly that link. */
  lemma ClickHighlightsOnlyThatLink(nav: Nav, k: nat)
    requires k < |NavItems|
    ensures forall i :: 0 <= i < |NavItems| ==>
      (Highlighted(HandleNavClick(nav, Target(NavItems[k])).nav, i) <==> i == k)
  {
    LinksTargetSections();
    forall i | 0 <= i < |NavItems|
      ensures Highlighted(HandleNavClick(nav, Target(NavItems[k])).nav, i) <==> i == k
    {
      SectionIdsDistinct(i, k);
    }
  }

  lemma SectionIdsDistinct(i: nat, k: nat)
    requires i < |SectionIds| && k < |SectionIds|
    ensures SectionIds[i] == SectionIds[k] <==> i == k
  {
  }
}

=== FILE: pointers.dfy ===
/** Pointer input and timing of the fluid cursor: the pointer record and its
    down/move/up updates, the aspect-ratio correction of deltas, the frame
    time clamp, the colour-cycle timer, `HSVtoRGB`, and `applyInputs`, which
    turns the moves accumulated since the last frame into at most one splat
    per pointer. Random colours are parameters. Positions arrive already
    scaled to device pixels. */
module Pointers {
  import opened Wrappers
  import opened JsMath
  import Seqs

  datatype Rgb = Rgb(r: real, g: real, b: real)

  /** The pointer record the source keeps for the mouse or the first touch. */
  datatype Pointer = Pointer(
    id: int,
    texcoordX: real,
    texcoordY: real,
    prevTexcoordX: real,
    prevTexcoordY: real,
    deltaX: real,
    deltaY: real,
    down: bool,
    moved: bool,
    color: Rgb)

  /** `pointerPrototype`: id -1, everything zero, neither down nor moved. */
  const InitialPointer: Pointer := Pointer(-1, 0.0, 0.0, 0.0, 0.0, 0.0, 0.0, false, false, Rgb(0.0, 0.0, 0.0))

  /** The canvas's backing-store size as reals. */
  datatype Size = Size(width: real, height: real)

  predicate ValidSize(c: Size) {
    c.width > 0.0 && c.height > 0.0
  }

  function AspectRatio(c: Size): (a: real)
    requires ValidSize(c)
    ensures a > 0.0
  {
    c.width / c.height
  }

  /** `correctDeltaX`: shrink horizontal deltas on a portrait canvas. */
  function CorrectDeltaX(delta: real, c: Size): (r: real)
    requires ValidSize(c)
    ensures AspectRatio(c) < 1.0 ==> r == delta * AspectRatio(c)
    ensures AspectRatio(c) >= 1.0 ==> r == delta
    ensures r == 0.0 <==> delta == 0.0
  {
    var aspect := AspectRatio(c);
    if aspect < 1.0 then delta * aspect else delta
  }

  /** `correctDeltaY`: shrink vertical deltas on a landscape canvas. */
  function CorrectDeltaY(delta: real, c: Size): (r: real)
    requires ValidSize(c)
    ensures AspectRatio(c) > 1.0 ==> r * AspectRatio(c) == delta
    ensures AspectRatio(c) <= 1.0 ==> r == delta
    ensures r == 0.0 <==> delta == 0.0
  {
    var aspect := AspectRatio(c);
    if aspect > 1.0 then delta / aspect else delta
  }

  /** Texture coordinates of a device-pixel position: x to the right, y up. */
  function TexcoordX(posX: real, c: Size): real
    requires ValidSize(c)
  {
    posX / c.width
  }

  function TexcoordY(posY: real, c: Size): real
    requires ValidSize(c)
  {
    1.0 - posY / c.height
  }

  /** `updatePointerDownData`: the pointer is down, not moved, at the new
      position with no delta, and takes a fresh colour. */
  function PointerDown(p: Pointer, id: int, posX: real, posY: real, c: Size, color: Rgb): (q: Pointer)
    requires ValidSize(c)
    ensures q.id == id && q.down && !q.moved && q.color == color
    ensures q.texcoordX * c.width == posX && (1.0 - q.texcoordY) * c.height == posY
    ensures q.prevTexcoordX == q.texcoordX && q.prevTexcoordY == q.texcoordY
    ensures q.deltaX == 0.0 && q.deltaY == 0.0
  {
    var x := TexcoordX(posX, c);
    var y := TexcoordY(posY, c);
    Pointer(id, x, y, x, y, 0.0, 0.0, true, false, color)
  }

  /** `updatePointerMoveData`: the old position becomes the previous one, the
      delta is the aspect-corrected difference, and the pointer counts as
      moved exactly when its position changed. */
  function PointerMove(p: Pointer, posX: real, posY: real, c: Size, color: Rgb): (q: Pointer)
    requires ValidSize(c)
    ensures q.prevTexcoordX == p.texcoordX && q.prevTexcoordY == p.texcoordY
    ensures q.texcoordX * c.width == posX && (1.0 - q.texcoordY) * c.height == posY
    ensures q.deltaX == CorrectDeltaX(q.texcoordX - p.texcoordX, c)
    ensures q.deltaY == CorrectDeltaY(q.texcoordY - p.texcoordY, c)
    ensures q.moved <==> q.texcoordX != p.texcoordX || q.texcoordY != p.texcoordY
    ensures q.id == p.id && q.down == p.down && q.color == color
  {
    var x := TexcoordX(posX, c);
    var y := TexcoordY(posY, c);
    var dx := CorrectDeltaX(x - p.texcoordX, c);
    var dy := CorrectDeltaY(y - p.texcoordY, c);
    Pointer(p.id, x, y, p.texcoordX, p.texcoordY, dx, dy, p.down, dx != 0.0 || dy != 0.0, color)
  }

  /** `updatePointerUpData`: only the down flag changes. */
  function PointerUp(p: Pointer): (q: Pointer)
    ensures !q.down && q == p.(down := false)
  {
    p.(down := false)
  }

  // ---------------------------------------------------------------------------
  // Input events, all routed to the single pointer record
  // ---------------------------------------------------------------------------

  /** One target touch: its identifier, position and the colour drawn for it. */
  datatype Touch = Touch(identifier: int, posX: real, posY: real, color: Rgb)

  /** The listeners' events. A mouse move carries `Some` fresh colour when
      it is the first one: that DOM event reaches both the body's one-shot
      listener, which moves the pointer with the fresh colour, and the
      window's listener, which moves it again to the same place. Later moves
      keep the pointer's colour (`None`) and reach the window's listener
      alone. */
  datatype Event =
    | MouseDown(posX: real, posY: real, color: Rgb)
    | MouseMove(posX: real, posY: real, freshColor: Option<Rgb>)
    | TouchStart(touches: seq<Touch>)
    | TouchMove(moves: seq<(real, real)>)
    | TouchEnd

  /** `onTouchStart`: every touch overwrites the one pointer record. */
  function TouchesDown(p: Pointer, touches: seq<Touch>, c: Size): (q: Pointer)
    requires ValidSize(c)
    ensures |touches| == 0 ==> q == p
    ensures |touches| > 0 ==>
      var t := touches[|touches| - 1];
      q == PointerDown(p, t.identifier, t.posX, t.posY, c, t.color)
  {
    if |touches| == 0 then p
    else PointerDown(TouchesDown(p, touches[..|touches| - 1], c), touches[|touches| - 1].identifier,
                     touches[|touches| - 1].posX, touches[|touches| - 1].posY, c, touches[|touches| - 1].color)
  }

  /** `onTouchMove`: every touch moves the one pointer record in turn. */
  function TouchesMove(p: Pointer, moves: seq<(real, real)>, c: Size): (q: Pointer)
    requires ValidSize(c)
    ensures |moves| == 0 ==> q == p
    ensures q.id == p.id && q.down == p.down && q.color == p.color
  {
    if |moves| == 0 then p
    else
      var before := TouchesMove(p, moves[..|moves| - 1], c);
      PointerMove(before, moves[|moves| - 1].0, moves[|moves| - 1].1, c, before.color)
  }

  /** The effect of one event on the pointer, and whether a click splat
      fires immediately (`onMouseDown` calls `clickSplat`). */
  function HandleEvent(p: Pointer, e: Event, c: Size): (r: (Pointer, bool))
    requires ValidSize(c)
    ensures r.1 <==> e.MouseDown?
    ensures e.TouchEnd? ==> r.0 == PointerUp(p)
    ensures e.MouseDown? ==> r.0.id == -1 && r.0.down && !r.0.moved
    ensures e.MouseMove? ==> r.0.id == p.id && r.0.down == p.down
    ensures e.MouseMove? && e.freshColor.None? ==>
      && r.0.color == p.color
      && r.0.prevTexcoordX == p.texcoordX && r.0.prevTexcoordY == p.texcoordY
    ensures e.MouseMove? && e.freshColor.Some? ==>
      && r.0.color == e.freshColor.value && !r.0.moved
      && r.0.deltaX == 0.0 && r.0.deltaY == 0.0
      && r.0.prevTexcoordX == r.0.texcoordX && r.0.prevTexcoordY == r.0.texcoordY
  {
    match e
    case MouseDown(x, y, color) => (PointerDown(p, -1, x, y, c, color), true)
    case MouseMove(x, y, None) => (PointerMove(p, x, y, c, p.color), false)
    case MouseMove(x, y, Some(color)) =>
      var first := PointerMove(p, x, y, c, color);
      (PointerMove(first, x, y, c, first.color), false)
    case TouchStart(touches) => (TouchesDown(p, touches, c), false)
    case TouchMove(moves) => (TouchesMove(p, moves, c), false)
    case TouchEnd => (PointerUp(p), false)
  }

  /** The first mouse move never splats: the window's listener repeats the
      body's update at the same position, so the delta it leaves is zero and
      the next `applyInputs` finds nothing moved. */
  lemma FirstMoveNeverSplats(p: Pointer, x: real, y: real, color: Rgb, c: Size, splatForce: real)
    requires ValidSize(c)
    ensures var q := HandleEvent(p, MouseMove(x, y, Some(color)), c).0;
      && !q.moved && q.color == color
      && ApplyInputs([q], splatForce).1 == []
  {
  }

  /** A later move to a new position does splat, from the pointer it
      moved. */
  lemma LaterMoveSplats(p: Pointer, x: real, y: real, c: Size, splatForce: real)
    requires ValidSize(c) && (TexcoordX(x, c) != p.texcoordX || TexcoordY(y, c) != p.texcoordY)
    ensures var q := HandleEvent(p, MouseMove(x, y, None), c).0;
      && q.moved
      && ApplyInputs([q], splatForce).1 == [SplatOf(q, splatForce)]
  {
  }

  /** A run of mouse moves between two frames. */
  function MoveAll(p: Pointer, moves: seq<(real, real)>, c: Size): Pointer
    requires ValidSize(c)
  {
    if |moves| == 0 then p
    else
      var before := MoveAll(p, moves[..|moves| - 1], c);
      HandleEvent(before, MouseMove(moves[|moves| - 1].0, moves[|moves| - 1].1, None), c).0
  }

  /** Moves batch: after several moves the pointer holds only the last
      delta, measured from the position before the last move, and counts as
      moved iff that last move changed the position. Earlier deltas are lost. */
  lemma BatchedMovesKeepLastDelta(p: Pointer, moves: seq<(real, real)>, c: Size)
    requires ValidSize(c) && |moves| > 0
    ensures var before := MoveAll(p, moves[..|moves| - 1], c);
            var q := MoveAll(p, moves, c);
      && q == PointerMove(before, moves[|moves| - 1].0, moves[|moves| - 1].1, c, p.color)
      && q.prevTexcoordX == before.texcoordX && q.prevTexcoordY == before.texcoordY
      && (q.moved <==> q.texcoordX != before.texcoordX || q.texcoordY != before.texcoordY)
  {
    MoveAllKeepsColor(p, moves[..|moves| - 1], c);
  }

  lemma {:induction false} MoveAllKeepsColor(p: Pointer, moves: seq<(real, real)>, c: Size)
    requires ValidSize(c)
    ensures MoveAll(p, moves, c).color == p.color
  {
    if |moves| > 0 {
      MoveAllKeepsColor(p, moves[..|moves| - 1], c);
    }
  }

  /** Window mouse moves and the touches of one `touchmove` event fold the
      same update over the pointer, so what holds of a run of mouse moves
      holds of a multi-touch move too. */
  lemma {:induction false} MoveAllIsTouchesMove(p: Pointer, moves: seq<(real, real)>, c: Size)
    requires ValidSize(c)
    ensures MoveAll(p, moves, c) == TouchesMove(p, moves, c)
  {
    if |moves| > 0 {
      MoveAllIsTouchesMove(p, moves[..|moves| - 1], c);
    }
  }

  // ---------------------------------------------------------------------------
  // applyInputs
  // ---------------------------------------------------------------------------

  /** The arguments of one `splat` call. */
  datatype SplatArgs = SplatArgs(x: real, y: real, dx: real, dy: real, color: Rgb)

  /** `splatPointer`: the force is the delta scaled by `SPLAT_FORCE`. */
  function SplatOf(p: Pointer, splatForce: real): (s: SplatArgs)
    ensures s.x == p.texcoordX && s.y == p.texcoordY && s.color == p.color
    ensures s.dx == p.deltaX * splatForce && s.dy == p.deltaY * splatForce
  {
    SplatArgs(p.texcoordX, p.texcoordY, p.deltaX * splatForce, p.deltaY * splatForce, p.color)
  }

  /** The reference: the splats of the moved pointers, in order. */
  function MovedSplats(ps: seq<Pointer>, splatForce: real): seq<SplatArgs> {
    if |ps| == 0 then []
    else (if ps[0].moved then [SplatOf(ps[0], splatForce)] else []) + MovedSplats(ps[1..], splatForce)
  }

  /** `applyInputs`: clear each moved pointer's flag and splat it. */
  function ApplyInputs(ps: seq<Pointer>, splatForce: real): (r: (seq<Pointer>, seq<SplatArgs>))
    ensures |r.0| == |ps|
    ensures forall i :: 0 <= i < |ps| ==> r.0[i] == ps[i].(moved := false)
    ensures r.1 == MovedSplats(ps, splatForce)
  {
    if |ps| == 0 then ([], [])
    else
      var rest := ApplyInputs(ps[1..], splatForce);
      var splat := if ps[0].moved then [SplatOf(ps[0], splatForce)] else [];
      ([ps[0].(moved := false)] + rest.0, splat + rest.1)
  }

  /** The splats of `ps`, one per pointer, in order. */
  function SplatsOf(ps: seq<Pointer>, splatForce: real): (r: seq<SplatArgs>)
    ensures |r| == |ps| && forall i :: 0 <= i < |ps| ==> r[i] == SplatOf(ps[i], splatForce)
  {
    seq(|ps|, i requires 0 <= i < |ps| => SplatOf(ps[i], splatForce))
  }

  /** Exactly the moved pointers splat, once each, in order: the splats are
      those of `Array.prototype.filter` on the moved flag. */
  lemma {:induction false} MovedSplatsAreFilteredPointers(ps: seq<Pointer>, splatForce: real)
    ensures MovedSplats(ps, splatForce) == SplatsOf(Seqs.Filter(ps, (p: Pointer) => p.moved), splatForce)
  {
    if |ps| > 0 {
      MovedSplatsAreFilteredPointers(ps[1..], splatForce);
      var keep := (p: Pointer) => p.moved;
      var tail := Seqs.Filter(ps[1..], keep);
      if ps[0].moved {
        assert Seqs.Filter(ps, keep) == [ps[0]] + tail;
        SplatsOfCons(ps[0], tail, splatForce);
      } else {
        assert Seqs.Filter(ps, keep) == tail;
      }
    }
  }

  lemma SplatsOfCons(p: Pointer, ps: seq<Pointer>, splatForce: real)
    ensures SplatsOf([p] + ps, splatForce) == [SplatOf(p, splatForce)] + SplatsOf(ps, splatForce)
  {
    var qs := [p] + ps;
    var l := SplatsOf(qs, splatForce);
    var tail := SplatsOf(ps, splatForce);
    var r := [SplatOf(p, splatForce)] + tail;
    assert |l| == |r|;
    forall i | 0 <= i < |l|
      ensures l[i] == r[i]
    {
      if i == 0 {
        assert qs[0] == p;
      } else {
        assert qs[i] == ps[i - 1];
        assert r[i] == tail[i - 1];
      }
    }
    assert l == r;
  }

  // ---------------------------------------------------------------------------
  // Frame time and the colour cycle
  // ---------------------------------------------------------------------------

  /** The frame-time cap in seconds. */
  const MaxDeltaTime: real := 0.016666

  /** `calcDeltaTime`: seconds since the last update, capped, and the new
      last-update time. */
  function CalcDeltaTime(lastUpdateTime: real, now: real): (r: (real, real))
    ensures r.0 <= MaxDeltaTime && r.1 == now
    ensures r.0 * 1000.0 <= now - lastUpdateTime
    ensures (now - lastUpdateTime) / 1000.0 <= MaxDeltaTime ==> r.0 * 1000.0 == now - lastUpdateTime
  {
    var dt := (now - lastUpdateTime) / 1000.0;
    (if dt < MaxDeltaTime then dt else MaxDeltaTime, now)
  }

  /** Truncation toward zero. */
  function Trunc(q: real): (k: int)
    ensures q >= 0.0 ==> k as real <= q < k as real + 1.0
    ensures q < 0.0 ==> k as real - 1.0 < q <= k as real
  {
    if q >= 0.0 then q.Floor else -((-q).Floor)
  }

  /** JavaScript's `%` on numbers: `x - y * trunc(x / y)`, so the remainder
      takes the dividend's sign. */
  function JsRem(x: real, y: real): (r: real)
    requires y > 0.0
    ensures x >= 0.0 ==> 0.0 <= r < y
    ensures x < 0.0 ==> -y < r <= 0.0
  {
    var k := Trunc(x / y);
    RemainderBounds(x, y, k as real);
    x - y * k as real
  }

  /** Scaling the truncation bounds of the quotient `x / y` by `y`; `kr` is
      the truncated quotient. */
  lemma RemainderBounds(x: real, y: real, kr: real)
    requires y > 0.0
    requires x / y >= 0.0 ==> kr <= x / y < kr + 1.0
    requires x / y < 0.0 ==> kr - 1.0 < x / y <= kr
    ensures x >= 0.0 ==> 0.0 <= x - y * kr < y
    ensures x < 0.0 ==> -y < x - y * kr <= 0.0
  {
    if x / y >= 0.0 {
      BelowQuotient(x, y, 0.0);
      BelowQuotient(x, y, kr);
      AboveQuotient(x, y, kr + 1.0);
      assert y * (kr + 1.0) == y * kr + y;
    } else {
      AboveQuotient(x, y, 0.0);
      AboveQuotient(x, y, kr);
      BelowQuotient(x, y, kr - 1.0);
      assert y * (kr - 1.0) == y * kr - y;
    }
  }

  /** `wrap(value, min, max)`: `min` for an empty range, otherwise the
      JavaScript remainder shifted by `min`. */
  function Wrap(value: real, min: real, max: real): (r: real)
    requires max >= min
    ensures max == min ==> r == min
    ensures max > min && value >= min ==> min <= r < max
  {
    var range := max - min;
    if range == 0.0 then min else JsRem(value - min, range) + min
  }

  /** The colour-cycle state: the timer and the pointers' colours. */
  function UpdateColors(timer: real, dt: real, speed: real, ps: seq<Pointer>, newColor: nat -> Rgb): (r: (real, seq<Pointer>))
    ensures |r.1| == |ps|
    ensures timer + dt * speed >= 1.0 ==>
      && r.0 == Wrap(timer + dt * speed, 0.0, 1.0)
      && forall i :: 0 <= i < |ps| ==> r.1[i] == ps[i].(color := newColor(i))
    ensures timer + dt * speed < 1.0 ==> r == (timer + dt * speed, ps)
  {
    var t := timer + dt * speed;
    if t >= 1.0 then (Wrap(t, 0.0, 1.0), seq(|ps|, i requires 0 <= i < |ps| => ps[i].(color := newColor(i))))
    else (t, ps)
  }

  /** For a non-negative step the timer stays in [0, 1), and the colours are
      regenerated exactly when it reached 1. */
  lemma ColorTimerInvariant(timer: real, dt: real, speed: real, ps: seq<Pointer>, newColor: nat -> Rgb)
    requires 0.0 <= timer < 1.0 && dt >= 0.0 && speed >= 0.0
    ensures var (t, qs) := UpdateColors(timer, dt, speed, ps, newColor);
      && 0.0 <= t < 1.0
      && (qs != ps ==> timer + dt * speed >= 1.0)
      && (timer + dt * speed < 1.0 ==> t == timer + dt * speed && qs == ps)
  {
    assert dt * speed >= 0.0;
  }

  // ---------------------------------------------------------------------------
  // HSVtoRGB and generateColor
  // ---------------------------------------------------------------------------

  /** JavaScript's `%` on integers: truncating, so negative dividends give
      negative remainders. */
  function JsIntRem(a: int, b: int): (r: int)
    requires b > 0
    ensures a >= 0 ==> r == a % b
    ensures -b < r < b
  {
    if a >= 0 then a % b else -((-a) % b)
  }

  /** `HSVtoRGB`: the sector `floor(6h) % 6` picks the channel order; a
      negative sector falls to the default grey. */
  function HsvToRgb(h: real, s: real, v: real): Rgb {
    var i := (h * 6.0).Floor;
    var f := h * 6.0 - i as real;
    var p := v * (1.0 - s);
    var q := v * (1.0 - f * s);
    var t := v * (1.0 - (1.0 - f) * s);
    match JsIntRem(i, 6)
    case 0 => Rgb(v, t, p)
    case 1 => Rgb(q, v, p)
    case 2 => Rgb(p, v, t)
    case 3 => Rgb(p, q, v)
    case 4 => Rgb(t, p, v)
    case 5 => Rgb(v, p, q)
    case _ => Rgb(v, v, v)
  }

  /** The reachable case of `generateColor`'s call: with a hue in [0, 1),
      full saturation and value, every channel lies in [0, 1], one channel is
      1 and another is 0: a fully saturated colour, never grey. */
  lemma HsvSaturated(h: real)
    requires 0.0 <= h < 1.0
    ensures var c := HsvToRgb(h, 1.0, 1.0);
      && 0.0 <= c.r <= 1.0 && 0.0 <= c.g <= 1.0 && 0.0 <= c.b <= 1.0
      && (c.r == 1.0 || c.g == 1.0 || c.b == 1.0)
      && (c.r == 0.0 || c.g == 0.0 || c.b == 0.0)
  {
    var i := (h * 6.0).Floor;
    assert 0 <= i < 6;
    assert JsIntRem(i, 6) == i;
  }

  /** `generateColor`: a saturated hue dimmed to 15%. */
  function GenerateColor(h: real): (c: Rgb)
    requires 0.0 <= h < 1.0
    ensures 0.0 <= c.r <= 0.15 && 0.0 <= c.g <= 0.15 && 0.0 <= c.b <= 0.15
  {
    var c := HsvToRgb(h, 1.0, 1.0);
    HsvSaturated(h);
    Rgb(c.r * 0.15, c.g * 0.15, c.b * 0.15)
  }
}

=== FILE: project_details.dfy ===
/** The project details page, reduced to what it decides: not-found versus a
    project, the backdrop, how each video is embedded or played, the
    defaults of titles, alt texts and frame ratios, when the gallery is
    shown, and which links appear. JavaScript's `||` on strings treats the
    empty string as missing. */
module ProjectDetails {
  import opened Wrappers
  import opened Text
  import opened Projects

  /** `a || b` on optional strings: `a` unless it is missing or empty. */
  function OrElse(a: Option<string>, b: string): (r: string)
    ensures a.Some? && a.value != [] ==> r == a.value
    ensures a.None? || a.value == [] ==> r == b
  {
    if a.Some? && a.value != [] then a.value else b
  }

  /** A string that `||`, `&&` and `?:` treat as present. */
  predicate Truthy(a: Option<string>) {
    a.Some? && a.value != []
  }

  // ---------------------------------------------------------------------------
  // Videos
  // ---------------------------------------------------------------------------

  /** How a video is shown: an embedded YouTube or Vimeo player at the
      rewritten address, or a native player of the file. */
  datatype Player =
    | YouTubeEmbed(src: string, title: string)
    | VimeoEmbed(src: string, title: string)
    | FilePlayer(src: string, poster: Option<string>)

  /** A video hosted on YouTube: by its hint, or by its address when it has
      no hint. */
  predicate IsYouTube(v: Video) {
    v.kind == Some(YouTube) || (v.kind.None? && Contains(v.src, "youtube.com"))
  }

  predicate IsVimeo(v: Video) {
    v.kind == Some(Vimeo) || (v.kind.None? && Contains(v.src, "vimeo.com"))
  }

  /** The default title of the video at position `idx`: `Video <idx + 1>`. */
  function DefaultVideoTitle(idx: nat): (t: string)
    ensures |t| > 6 && t[..6] == "Video "
  {
    "Video " + NatToString(idx + 1)
  }

  /** The player of the video at position `idx`. */
  function PlayerOf(v: Video, idx: nat): (p: Player)
    ensures p.YouTubeEmbed? <==> IsYouTube(v)
    ensures p.VimeoEmbed? <==> !IsYouTube(v) && IsVimeo(v)
    ensures p.FilePlayer? ==> p == FilePlayer(v.src, v.poster)
    ensures !p.FilePlayer? ==> p.title == OrElse(v.title, DefaultVideoTitle(idx))
    ensures p.YouTubeEmbed? ==> p.src == ReplaceFirst(v.src, "watch?v=", "embed/")
    ensures p.VimeoEmbed? ==> p.src == ReplaceFirst(v.src, "vimeo.com/", "player.vimeo.com/video/")
  {
    var title := OrElse(v.title, DefaultVideoTitle(idx));
    if IsYouTube(v) then YouTubeEmbed(ReplaceFirst(v.src, "watch?v=", "embed/"), title)
    else if IsVimeo(v) then VimeoEmbed(ReplaceFirst(v.src, "vimeo.com/", "player.vimeo.com/video/"), title)
    else FilePlayer(v.src, v.poster)
  }

  /** The hint wins over the address: a file hint plays a YouTube address
      natively. */
  lemma HintWinsOverAddress(src: string, idx: nat)
    ensures PlayerOf(Video(src, None, None, Some(File)), idx) == FilePlayer(src, None)
  {
  }

  /** A YouTube watch address `<prefix>watch?v=<id>` whose prefix holds no
      `watch?v=` is embedded as `<prefix>embed/<id>`. */
  lemma YouTubeWatchBecomesEmbed(prefix: string, id: string, title: Option<string>, idx: nat)
    requires Contains(prefix, "youtube.com")
    requires forall j: nat :: j < |prefix| ==> !OccursAt(prefix + "watch?v=", "watch?v=", j)
    ensures PlayerOf(Video(prefix + "watch?v=" + id, title, None, None), idx).src == prefix + "embed/" + id
  {
    var s := prefix + "watch?v=" + id;
    ContainsIff(prefix, "youtube.com");
    var k: nat :| OccursAt(prefix, "youtube.com", k);
    assert s[k..k + 11] == prefix[k..k + 11];
    assert OccursAt(s, "youtube.com", k);
    ContainsIff(s, "youtube.com");
    ReplaceFirstAfter(prefix, "watch?v=", id, "embed/");
  }

  /** A Vimeo address `<prefix>vimeo.com/<id>` without a hint, whose prefix
      holds no `vimeo.com/` and no `youtube.com`, plays at
      `<prefix>player.vimeo.com/video/<id>`. */
  lemma VimeoAddressBecomesPlayer(prefix: string, id: string, title: Option<string>, idx: nat)
    requires !Contains(prefix + "vimeo.com/" + id, "youtube.com")
    requires forall j: nat :: j < |prefix| ==> !OccursAt(prefix + "vimeo.com/", "vimeo.com/", j)
    ensures PlayerOf(Video(prefix + "vimeo.com/" + id, title, None, None), idx)
         == VimeoEmbed(prefix + "player.vimeo.com/video/" + id, OrElse(title, DefaultVideoTitle(idx)))
  {
    var s := prefix + "vimeo.com/" + id;
    var n := |prefix|;
    assert s[n..n + 9] == "vimeo.com";
    assert OccursAt(s, "vimeo.com", n);
    ReplaceFirstAfter(prefix, "vimeo.com/", id, "player.vimeo.com/video/");
  }

  /** The caption under a video: its title, when present. */
  function VideoCaption(v: Video): (c: Option<string>)
    ensures c.Some? <==> Truthy(v.title)
    ensures c.Some? ==> c == v.title
  {
    if Truthy(v.title) then v.title else None
  }

  // ---------------------------------------------------------------------------
  // Screenshots
  // ---------------------------------------------------------------------------

  /** A screenshot as shown: its frame ratio, alt text and caption. */
  datatype Shot = Shot(src: string, ratio: real, alt: string, caption: Option<string>)

  /** `ratio ?? 16/9`, `alt || title`, and the caption when present. */
  function ShotOf(img: Image, projectTitle: string): (s: Shot)
    ensures s.src == img.src
    ensures img.ratio.Some? ==> s.ratio == img.ratio.value
    ensures img.ratio.None? ==> s.ratio == 16.0 / 9.0
    ensures s.alt == OrElse(img.alt, projectTitle)
    ensures s.caption.Some? <==> Truthy(img.caption)
    ensures s.caption.Some? ==> s.caption == img.caption
  {
    Shot(img.src, img.ratio.GetOr(16.0 / 9.0), OrElse(img.alt, projectTitle),
         if Truthy(img.caption) then img.caption else None)
  }

  // ---------------------------------------------------------------------------
  // The page
  // ---------------------------------------------------------------------------

  /** The media column: the gallery, or the cover image when there is
      nothing to show. */
  datatype Media =
    | Cover(src: string, alt: string)
    | Gallery(players: seq<Player>, captions: seq<Option<string>>, shots: seq<Shot>)

  /** What the page renders. */
  datatype Page =
    | NotFound
    | Details(project: Project, backdrop: string, media: Media, demo: Option<string>, github: Option<string>)

  /** The list of a project, or nothing. */
  function OrEmpty<T>(s: Option<seq<T>>): seq<T> {
    s.GetOr([])
  }

  /** The media column of a project. */
  function MediaOf(p: Project): (m: Media)
    ensures m.Cover? <==> |OrEmpty(p.images)| == 0 && |OrEmpty(p.videos)| == 0
    ensures m.Cover? ==> m == Cover(p.image, p.title)
    ensures m.Gallery? ==>
      && |m.players| == |m.captions| == |OrEmpty(p.videos)|
      && |m.shots| == |OrEmpty(p.images)|
      && (forall i :: 0 <= i < |m.players| ==> m.players[i] == PlayerOf(OrEmpty(p.videos)[i], i))
      && (forall i :: 0 <= i < |m.captions| ==> m.captions[i] == VideoCaption(OrEmpty(p.videos)[i]))
      && (forall i :: 0 <= i < |m.shots| ==> m.shots[i] == ShotOf(OrEmpty(p.images)[i], p.title))
  {
    var images := OrEmpty(p.images);
    var videos := OrEmpty(p.videos);
    if |images| > 0 || |videos| > 0 then
      Gallery(
        seq(|videos|, i requires 0 <= i < |videos| => PlayerOf(videos[i], i)),
        seq(|videos|, i requires 0 <= i < |videos| => VideoCaption(videos[i])),
        seq(|images|, i requires 0 <= i < |images| => ShotOf(images[i], p.title)))
    else Cover(p.image, p.title)
  }

  /** The page for the route parameter `slug`: a missing or empty slug is not
      looked up. */
  function PageFor(slug: Option<string>): (page: Page)
    ensures page.NotFound? <==> !Truthy(slug) || GetProjectBySlug(slug.value).None?
    ensures page.Details? ==>
      && Truthy(slug) && GetProjectBySlug(slug.value) == Some(page.project)
      && page.project.slug == slug.value
      && page.backdrop == OrElse(page.project.backdropImage, page.project.image)
      && page.media == MediaOf(page.project)
      && (page.demo.Some? <==> Truthy(page.project.demoUrl))
      && (page.demo.Some? ==> page.demo == page.project.demoUrl)
      && (page.github.Some? <==> Truthy(page.project.githubUrl))
      && (page.github.Some? ==> page.github == page.project.githubUrl)
  {
    var found := if Truthy(slug) then GetProjectBySlug(slug.value) else None;
    match found
    case None => NotFound
    case Some(p) =>
      Details(p, OrElse(p.backdropImage, p.image), MediaOf(p),
              if Truthy(p.demoUrl) then p.demoUrl else None,
              if Truthy(p.githubUrl) then p.githubUrl else None)
  }

  /** The property-management project shows a gallery of three file videos
      and five screenshots, all in 16:9 frames except the portrait team
      photo. */
  lemma PrimeCarePage()
    ensures var page := PageFor(Some("primecare-property-management"));
      && page.Details? && page.project == PrimeCare
      && page.backdrop == "/projects/primecare-cover.jpg"
      && page.media.Gallery? && |page.media.players| == 3 && |page.media.shots| == 5
      && (forall i :: 0 <= i < 3 ==> page.media.players[i].FilePlayer?)
      && (forall i :: 0 <= i < 4 ==> page.media.shots[i].ratio == 16.0 / 9.0)
      && page.media.shots[4].ratio == 3.0 / 4.0
  {
    PrimeCareFound();
    PrimeCareMedia();
  }

  lemma PrimeCareFound()
    ensures GetProjectBySlug("primecare-property-management") == Some(PrimeCare)
  {
    LookupFindsEachProject(4);
    assert Catalogue[4] == PrimeCare;
  }

  lemma PrimeCareMedia()
    ensures var m := MediaOf(PrimeCare);
      && m.Gallery? && |m.players| == 3 && |m.shots| == 5
      && (forall i :: 0 <= i < 3 ==> m.players[i].FilePlayer?)
      && (forall i :: 0 <= i < 4 ==> m.shots[i].ratio == 16.0 / 9.0)
      && m.shots[4].ratio == 3.0 / 4.0
  {
    var m := MediaOf(PrimeCare);
    assert forall i :: 0 <= i < 3 ==> PrimeCareVideos[i].kind == Some(File);
    assert forall i :: 0 <= i < 4 ==> PrimeCareImages[i].ratio.None?;
  }

  /** The marketplace has no media, so its page shows the cover image, and
      its backdrop falls back to the cover. */
  lemma AutoHubPage()
    ensures var page := PageFor(Some("djks-autohub"));
      && page.Details? && page.media == Cover(AutoHub.image, AutoHub.title)
      && page.backdrop == AutoHub.image
  {
    LookupFindsEachProject(0);
    assert Catalogue[0] == AutoHub;
  }
}

=== FILE: projects.dfy ===
/** The project catalogue: its records, the lookup by slug, and the
    showcase's technology filter. */
module Projects {
  import opened Wrappers
  import opened Seqs

  /** A screenshot; `ratio` is the width/height ratio of its frame. */
  datatype Image = Image(src: string, alt: Option<string>, caption: Option<string>, ratio: Option<real>)

  /** The hint a video may carry about where it is hosted. */
  datatype VideoType = YouTube | Vimeo | File

  datatype Video = Video(src: string, title: Option<string>, poster: Option<string>, kind: Option<VideoType>)

  /** The fields of a project the pages read. */
  datatype Project = Project(
    id: nat,
    slug: string,
    title: string,
    image: string,
    backdropImage: Option<string>,
    technologies: seq<string>,
    images: Option<seq<Image>>,
    videos: Option<seq<Video>>,
    demoUrl: Option<string>,
    githubUrl: Option<string>)

  // ---------------------------------------------------------------------------
  // The catalogue
  // ---------------------------------------------------------------------------

  const AutoHub: Project := Project(
    1, "djks-autohub", "DJK's AutoHub - Automotive Marketplace",
    "https://images.unsplash.com/photo-1583121274602-3e2820c69888?w=800&q=80", None,
    ["React.js", "Node.js", "MongoDB", "Express", "JWT", "Tailwind CSS", "Framer Motion"],
    None, None,
    Some("https://github.com/janithprabashrk/DJKs-AutoHub"), Some("https://github.com/janithprabashrk/DJKs-AutoHub"))

  const TechHub: Project := Project(
    2, "techhub-by-djk", "TechHub by DJK",
    "https://images.unsplash.com/photo-1551434678-e076c223a692?w=800&q=80", None,
    ["Spring Boot 3", "MySQL", "JWT", "Spring Security", "Stripe Payment"],
    None, None,
    Some("https://github.com/janithprabashrk/TechHub-By-DJK"), Some("https://github.com/janithprabashrk/TechHub-By-DJK"))

  const SmartParkingLink: string :=
    "https://www.linkedin.com/posts/janithrk_iot-smartparking-embeddedsystems-activity-7297566226862485504-tFxJ?utm_source=share&utm_medium=member_desktop&rcm=ACoAAEUqTvYBn-_zf-crSnOigEX9waZpU75xJ7c"

  const SmartParking: Project := Project(
    3, "smart-parking-alert", "Smart Parking Alert System",
    "https://images.unsplash.com/photo-1621929747188-0b4dc28498d2?w=800&q=80", None,
    ["IoT", "ESP32", "Embedded Systems", "Automation", "Energy Efficiency"],
    None, None,
    Some(SmartParkingLink), Some(SmartParkingLink))

  const DashboardLink: string := "https://mzqc-dashboard-by-janith-prabash-3ddebeaawhqfz88w8qgxan.streamlit.app/"

  const Dashboard: Project := Project(
    4, "mzqc-dashboard", "mzQC Dashboard",
    "https://images.unsplash.com/photo-1551288049-bebda4e38f71?w=800&q=80", None,
    ["Python", "Streamlit", "Data Visualization", "Bioinformatics", "Mass Spectrometry"],
    None, None,
    Some(DashboardLink), Some(DashboardLink))

  const PrimeCareImages: seq<Image> := [
    Image("/projects/primecare-cover.jpg", Some("PrimeCare cover"), None, None),
    Image("/projects/primecare-landing.jpg", Some("PrimeCare landing page"), Some("Welcome and featured properties"), None),
    Image("/projects/primecare-presentation.jpg", Some("Project presentation slide"), Some("Project overview"), None),
    Image("/projects/primecare-finance-report.jpg", Some("Finance report dashboard"), Some("Earnings, spending, profit dashboards"), None),
    Image("/projects/primecare-team.jpg", Some("Team photo"), Some("Team behind PrimeCare"), Some(3.0 / 4.0))]

  const PrimeCareVideos: seq<Video> := [
    Video("/projects/Recording 2025-04-15 151231.mp4", Some("PrimeCare Demo – 2025-04-15"), Some("/projects/primecare-landing.jpg"), Some(File)),
    Video("/projects/Recording 2025-04-16 104001.mp4", Some("PrimeCare Demo – 2025-04-16"), Some("/projects/primecare-presentation.jpg"), Some(File)),
    Video("/projects/Recording 2025-04-17 090359.mp4", Some("PrimeCare Demo – 2025-04-17"), Some("/projects/primecare-property-detail.jpg"), Some(File))]

  const PrimeCare: Project := Project(
    5, "primecare-property-management", "PrimeCare – Property Management System (PHP MVC)",
    "/projects/primecare-cover.jpg", Some("/projects/primecare-cover.jpg"),
    ["PHP", "MVC", "MySQL", "PayHere", "Notifications", "Responsive UI"],
    Some(PrimeCareImages), Some(PrimeCareVideos),
    Some("https://github.com/PrimeCare-groupProject/PrimeCare_php_mvc"), Some("https://github.com/PrimeCare-groupProject/PrimeCare_php_mvc"))

  /** `projects`, in page order. */
  const Catalogue: seq<Project> := [AutoHub, TechHub, SmartParking, Dashboard, PrimeCare]

  /** No two projects share a slug. */
  lemma SlugsDistinct()
    ensures forall i, j :: 0 <= i < j < |Catalogue| ==> Catalogue[i].slug != Catalogue[j].slug
  {
  }

  // ---------------------------------------------------------------------------
  // Lookup
  // ---------------------------------------------------------------------------

  /** `getProjectBySlug`: the first project with the slug, if any. */
  function GetProjectBySlug(slug: string): (r: Option<Project>)
    ensures r.Some? ==> r.value in Catalogue && r.value.slug == slug
    ensures r.None? <==> forall i :: 0 <= i < |Catalogue| ==> Catalogue[i].slug != slug
  {
    Find(Catalogue, (p: Project) => p.slug == slug)
  }

  /** Every project is found by its own slug. */
  lemma LookupFindsEachProject(i: nat)
    requires i < |Catalogue|
    ensures GetProjectBySlug(Catalogue[i].slug) == Some(Catalogue[i])
  {
    var r := GetProjectBySlug(Catalogue[i].slug);
    SlugsDistinct();
    assert r.Some?;
    var k :| 0 <= k < |Catalogue| && Catalogue[k] == r.value;
    assert Catalogue[k].slug == Catalogue[i].slug;
  }

  // ---------------------------------------------------------------------------
  // The showcase filter
  // ---------------------------------------------------------------------------

  /** The filter buttons, in page order. */
  const ShowcaseFilters: seq<string> :=
    ["All", "React", "Python", "Node.js", "IoT", "PHP", "Spring Boot 3", "MongoDB", "Streamlit"]

  /** The showcase's test for a technology: exact membership. */
  function HasTechnology(active: string): Project -> bool {
    (p: Project) => active in p.technologies
  }

  /** `filteredProjects`: everything under `All`, otherwise the projects that
      list the filter among their technologies, by exact match. */
  function FilteredProjects(projects: seq<Project>, active: string): (r: seq<Project>)
    ensures IsSubsequence(r, projects)
    ensures active == "All" ==> r == projects
    ensures active != "All" ==> forall p :: p in r <==> p in projects && active in p.technologies
    ensures active != "All" ==>
      forall p {:trigger multiset(r)[p]} :: multiset(r)[p] == if active in p.technologies then multiset(projects)[p] else 0
  {
    if active == "All" then
      SubsequenceReflexive(projects);
      projects
    else
      FilterIsSubsequence(projects, HasTechnology(active));
      Filter(projects, HasTechnology(active))
  }

  /** `React` selects nothing: the marketplace lists `React.js`, and the
      match is exact. */
  lemma ReactSelectsNothing()
    ensures FilteredProjects(Catalogue, "React") == []
  {
    FilterNone(Catalogue, HasTechnology("React"));
  }

  /** Every other technology button selects exactly one project. */
  lemma PythonSelectsDashboard()
    ensures FilteredProjects(Catalogue, "Python") == [Dashboard]
  {
    SelectsOne("Python", 3);
  }

  /** `Streamlit` and `Python` are interchangeable buttons: both show only
      the dashboard. */
  lemma StreamlitSelectsAsPython()
    ensures FilteredProjects(Catalogue, "Streamlit") == FilteredProjects(Catalogue, "Python") == [Dashboard]
  {
    PythonSelectsDashboard();
    SelectsOne("Streamlit", 3);
  }

  lemma NodeSelectsAutoHub()
    ensures FilteredProjects(Catalogue, "Node.js") == [AutoHub]
  {
    SelectsOne("Node.js", 0);
  }

  lemma MongoSelectsAutoHub()
    ensures FilteredProjects(Catalogue, "MongoDB") == [AutoHub]
  {
    SelectsOne("MongoDB", 0);
  }

  lemma IotSelectsSmartParking()
    ensures FilteredProjects(Catalogue, "IoT") == [SmartParking]
  {
    SelectsOne("IoT", 2);
  }

  lemma PhpSelectsPrimeCare()
    ensures FilteredProjects(Catalogue, "PHP") == [PrimeCare]
  {
    SelectsOne("PHP", 4);
  }

  lemma SpringBootSelectsTechHub()
    ensures FilteredProjects(Catalogue, "Spring Boot 3") == [TechHub]
  {
    SelectsOne("Spring Boot 3", 1);
  }

  lemma SelectsOne(t: string, i: nat)
    requires t != "All" && i < |Catalogue| && t in Catalogue[i].technologies
    requires forall j :: 0 <= j < |Catalogue| && j != i ==> t !in Catalogue[j].technologies
    ensures FilteredProjects(Catalogue, t) == [Catalogue[i]]
  {
    FilterOne(Catalogue, HasTechnology(t), i);
  }
}

=== FILE: seqs.dfy ===
/** `Array.prototype.filter` and `Array.prototype.find` over sequences, with
    the facts every caller needs: order preservation, exact membership and
    multiplicity, and first-match selection. */
module Seqs {
  import opened Wrappers

  /** The elements of `s` satisfying `keep`, in their original order. */
  function Filter<T(==,!new)>(s: seq<T>, keep: T -> bool): (r: seq<T>)
    ensures |r| <= |s|
    ensures forall i :: 0 <= i < |r| ==> r[i] in s && keep(r[i])
    ensures forall i :: 0 <= i < |s| && keep(s[i]) ==> s[i] in r
    ensures forall x {:trigger multiset(r)[x]} :: multiset(r)[x] == if keep(x) then multiset(s)[x] else 0
  {
    if |s| == 0 then []
    else
      assert s == [s[0]] + s[1..];
      if keep(s[0]) then [s[0]] + Filter(s[1..], keep)
      else Filter(s[1..], keep)
  }

  /** `a` can be obtained from `b` by deleting elements. */
  predicate IsSubsequence<T(==)>(a: seq<T>, b: seq<T>) {
    if |a| == 0 then true
    else if |b| == 0 then false
    else if a[0] == b[0] then IsSubsequence(a[1..], b[1..])
    else IsSubsequence(a, b[1..])
  }

  lemma {:induction false} FilterIsSubsequence<T(!new)>(s: seq<T>, keep: T -> bool)
    ensures IsSubsequence(Filter(s, keep), s)
  {
    if |s| > 0 {
      FilterIsSubsequence(s[1..], keep);
      var rest := Filter(s[1..], keep);
      if keep(s[0]) {
        assert Filter(s, keep)[1..] == rest;
      } else {
        SubsequenceOfTail(rest, s);
      }
    }
  }

  /** A subsequence of a sequence's tail is a subsequence of the sequence. */
  lemma {:induction false} SubsequenceOfTail<T>(a: seq<T>, b: seq<T>)
    requires |b| > 0 && IsSubsequence(a, b[1..])
    ensures IsSubsequence(a, b)
  {
    if |a| > 0 && a[0] == b[0] {
      if |b| > 1 && a[0] != b[1] {
        SubsequenceOfTail(a, b[1..]);
        assert IsSubsequence(a, b[1..][1..]) by {
          assert IsSubsequence(a, b[1..]);
        }
      }
      DropHead(a, b[1..]);
    }
  }

  /** Dropping the first element of a subsequence keeps it a subsequence. */
  lemma {:induction false} DropHead<T>(a: seq<T>, b: seq<T>)
    requires |a| > 0 && IsSubsequence(a, b)
    ensures IsSubsequence(a[1..], b)
  {
    if |b| > 0 {
      if a[0] == b[0] {
        SubsequenceOfTail(a[1..], b);
      } else {
        DropHead(a, b[1..]);
        SubsequenceOfTail(a[1..], b);
      }
    }
  }

  /** Filtering with a predicate every element meets changes nothing. */
  lemma {:induction false} FilterAll<T(!new)>(s: seq<T>, keep: T -> bool)
    requires forall i :: 0 <= i < |s| ==> keep(s[i])
    ensures Filter(s, keep) == s
  {
    if |s| > 0 {
      FilterAll(s[1..], keep);
    }
  }

  /** Filtering with a predicate no element meets gives nothing. */
  lemma {:induction false} FilterNone<T(!new)>(s: seq<T>, keep: T -> bool)
    requires forall i :: 0 <= i < |s| ==> !keep(s[i])
    ensures Filter(s, keep) == []
  {
    if |s| > 0 {
      FilterNone(s[1..], keep);
    }
  }

  /** Filtering with a predicate exactly one element meets gives that
      element alone. */
  lemma {:induction false} FilterOne<T(!new)>(s: seq<T>, keep: T -> bool, i: nat)
    requires i < |s| && keep(s[i])
    requires forall j :: 0 <= j < |s| && j != i ==> !keep(s[j])
    ensures Filter(s, keep) == [s[i]]
  {
    if i == 0 {
      FilterNone(s[1..], keep);
    } else {
      FilterOne(s[1..], keep, i - 1);
    }
  }

  /** Filtering with a predicate exactly two elements meet gives those two,
      in order. */
  lemma {:induction false} FilterTwo<T(!new)>(s: seq<T>, keep: T -> bool, i: nat, k: nat)
    requires i < k < |s| && keep(s[i]) && keep(s[k])
    requires forall j :: 0 <= j < |s| && j != i && j != k ==> !keep(s[j])
    ensures Filter(s, keep) == [s[i], s[k]]
  {
    if i == 0 {
      FilterOne(s[1..], keep, k - 1);
    } else {
      FilterTwo(s[1..], keep, i - 1, k - 1);
    }
  }

  /** Filtering with a predicate that exactly the first `n` elements meet
      gives those `n`. */
  lemma {:induction false} FilterLeading<T(!new)>(s: seq<T>, keep: T -> bool, n: nat)
    requires n <= |s|
    requires forall j :: 0 <= j < n ==> keep(s[j])
    requires forall j :: n <= j < |s| ==> !keep(s[j])
    ensures Filter(s, keep) == s[..n]
  {
    if n == 0 {
      FilterNone(s, keep);
    } else {
      FilterLeading(s[1..], keep, n - 1);
      assert Filter(s, keep) == [s[0]] + Filter(s[1..], keep) by { assert keep(s[0]); }
      PrefixCons(s, n);
    }
  }

  /** A non-empty prefix is the head followed by a prefix of the tail. */
  lemma PrefixCons<T>(s: seq<T>, n: nat)
    requires 0 < n <= |s|
    ensures s[..n] == [s[0]] + s[1..][..n - 1]
  {
  }

  /** Every sequence is a subsequence of itself. */
  lemma {:induction false} SubsequenceReflexive<T>(s: seq<T>)
    ensures IsSubsequence(s, s)
  {
    if |s| > 0 {
      SubsequenceReflexive(s[1..]);
    }
  }

  /** `Array.prototype.find`: the first element satisfying `pick`. */
  function Find<T>(s: seq<T>, pick: T -> bool): (r: Option<T>)
    ensures r.Some? ==> pick(r.value)
    ensures r.Some? ==> exists i :: 0 <= i < |s| && s[i] == r.value && forall j :: 0 <= j < i ==> !pick(s[j])
    ensures r.None? <==> forall i :: 0 <= i < |s| ==> !pick(s[i])
  {
    if |s| == 0 then None
    else if pick(s[0]) then Some(s[0])
    else
      var r := Find(s[1..], pick);
      assert r.Some? ==> exists i :: 0 <= i < |s| && s[i] == r.value && forall j :: 0 <= j < i ==> !pick(s[j]) by {
        if r.Some? {
          var i :| 0 <= i < |s| - 1 && s[1..][i] == r.value && forall j :: 0 <= j < i ==> !pick(s[1..][j]);
          assert s[i + 1] == r.value;
          assert forall j :: 0 <= j < i + 1 ==> !pick(s[j]) by {
            forall j | 0 <= j < i + 1 ensures !pick(s[j]) {
              if j > 0 { assert s[j] == s[1..][j - 1]; }
            }
          }
        }
      }
      r
  }
}

=== FILE: shader_variants.dfy ===
/** Shader-variant plumbing of the fluid cursor: the 32-bit string hash that
    keys compiled programs, the `#define` prefix a keyword list adds to a
    fragment shader, and the per-material cache of compiled variants.
    Compiling and linking are foreign calls; a compiled program is an opaque
    handle drawn from a counter, remembered with the source it was built from. */
module ShaderVariants {
  import opened Wrappers

  const TwoTo31: int := 0x8000_0000
  const TwoTo32: int := 0x1_0000_0000

  predicate IsInt32(x: int) {
    -TwoTo31 <= x < TwoTo31
  }

  /** ECMAScript `ToInt32` on an integral number (`x | 0`): reduce modulo
      2^32 into the signed range. */
  function ToInt32(x: int): (r: int)
    ensures IsInt32(r)
    ensures (r - x) % TwoTo32 == 0
    ensures IsInt32(x) ==> r == x
  {
    (x + TwoTo31) % TwoTo32 - TwoTo31
  }

  /** `ToInt32` only depends on its argument modulo 2^32. */
  lemma ToInt32Congruent(x: int, y: int)
    requires (x - y) % TwoTo32 == 0
    ensures ToInt32(x) == ToInt32(y)
  {
    var k := (x - y) / TwoTo32;
    assert x == y + TwoTo32 * k;
    var q := (y + TwoTo31) / TwoTo32;
    var m := (y + TwoTo31) % TwoTo32;
    assert x + TwoTo31 == TwoTo32 * (q + k) + m;
    assert (x + TwoTo31) % TwoTo32 == m;
  }

  /** `h << 5` on a 32-bit integer: the shifted-out bits are lost. */
  function ShiftLeft5(h: int): int {
    ToInt32(h * 32)
  }

  /** One round of the source's loop: `hash = (hash << 5) - hash + code; hash |= 0`. */
  function HashRound(h: int, c: char): int {
    ToInt32(ShiftLeft5(h) - h + c as int)
  }

  /** The reference: Java's `String.hashCode` recurrence h := int32(31·h + code). */
  function JavaHash(s: string): (r: int)
    ensures IsInt32(r)
  {
    if |s| == 0 then 0 else ToInt32(31 * JavaHash(s[..|s| - 1]) + s[|s| - 1] as int)
  }

  /** The shift-and-subtract round is the `31·h + code` recurrence. */
  lemma HashRoundIsTimes31(h: int, c: char)
    ensures HashRound(h, c) == ToInt32(31 * h + c as int)
  {
    var x := ShiftLeft5(h) - h + c as int;
    var y := 31 * h + c as int;
    assert (ShiftLeft5(h) - h * 32) % TwoTo32 == 0;
    assert x - y == ShiftLeft5(h) - h * 32;
    ToInt32Congruent(x, y);
  }

  /** The hash key of a keyword string, computed as the source's loop does. */
  method HashCode(s: string) returns (hash: int)
    ensures IsInt32(hash)
    ensures hash == JavaHash(s)
    ensures |s| == 0 ==> hash == 0
  {
    if |s| == 0 {
      return 0;
    }
    hash := 0;
    var i := 0;
    while i < |s|
      invariant 0 <= i <= |s|
      invariant hash == JavaHash(s[..i])
    {
      HashRoundIsTimes31(hash, s[i]);
      assert s[..i + 1][..i] == s[..i];
      hash := HashRound(hash, s[i]);
      i := i + 1;
    }
    assert s[..i] == s;
  }

  /** The polynomial the recurrence evaluates, without any truncation. */
  function Polynomial(s: string): int {
    if |s| == 0 then 0 else 31 * Polynomial(s[..|s| - 1]) + s[|s| - 1] as int
  }

  /** Truncating at every round gives the same hash as truncating once at the
      end: the hash is the character-code polynomial in 31, reduced to 32 bits. */
  lemma {:induction false} JavaHashIsTruncatedPolynomial(s: string)
    ensures JavaHash(s) == ToInt32(Polynomial(s))
  {
    if |s| > 0 {
      var p := s[..|s| - 1];
      JavaHashIsTruncatedPolynomial(p);
      var c := s[|s| - 1] as int;
      var h := JavaHash(p);
      var d := h - Polynomial(p);
      ScaledMultiple(d, 31);
      assert (31 * h + c) - (31 * Polynomial(p) + c) == 31 * d;
      ToInt32Congruent(31 * h + c, 31 * Polynomial(p) + c);
    }
  }

  /** A multiple of 2^32 stays one when scaled. */
  lemma ScaledMultiple(d: int, m: int)
    requires d % TwoTo32 == 0
    ensures (m * d) % TwoTo32 == 0
  {
    var k := d / TwoTo32;
    assert d == TwoTo32 * k;
    assert m * d == TwoTo32 * (m * k);
  }

  // ---------------------------------------------------------------------------
  // `#define` prefixing
  // ---------------------------------------------------------------------------

  /** The line `#define k` followed by a newline. */
  function DefineLine(keyword: string): string {
    "#define " + keyword + "\n"
  }

  /** The concatenated `#define` lines for `keywords`, in order. */
  function Defines(keywords: seq<string>): (r: string)
    ensures |keywords| == 0 <==> r == []
    ensures |keywords| > 0 ==> |r| >= 9 && r[..8] == "#define " && r[|r| - 1] == '\n'
  {
    if |keywords| == 0 then [] else DefineLine(keywords[0]) + Defines(keywords[1..])
  }

  /** The prefix of a list of keywords is the prefix of each part in order. */
  lemma {:induction false} DefinesAppend(a: seq<string>, b: seq<string>)
    ensures Defines(a + b) == Defines(a) + Defines(b)
  {
    if |a| > 0 {
      assert (a + b)[1..] == a[1..] + b;
      DefinesAppend(a[1..], b);
    } else {
      assert a + b == b;
    }
  }

  /** `addKeywords`: absent keywords leave the source alone; otherwise the
      `#define` lines come first and the source is kept as the suffix. */
  function AddKeywords(source: string, keywords: Option<seq<string>>): (r: string)
    ensures keywords.None? ==> r == source
    ensures |r| >= |source| && r[|r| - |source|..] == source
    ensures keywords.Some? ==> r[..|r| - |source|] == Defines(keywords.value)
  {
    match keywords
    case None => source
    case Some(ks) => Defines(ks) + source
  }

  /** An empty keyword list adds nothing either (an empty array is truthy in
      the source, but it contributes no lines). */
  lemma AddNoKeywords(source: string)
    ensures AddKeywords(source, Some([])) == source
  {
  }

  // ---------------------------------------------------------------------------
  // Material: one compiled program per keyword-hash
  // ---------------------------------------------------------------------------

  /** A linked program: its handle and the fragment source it was compiled from. */
  datatype Program = Program(handle: nat, fragmentSource: string)

  /** A display material: its fragment source, the cache of compiled variants
      keyed by the sum of keyword hashes, and the program currently active. */
  datatype Material = Material(
    fragmentSource: string,
    programs: map<int, Program>,
    active: Option<Program>)

  /** The cache key `setKeywords` computes: the plain (untruncated) sum of
      the keywords' hashes. */
  function KeywordsKey(keywords: seq<string>): int {
    if |keywords| == 0 then 0 else KeywordsKey(keywords[..|keywords| - 1]) + JavaHash(keywords[|keywords| - 1])
  }

  /** Every cached program and the active one were allocated below `next`,
      and the active program is one of the cached ones. */
  predicate ValidMaterial(m: Material, next: nat) {
    && (forall key :: key in m.programs ==> m.programs[key].handle < next)
    && (m.active.Some? ==> m.active.value in m.programs.Values)
  }

  /** The outcome of `setKeywords`: the new material, the next free handle,
      whether a program was compiled, and whether uniforms were re-read. */
  datatype SetKeywordsResult = SetKeywordsResult(material: Material, next: nat, compiled: bool, reloaded: bool)

  /** `Material.setKeywords`: look the variant up by key, compile it with the
      `#define` prefix on a miss, and switch to it (re-reading its uniform
      locations) unless it is already active. */
  function SetKeywords(m: Material, keywords: seq<string>, next: nat): (r: SetKeywordsResult)
    requires ValidMaterial(m, next)
    ensures ValidMaterial(r.material, r.next)
    ensures r.material.fragmentSource == m.fragmentSource
    ensures var key := KeywordsKey(keywords);
      && key in r.material.programs
      && r.material.active == Some(r.material.programs[key])
      && (key in m.programs ==> r.material.programs == m.programs && r.next == next && !r.compiled)
      && (key !in m.programs ==>
            && r.compiled
            && r.next == next + 1
            && r.material.programs == m.programs[key := Program(next, AddKeywords(m.fragmentSource, Some(keywords)))])
    ensures r.reloaded <==> m.active != r.material.active
    ensures forall key :: key in m.programs ==> key in r.material.programs && r.material.programs[key] == m.programs[key]
  {
    var key := KeywordsKey(keywords);
    var (program, programs, next', compiled) :=
      if key in m.programs then (m.programs[key], m.programs, next, false)
      else
        var p := Program(next, AddKeywords(m.fragmentSource, Some(keywords)));
        (p, m.programs[key := p], next + 1, true);
    if m.active == Some(program) then
      SetKeywordsResult(Material(m.fragmentSource, programs, m.active), next', compiled, false)
    else
      SetKeywordsResult(Material(m.fragmentSource, programs, Some(program)), next', compiled, true)
  }

  /** Asking for the same keywords twice compiles and reloads nothing the
      second time and leaves the material as it was. */
  lemma SetKeywordsIdempotent(m: Material, keywords: seq<string>, next: nat)
    requires ValidMaterial(m, next)
    ensures var r1 := SetKeywords(m, keywords, next);
            var r2 := SetKeywords(r1.material, keywords, r1.next);
            !r2.compiled && !r2.reloaded && r2.material == r1.material && r2.next == r1.next
  {
  }

  /** The display material's keywords: `SHADING` when shading is on. */
  function DisplayKeywords(shading: bool): (r: seq<string>)
    ensures shading <==> r == ["SHADING"]
    ensures !shading <==> r == []
  {
    if shading then ["SHADING"] else []
  }

  /** The shaded and unshaded display variants occupy different cache slots,
      so toggling shading never reuses the wrong program. */
  lemma {:induction false} DisplayVariantsDistinct()
    ensures KeywordsKey(DisplayKeywords(true)) == -1523179638
    ensures KeywordsKey(DisplayKeywords(true)) != KeywordsKey(DisplayKeywords(false))
  {
    assert "S"[..0] == "";
    assert JavaHash("S") == 83;
    assert "SH"[..1] == "S";
    assert JavaHash("SH") == 2645;
    assert "SHA"[..2] == "SH";
    assert JavaHash("SHA") == 82060;
    assert "SHAD"[..3] == "SHA";
    assert JavaHash("SHAD") == 2543928;
    assert "SHADI"[..4] == "SHAD";
    assert JavaHash("SHADI") == 78861841;
    assert "SHADIN"[..5] == "SHADI";
    assert JavaHash("SHADIN") == -1850250147;
    assert "SHADING"[..6] == "SHADIN";
    assert JavaHash("SHADING") == -1523179638;
    assert ["SHADING"][..0] == [];
  }
}

=== FILE: skills.dfy ===
/** The skills section: the skill records and the category filter its
    buttons drive. */
module Skills {
  import opened Seqs

  /** A skill bar; `level` is the percentage the bar fills. */
  datatype Skill = Skill(name: string, level: int, color: string, category: string)

  /** `skills`, in display order. */
  const SkillList: seq<Skill> := [
    Skill("Spring Boot", 90, "#6DB33F", "Backend"),
    Skill("MySQL", 85, "#4479A1", "Backend"),
    Skill("Spring Framework", 80, "#6DB33F", "Backend"),
    Skill("JavaScript", 75, "#F7DF1E", "Frontend"),
    Skill("Python", 70, "#3776AB", "Programming"),
    Skill("Java", 85, "#007396", "Programming"),
    Skill("Machine Learning", 60, "#9D4EDD", "Data Science"),
    Skill("Web Development", 80, "#5A189A", "Frontend"),
    Skill("Software Engineering", 75, "#7B2CBF", "Development"),
    Skill("Data Science", 65, "#C77DFF", "Data Science"),
    Skill("Network Analysis", 60, "#E0AAFF", "Networking"),
    Skill("Functional Programming", 70, "#3C096C", "Programming")]

  /** The category buttons, in page order. */
  const Categories: seq<string> := ["All", "Frontend", "Backend", "DevOps", "3D"]

  /** The filter's test for a category: exact equality. */
  function InCategory(active: string): Skill -> bool {
    (s: Skill) => s.category == active
  }

  /** `filteredSkills`: every skill under `All`, otherwise the skills of the
      active category, in display order. */
  function FilteredSkills(skills: seq<Skill>, active: string): (r: seq<Skill>)
    ensures IsSubsequence(r, skills)
    ensures active == "All" ==> r == skills
    ensures active != "All" ==> forall s :: s in r <==> s in skills && s.category == active
    ensures active != "All" ==>
      forall s {:trigger multiset(r)[s]} :: multiset(r)[s] == if s.category == active then multiset(skills)[s] else 0
  {
    if active == "All" then
      SubsequenceReflexive(skills);
      skills
    else
      FilterIsSubsequence(skills, InCategory(active));
      Filter(skills, InCategory(active))
  }

  /** `All` shows the twelve skills in order. */
  lemma AllShowsTwelve()
    ensures FilteredSkills(SkillList, "All") == SkillList && |SkillList| == 12
  {
  }

  /** Two of the buttons select nothing: no skill is in `DevOps` or `3D`. */
  lemma DevOpsSelectsNothing()
    ensures FilteredSkills(SkillList, "DevOps") == []
  {
    CategoryNames();
    FilterNone(SkillList, InCategory("DevOps"));
  }

  lemma ThreeDSelectsNothing()
    ensures FilteredSkills(SkillList, "3D") == []
  {
    CategoryNames();
    FilterNone(SkillList, InCategory("3D"));
  }

  /** The categories the skills use. */
  lemma CategoryNames()
    ensures forall i :: 0 <= i < |SkillList| ==>
      SkillList[i].category in ["Backend", "Frontend", "Programming", "Data Science", "Development", "Networking"]
  {
  }

  /** `Frontend` selects JavaScript and Web Development. */
  lemma FrontendSelectsTwo()
    ensures FilteredSkills(SkillList, "Frontend") == [SkillList[3], SkillList[7]]
    ensures SkillList[3].name == "JavaScript" && SkillList[7].name == "Web Development"
  {
    FilterTwo(SkillList, InCategory("Frontend"), 3, 7);
  }

  /** `Backend` selects the three Spring and MySQL skills. */
  lemma BackendSelectsThree()
    ensures FilteredSkills(SkillList, "Backend") == SkillList[..3]
    ensures SkillList[..3] == [SkillList[0], SkillList[1], SkillList[2]]
  {
    BackendFilter();
    FirstThree(SkillList);
  }

  lemma BackendFilter()
    ensures Filter(SkillList, InCategory("Backend")) == SkillList[..3]
  {
    var keep := InCategory("Backend");
    BackendLeads();
    assert forall j :: 0 <= j < 3 ==> keep(SkillList[j]);
    assert forall j :: 3 <= j < |SkillList| ==> !keep(SkillList[j]);
    FilterLeading(SkillList, keep, 3);
  }

  lemma FirstThree<T>(s: seq<T>)
    requires |s| >= 3
    ensures s[..3] == [s[0], s[1], s[2]]
  {
  }

  /** The backend skills are exactly the first three. */
  lemma BackendLeads()
    ensures forall i :: 0 <= i < |SkillList| ==> (SkillList[i].category == "Backend" <==> i < 3)
  {
    forall i | 0 <= i < |SkillList|
      ensures SkillList[i].category == "Backend" <==> i < 3
    {
      CategoryNames();
      assert |SkillList[i].category| == 7 <==> i < 3;
    }
  }

  /** Every level is a valid percentage for the bar's width. */
  lemma LevelsArePercentages()
    ensures forall i :: 0 <= i < |SkillList| ==> 0 <= SkillList[i].level <= 100
  {
  }

  /** Filtering keeps levels valid, so every shown bar has a valid width. */
  lemma ShownLevelsArePercentages(active: string)
    ensures forall s :: s in FilteredSkills(SkillList, active) ==> 0 <= s.level <= 100
  {
    LevelsArePercentages();
  }
}

=== FILE: text.dfy ===
/** String helpers the components rely on: substring search, first-occurrence
    replacement, ASCII case folding and trimming, decimal and hexadecimal
    digits, and the character-code ordering that stands for the UTF-16
    code-unit order of `Array.prototype.sort`. Strings are `seq<char>` and a
    character's code is its `as int` value, which is its UTF-16 code unit only
    inside the Basic Multilingual Plane: a character beyond it is one `char`
    here and a surrogate pair in JavaScript. */
module Text {
  import opened Wrappers

  // ---------------------------------------------------------------------------
  // Substring search
  // ---------------------------------------------------------------------------

  /** `sub` occurs in `s` starting at index `i`. */
  predicate OccursAt(s: string, sub: string, i: nat) {
    i + |sub| <= |s| && s[i..i + |sub|] == sub
  }

  /** The first index at or after `k` where `sub` occurs. */
  function IndexFrom(s: string, sub: string, k: nat): (r: Option<nat>)
    decreases |s| - k
    ensures r.Some? ==> k <= r.value && OccursAt(s, sub, r.value)
    ensures r.Some? ==> forall j :: k <= j < r.value ==> !OccursAt(s, sub, j)
    ensures r.None? ==> forall j :: k <= j ==> !OccursAt(s, sub, j)
  {
    if k + |sub| > |s| then None
    else if s[k..k + |sub|] == sub then Some(k)
    else IndexFrom(s, sub, k + 1)
  }

  /** `String.prototype.indexOf`: the first occurrence of `sub` in `s`. */
  function IndexOf(s: string, sub: string): (r: Option<nat>)
    ensures r.Some? ==> OccursAt(s, sub, r.value)
    ensures r.Some? ==> forall j :: 0 <= j < r.value ==> !OccursAt(s, sub, j)
    ensures r.None? <==> forall j :: !OccursAt(s, sub, j)
  {
    IndexFrom(s, sub, 0)
  }

  /** `String.prototype.includes`. */
  predicate Contains(s: string, sub: string) {
    IndexOf(s, sub).Some?
  }

  lemma ContainsIff(s: string, sub: string)
    ensures Contains(s, sub) <==> exists i :: OccursAt(s, sub, i)
  {
  }

  /** `String.prototype.replace` with a plain string pattern and a replacement
      that holds no `$` pattern: only the first occurrence is replaced. */
  function ReplaceFirst(s: string, pattern: string, replacement: string): (r: string)
    ensures (forall j: nat :: !OccursAt(s, pattern, j)) ==> r == s
    ensures forall i: nat :: OccursAt(s, pattern, i) && (forall j: nat :: j < i ==> !OccursAt(s, pattern, j)) ==>
              r == s[..i] + replacement + s[i + |pattern|..]
  {
    match IndexOf(s, pattern)
    case None => s
    case Some(i) => s[..i] + replacement + s[i + |pattern|..]
  }

  /** The first occurrence is unique: two indices that are each before every
      other occurrence coincide. */
  lemma FirstOccurrenceUnique(s: string, pattern: string, i: nat, k: nat)
    requires OccursAt(s, pattern, i) && OccursAt(s, pattern, k)
    requires forall j :: 0 <= j < i ==> !OccursAt(s, pattern, j)
    requires forall j :: 0 <= j < k ==> !OccursAt(s, pattern, j)
    ensures i == k
  {
  }

  /** Replacing in `prefix + pattern + rest`, where the pattern first occurs
      right after `prefix`, swaps exactly that occurrence. */
  lemma ReplaceFirstAfter(prefix: string, pattern: string, rest: string, replacement: string)
    requires forall j: nat :: j < |prefix| ==> !OccursAt(prefix + pattern, pattern, j)
    ensures ReplaceFirst(prefix + pattern + rest, pattern, replacement) == prefix + replacement + rest
  {
    var s := prefix + pattern + rest;
    var n := |prefix|;
    assert s[n..n + |pattern|] == pattern;
    forall j: nat | j < n
      ensures !OccursAt(s, pattern, j)
    {
      if j + |pattern| <= n + |pattern| {
        assert s[j..j + |pattern|] == (prefix + pattern)[j..j + |pattern|];
      }
      assert !OccursAt(prefix + pattern, pattern, j);
    }
    assert s[..n] == prefix;
    assert s[n + |pattern|..] == rest;
  }

  // ---------------------------------------------------------------------------
  // ASCII case folding and trimming
  // ---------------------------------------------------------------------------

  function LowerChar(c: char): (r: char)
    ensures 'A' <= c <= 'Z' ==> r as int == c as int + 32
    ensures !('A' <= c <= 'Z') ==> r == c
  {
    if 'A' <= c <= 'Z' then (c as int + 32) as char else c
  }

  /** `String.prototype.toLowerCase`, restricted to ASCII letters. */
  function ToLower(s: string): (r: string)
    ensures |r| == |s|
    ensures forall i :: 0 <= i < |s| ==> r[i] == LowerChar(s[i])
  {
    if |s| == 0 then [] else [LowerChar(s[0])] + ToLower(s[1..])
  }

  /** The ASCII white-space and line-terminator characters `trim` removes. */
  predicate IsSpace(c: char) {
    c == ' ' || c == '\t' || c == '\n' || c == '\r' || c == '\U{B}' || c == '\U{C}'
  }

  function TrimStart(s: string): (r: string)
    ensures |r| <= |s| && r == s[|s| - |r|..]
    ensures forall i :: 0 <= i < |s| - |r| ==> IsSpace(s[i])
    ensures |r| > 0 ==> !IsSpace(r[0])
  {
    if |s| > 0 && IsSpace(s[0]) then TrimStart(s[1..]) else s
  }

  function TrimEnd(s: string): (r: string)
    ensures |r| <= |s| && r == s[..|r|]
    ensures forall i :: |r| <= i < |s| ==> IsSpace(s[i])
    ensures |r| > 0 ==> !IsSpace(r[|r| - 1])
  {
    if |s| > 0 && IsSpace(s[|s| - 1]) then TrimEnd(s[..|s| - 1]) else s
  }

  /** `String.prototype.trim`: `s` with surrounding white space removed. */
  function Trim(s: string): (r: string)
    ensures exists i, j :: 0 <= i <= j <= |s| && r == s[i..j]
    ensures |r| > 0 ==> !IsSpace(r[0]) && !IsSpace(r[|r| - 1])
    ensures r == [] <==> forall i :: 0 <= i < |s| ==> IsSpace(s[i])
  {
    var t := TrimStart(s);
    var r := TrimEnd(t);
    assert r == s[|s| - |t|..|s| - |t| + |r|];
    r
  }

  /** Blanks before a string that starts with a non-blank are all removed. */
  lemma {:induction false} TrimStartPadded(pre: string, s: string)
    requires forall i :: 0 <= i < |pre| ==> IsSpace(pre[i])
    requires |s| > 0 && !IsSpace(s[0])
    ensures TrimStart(pre + s) == s
    decreases |pre|
  {
    if |pre| == 0 {
      assert pre + s == s;
    } else {
      assert (pre + s)[1..] == pre[1..] + s;
      TrimStartPadded(pre[1..], s);
    }
  }

  /** Blanks after a string that ends with a non-blank are all removed. */
  lemma {:induction false} TrimEndPadded(s: string, post: string)
    requires forall i :: 0 <= i < |post| ==> IsSpace(post[i])
    requires |s| > 0 && !IsSpace(s[|s| - 1])
    ensures TrimEnd(s + post) == s
    decreases |post|
  {
    if |post| == 0 {
      assert s + post == s;
    } else {
      var n := |post| - 1;
      assert (s + post)[..|s| + n] == s + post[..n];
      TrimEndPadded(s, post[..n]);
    }
  }

  /** `trim` removes exactly the blanks around a string that begins and ends
      with non-blanks. */
  lemma TrimPadded(pre: string, s: string, post: string)
    requires forall i :: 0 <= i < |pre| ==> IsSpace(pre[i])
    requires forall i :: 0 <= i < |post| ==> IsSpace(post[i])
    requires |s| > 0 && !IsSpace(s[0]) && !IsSpace(s[|s| - 1])
    ensures Trim(pre + s + post) == s
  {
    assert pre + s + post == pre + (s + post);
    TrimStartPadded(pre, s + post);
    TrimEndPadded(s, post);
  }

  // ---------------------------------------------------------------------------
  // Decimal rendering (template literals such as `Video ${idx + 1}`)
  // ---------------------------------------------------------------------------

  predicate IsDigit(c: char) {
    '0' <= c <= '9'
  }

  function DigitChar(d: nat): (c: char)
    requires d < 10
    ensures IsDigit(c) && c as int - '0' as int == d
  {
    ('0' as int + d) as char
  }

  /** The value of a string of decimal digits. */
  function DecimalValue(s: string): nat
    requires forall i :: 0 <= i < |s| ==> IsDigit(s[i])
  {
    if |s| == 0 then 0
    else
      var last := s[|s| - 1];
      assert IsDigit(last);
      10 * DecimalValue(s[..|s| - 1]) + (last as int - '0' as int)
  }

  /** The canonical decimal spelling of `n`. */
  function NatToString(n: nat): (r: string)
    ensures |r| >= 1
    ensures forall i :: 0 <= i < |r| ==> IsDigit(r[i])
    ensures |r| > 1 ==> r[0] != '0'
  {
    if n < 10 then [DigitChar(n)] else NatToString(n / 10) + [DigitChar(n % 10)]
  }

  /** Reading back the decimal spelling gives the number. */
  lemma {:induction false} NatToStringRoundTrip(n: nat)
    ensures DecimalValue(NatToString(n)) == n
  {
    if n >= 10 {
      var r := NatToString(n);
      assert r[..|r| - 1] == NatToString(n / 10);
      NatToStringRoundTrip(n / 10);
    }
  }

  // ---------------------------------------------------------------------------
  // Hexadecimal digits, case-insensitive as the `/[a-f\d]/i` class
  // ---------------------------------------------------------------------------

  predicate IsHexDigit(c: char) {
    '0' <= c <= '9' || 'a' <= c <= 'f' || 'A' <= c <= 'F'
  }

  function HexValue(c: char): (v: nat)
    requires IsHexDigit(c)
    ensures v < 16
  {
    if '0' <= c <= '9' then c as int - '0' as int
    else if 'a' <= c <= 'f' then c as int - 'a' as int + 10
    else c as int - 'A' as int + 10
  }

  /** The lower-case digit for `v`. */
  function HexChar(v: nat): (c: char)
    requires v < 16
    ensures IsHexDigit(c) && HexValue(c) == v
  {
    if v < 10 then ('0' as int + v) as char else ('a' as int + v - 10) as char
  }

  /** `parseInt(pair, 16)` for a two-digit pair. */
  function HexByte(hi: char, lo: char): (v: nat)
    requires IsHexDigit(hi) && IsHexDigit(lo)
    ensures v < 256
  {
    16 * HexValue(hi) + HexValue(lo)
  }

  /** The two-digit lower-case spelling of a byte. */
  function ByteToHex(b: nat): (r: string)
    requires b < 256
    ensures |r| == 2 && IsHexDigit(r[0]) && IsHexDigit(r[1])
    ensures HexByte(r[0], r[1]) == b
  {
    [HexChar(b / 16), HexChar(b % 16)]
  }

  // ---------------------------------------------------------------------------
  // Character-code ordering standing for the default `sort`
  // ---------------------------------------------------------------------------

  /** `a` sorts strictly before `b`: a proper prefix, or smaller at the first
      differing position. */
  predicate Less(a: string, b: string) {
    if |a| == 0 then |b| > 0
    else if |b| == 0 then false
    else if a[0] != b[0] then a[0] < b[0]
    else Less(a[1..], b[1..])
  }

  lemma {:induction false} LessIrreflexive(a: string)
    ensures !Less(a, a)
  {
    if |a| > 0 {
      LessIrreflexive(a[1..]);
    }
  }

  lemma {:induction false} LessAsymmetric(a: string, b: string)
    ensures Less(a, b) ==> !Less(b, a)
  {
    if |a| > 0 && |b| > 0 && a[0] == b[0] {
      LessAsymmetric(a[1..], b[1..]);
    }
  }

  lemma {:induction false} LessTransitive(a: string, b: string, c: string)
    requires Less(a, b) && Less(b, c)
    ensures Less(a, c)
  {
    if |a| > 0 && a[0] == b[0] && b[0] == c[0] {
      LessTransitive(a[1..], b[1..], c[1..]);
    }
  }

  lemma {:induction false} LessTotal(a: string, b: string)
    requires a != b
    ensures Less(a, b) || Less(b, a)
  {
    if |a| > 0 && |b| > 0 && a[0] == b[0] {
      LessTotal(a[1..], b[1..]);
    }
  }
}

=== FILE: wrappers.dfy ===
/** The optional-value type used wherever the source returns `null` or
    `undefined`, or reads an optional property. */
module Wrappers {

  datatype Option<+T> = None | Some(value: T) {

    /** The value, or `default` when absent (the source's `??` operator). */
    function GetOr(default: T): T {
      match this
      case Some(v) => v
      case None => default
    }
  }
}
